=== FILE: README.md ===
# Bee-Sustainable: a Dafny model of the game core

Bee-Sustainable is a maze-chase game. A bee moves through a hive maze, eats
pellets and dodges hornets. Stepping on a flower opens a bee trivia question.
A right answer frightens the hornets and lights one of four LEDs on an
Arduino controller. A wrong answer locks flowers for one second. The game can
be played from the keyboard or from the controller. The controller talks to
the game over a serial line in short text messages. A session log records
starts, answers, rounds and final scores.

This project models the core of that game as pure Dafny functions over
immutable datatypes, and proves what the code promises about them:

- `Decimal` (decimal.dfy): the decimal text of integers (`std::to_string`), with its inverse.
- `Text` (text.dfy): substring search; the greedy word wrap of the trivia screens; line truncation; two-digit score padding.
- `CInt` (cint.dfy): C++ integer semantics, written out. These are truncating `/` and `%`, the float-to-int cast, and 32-bit tick differences.
- `Controller` (controller.dfy): the serial controller. It covers message decoding into flags and the answer selection, plus the commands the game writes.
- `Trivia` and `TriviaBank` (trivia.dfy, trivia_bank.dfy): the eighteen-question bank and drawing without replacement with refill, plus answer checking and explanations.
- `Logger` (logger.dfy): the session log as the list of lines written, including the duration text.
- `Movement` (movement.dfy): one step of the bee's movement. It covers direction choice, turning, cornering, wall stops and the tunnel wrap.
- `Game` (game.dfy): the game state and the rules the main loop applies. These are pellets and flowers, ghost-house dot counters, ghost collisions, waves, the power-up, the high score, the win check, resets, and trivia answers.
- `Phases` (phases.dfy): the phase handlers and the per-frame dispatcher. It also holds start-up and a state invariant every frame keeps.

Everything a frame reads from outside arrives as a parameter. That means the
elapsed milliseconds, the tick count, the clock, the keyboard, the text each
serial read returns, and the random pick. Code in headers that are not part
of this model enters as fields of the `Env` and `MoveHooks` records. These
are the ghost AI, the wall test, the tunnel test, step vectors and centring.

## Model

| member | source | states |
|---|---|---|
| Decimal.NatToStringRoundTrip | Render.cpp:145 | The digits printed for a non-negative number parse back to that number. |
| Decimal.IntToStringRoundTrip | Render.cpp:145 | The text printed for any integer, with its minus sign, parses back to that integer. |
| Decimal.LeadingZero | Render.cpp:146-147 | A '0' put in front of a digit run does not change its value. |
| Decimal.NatToString | SerialController.cpp:296 | The text of a natural number is a non-empty run of digits. It starts with '0' only for zero, and it is one digit long exactly when the number is below 10. |
| Decimal.IntToString | Render.cpp:145 | The text of an integer is digits, with a '-' and at least one digit after it exactly when the integer is negative. |
| Text.Find | SerialController.cpp:185 | The result is the first index where the pattern occurs, or -1 exactly when it occurs nowhere. |
| Text.HasIffContains | SerialController.cpp:140-182 | The `find(...) != npos` test holds exactly when the pattern occurs somewhere. |
| Text.ByteLenBounds | Render.cpp:288 | A line's `length()` is its UTF-8 byte count: one to four bytes per character, and exactly one per character for ASCII text. |
| Text.WrapCountsBytes | Render.cpp:288 | Widths are compared in bytes: "a–" (4 bytes) and "b" do not share a 4-wide line, although their 3 characters would fit. |
| Text.WrapText | Render.cpp:282-303 | Read line by line, the wrapped lines give the text's whitespace-separated words, in order, each once. |
| Text.WrapTextLinesSpaced | Render.cpp:287-300 | Every line is non-empty. It is its words joined by single spaces, with no leading, trailing or doubled space. |
| Text.WrapTextLongLine | Render.cpp:288-295 | A line longer than the limit, in bytes, holds a single word. |
| Text.WrapTextGreedy | Render.cpp:288-295 | A line is broken only when the next word plus a space would pass the limit, counted in bytes. |
| Text.WrapTextBlank | Render.cpp:298-300 | The wrap is empty exactly when the text is all whitespace. |
| Text.TruncateLines | Render.cpp:202-204 | The result is a prefix of the lines of at most `max` lines, and it is all of them when they fit. |
| Text.QuestionLines | Render.cpp:193-204 | The question shows the first min(5, n) lines of its 26-byte wrap of n lines. |
| Text.AnswerLines | Render.cpp:215-226 | Answer i shows the first min(3, n) lines of the n-line wrap of "<i+1>: <answer>". |
| Text.ExplanationLines | Render.cpp:266-271 | The explanation shows the first min(10, n) lines of its 26-byte wrap of n lines. |
| Text.PadScore | Render.cpp:146-147 | A one-character text gains a leading '0', so a non-empty text ends at least two long. A run of digits keeps its value. |
| Text.ScoreText | Render.cpp:145-153 | The display of a non-negative score has at least two digits and parses back to the score. A negative score is printed unpadded and parses back too. |
| CInt.CDiv | Gameloop.cpp:540 | The quotient rounds toward zero: `abs(q)*abs(b) <= abs(a) < (abs(q)+1)*abs(b)`, and it has the sign rule of C. |
| CInt.CMod | GameLogger.cpp:139-141 | The remainder completes the C quotient (`q*b + r == a`), is smaller than the divisor in size, and takes the sign of `a`. |
| CInt.NonNegativeAgree | GameLogger.cpp:139-141 | On non-negative operands the C quotient and remainder are the mathematical ones. |
| CInt.Trunc | Gameloop.cpp:501-505 | The float-to-int cast is the integer part, rounded toward zero. |
| CInt.TickDiff | Gameloop.cpp:840 | The unsigned tick difference lies in [0, 2^32). It is the true difference when no wrap-around happened. |
| Controller.NewController | SerialController.cpp:11-21 | A new controller has every flag down, answer 1 selected, and no message or command. |
| Controller.ParseSelected | SerialController.cpp:185-192 | A decoded selection is 1..4 and is the digit right after the first "Selected: ". A message without that prefix decodes to nothing. |
| Controller.SelectedRoundTrip | SerialController.cpp:185-192 | A digit 1..4 placed after the first "Selected: " of a message is read back as that number. |
| Controller.Update | SerialController.cpp:109-202 | A disconnected controller is untouched. Otherwise the last message is the text read, when any, and the game-start flag equals the button flag. |
| Controller.UpdateDecodes | SerialController.cpp:113-192 | Reset and button flags hold iff their keywords occur. A joystick flag is raised by its keyword (Up/Down only without "Selected") and otherwise kept. The selection changes only on a valid "Selected: <1..4>". |
| Controller.UpdateKeepsSelection | SerialController.cpp:185-192 | The selected answer stays within 1..4 across updates. |
| Controller.OneShotVersusPersistent | SerialController.cpp:113-182 | After a run of messages, the start and reset flags reflect only the last message. The left flag is up iff it was up before or some message said "Left". |
| Controller.SetMode | SerialController.cpp:216-239 | It succeeds iff connected, and then appends exactly "MODE:<mode>\n" to what was written. |
| Controller.SwitchMode | SerialController.cpp:241-261 | Joystick and button flags are cleared. "MODE:ANSWERING\n" or "MODE:STEERING\n" is written only when connected, and nothing else changes. |
| Controller.ResetGame | SerialController.cpp:263-282 | "GAME:RESET\n" is written iff connected, and that is the success result. |
| Controller.SetFlowerCollected | SerialController.cpp:284-309 | It succeeds iff connected and the flower is 1..5, and then writes its decimal line. Otherwise nothing is written. |
| Controller.FlowerCommandRoundTrip | SerialController.cpp:296 | The LED command is one digit and a newline, and the digit reads back as the flower number. |
| Controller.ResetLEDs | SerialController.cpp:311-314 | "5\n" is written iff connected, and nothing else changes. |
| Controller.ResetJoystickFlags | SerialController.cpp:316-322 | The four joystick flags drop, and nothing else changes. |
| Controller.StartPressedAfterUpdate | SerialController.cpp:204-206 | After a connected update a start press is reported iff the message names a button ("Button", "NextScreen" or "Answering"). A disconnected controller keeps what it reported. |
| Movement.GetCorrection | Player.cpp:6-23 | A vertical turn corrects horizontally (LEFT iff the x fraction is at least 0.5). A horizontal turn corrects vertically (UP iff the y fraction is at least 0.5). |
| Movement.Cornering | Player.cpp:24-47 | One correction step is taken. Once the lane centre is passed the player is centred and cornering ends; otherwise it continues. |
| Movement.ResolveCollision | Player.cpp:48-64 | Only the coordinate along the heading is snapped to the tile centre. Every other field is kept. |
| Movement.SnapCentres | Player.cpp:48-64 | On the board a snap keeps the tile, lands on its centre, and is idempotent. |
| Movement.TunnelWrap | Player.cpp:158-165 | Leaving past either edge re-enters 29 tiles over. Any x in [-30, 58) ends in [-1, 29). |
| Movement.ChooseDir | Player.cpp:84-113 | An active joystick overrides the keyboard. Both rank Up over Down over Right over Left, and NONE means no input at all. |
| Movement.TryTurn | Player.cpp:116-133 | A direction is taken iff it is open and the player is outside the tunnel. Taking it unstops the player, and a non-reversal starts cornering with the matching correction. |
| Movement.TurnNeedsOpenWay | Player.cpp:116-133 | A heading change happens only toward the chosen, open direction outside the tunnel. |
| Movement.Advance | Player.cpp:143-165 | A wall ahead after the move stops the player, and the x coordinate is then wrapped through the tunnel. |
| Movement.PlayerMovement | Player.cpp:65-166 | The frame reads the controller, turns and advances. When connected the joystick flags are cleared afterwards, and nothing is written. |
| Movement.MovementEnds | Player.cpp:143-165 | A blocked heading at the end of the move leaves the player stopped, and the tunnel keeps x on the board strip. |
| Trivia.NewSession | Trivia.cpp:8-13 | A new session has the whole bank available. |
| Trivia.GetRandomQuestion | Trivia.cpp:274-296 | The drawn question is the picked pool entry and leaves the pool (the multiset is preserved, order kept). An exhausted pool refills from the bank, and an empty bank yields the empty question. |
| Trivia.DrawManyPartition | Trivia.cpp:286-293 | Draws that do not exhaust the pool are distinct pool entries. Drawn plus remaining is exactly the pool. |
| Trivia.FullCycle | Trivia.cpp:274-296 | A full cycle of draws returns every bank question once. The next draw comes from the refilled bank. |
| Trivia.DrawStaysInBank | Trivia.cpp:274-296 | A pool of bank questions stays so, and every draw is a (well-formed) bank question. |
| Trivia.CheckAnswer | Trivia.cpp:298-300 | An answer is accepted exactly when its index is the stored correct index. |
| Trivia.CheckAnswerExactlyOne | Trivia.cpp:298-300 | Exactly one of the four answer slots is accepted. |
| Trivia.GetExplanation | Trivia.cpp:302-308 | An index inside the explanation list gets its own explanation. Any other index gets the fallback text. |
| TriviaBank.InitialSession | Trivia.cpp:8-13 | The manager starts with all of the bank available. |
| TriviaBank.BankShape | Trivia.cpp:15-271 | The bank has 18 questions, each with four answers, four explanations, a correct index in 0..3 and a positive reward. |
| TriviaBank.BankExplanations | Trivia.cpp:302-308 | For bank questions, every answer slot has its own explanation and the fallback is never shown. |
| Logger.DurationFields | GameLogger.cpp:137-146 | Minutes, seconds and milliseconds add back up to the duration. Each field is in range and carries the duration's sign. |
| Logger.DurationToString | GameLogger.cpp:137-146 | The text is "<a>m <b>s <c>ms" with three signed numerals whose values, taken as minutes, seconds and milliseconds, add up to the duration. |
| Logger.DurationTextRoundTrip | GameLogger.cpp:137-146 | The three printed numbers are the C fields of the duration, and they read back as the duration. |
| Logger.NewLogger | GameLogger.cpp:7-10 | A new logger has written nothing and has no explanation timer running. |
| Logger.LogGameStart | GameLogger.cpp:33-47 | With the file open the round counter is 1, the start time is recorded, and the session header lines are appended. Closed, nothing changes. |
| Logger.LogTriviaAnswer | GameLogger.cpp:49-59 | Closed, nothing changes. Open, exactly four lines are appended after the old ones, and nothing else changes. |
| Logger.TriviaAnswerRecord | GameLogger.cpp:49-59 | The record names the question and the answer counted from 1 (reads back as selected+1). "Result: CORRECT" appears iff the answer was right, and "INCORRECT" iff not. |
| Logger.LogNewRound | GameLogger.cpp:61-69 | With the file open the round counter rises by one and the round line is appended. |
| Logger.RoundCounter | GameLogger.cpp:61-69 | After a session start and k new rounds the counter is k+1, and the last line announces that round. |
| Logger.StartExplanationTimer | GameLogger.cpp:71-75 | The timer starts at the given time whether or not the file is open, and nothing is written. |
| Logger.EndExplanationTimer | GameLogger.cpp:77-89 | Only an open log with a running timer writes the time spent and stops the timer. |
| Logger.ExplanationTimedOnce | GameLogger.cpp:71-89 | Start then end twice writes the two lines once, or nothing when closed. |
| Logger.LogGameScore | GameLogger.cpp:91-99 | With the file open the score is recorded and one score line is appended. |
| Logger.AddSessionSeparator | GameLogger.cpp:148-156 | A blank line, the rule and a blank line are appended when open. |
| Logger.LogGameOver | GameLogger.cpp:101-115 | The end time and total duration are appended, then the separator. |
| Logger.ClosedLogIsInert | GameLogger.cpp:33-115 | With the file closed every logging call leaves the logger unchanged. |
| Game.SetTileGetTile | Gameloop.cpp:464-473 | A written tile reads back, and every other tile keeps its character. |
| Game.FirstInHouse | Gameloop.cpp:440-445 | The result is the first ghost waiting at home, or -1 when none is. |
| Game.IncrementHouse | Gameloop.cpp:433-456 | The global counter rises only in global mode. Global mode survives only while some ghost waits at home. The ghosts are untouched in global mode or when none waits. |
| Game.IncrementGhostHouse | Gameloop.cpp:433-456 | Only the house bookkeeping and the ghosts change, as one house step gives them. |
| Game.SetAllGhostState | Gameloop.cpp:254 | Each ghost, in order, becomes what the header's per-ghost `SetAllGhostState` effect makes of it, and the count is kept. |
| Game.HouseStepEffect | Gameloop.cpp:433-456 | In global mode only the global counter rises, and global mode ends when nobody waits. Otherwise exactly the first waiting ghost's counter rises. The total rises by one iff a counter was in use. |
| Game.DrawIndex | Trivia.cpp:286-289 | The pick reduced to the pool is a valid draw index. |
| Game.EatPellet | Gameloop.cpp:467-477 | A pellet gives +10, empties the tile, takes one off the count, makes one house step, and skips the next move. Nothing else changes. |
| Game.OpenTrivia | Gameloop.cpp:478-497 | A flower opens the trivia screen with a fresh question and answer 0, and pauses the energizer. The controller goes to answering mode when connected, and the board is kept. |
| Game.CheckPelletCollision | Gameloop.cpp:457-498 | Nothing happens during the cooldown. Otherwise a pellet is eaten, a flower opens trivia, and other tiles do nothing. |
| Game.PelletAndFlower | Gameloop.cpp:457-498 | A pellet: +10 points, one fewer pellet, an emptied tile and one house step, with the phase kept. A flower: trivia with answer 0, and the board and score kept. |
| Game.EatGhost | Gameloop.cpp:506-519 | The caught ghost becomes `SetGhostState(GOHOME)` of itself, hidden, and the others are untouched. The k-th catch of the power-up scores 2^k*100, and a 500 ms pause begins. |
| Game.LoseLife | Gameloop.cpp:520-529 | One life is lost, the death pause of 2000 ms begins, and the first-life flag drops. |
| Game.CheckGhostCollision | Gameloop.cpp:499-532 | The collision check keeps four ghosts and leaves the board, the quiz, the high score, the wave counter and the player's position alone. |
| Game.CollideFromCounts | Gameloop.cpp:504-531 | The loop takes one life per deadly ghost on the tile and scores frightened ones in sequence. With no ghost on the tile the state is unchanged. |
| Game.GhostCollisionOutcome | Gameloop.cpp:499-532 | Lives drop by the number of deadly ghosts on the tile, and any such ghost means the death pause. Eaten ghosts add 100*(2^(n+e+1) - 2^(n+1)). |
| Game.UpdateWave | Gameloop.cpp:533-548 | Past wave 7 nothing changes. Otherwise the clock runs, and a full wave moves to the next and resets the clock. During a power-up the ghosts are kept. Otherwise they go through `SetAllGhostState` with the target `GetGlobalTarget` gives for the advanced state. |
| Game.WaveCounterBounded | Gameloop.cpp:536-541 | Over any number of ticks the wave counter never decreases and never passes 7. |
| Game.UpdateEnergizerTime | Gameloop.cpp:549-559 | With no power-up running nothing changes. Otherwise the clock counts down. When it reaches zero the ghosts go through `SetAllGhostState` with the target `GetGlobalTarget` gives, and the eating streak resets. Before that only the clock moves. |
| Game.PowerUpLasts | Gameloop.cpp:549-559 | A power-up of e ms ticked by ms > 0 runs exactly ceil(e/ms) ticks. Until then only its clock moves. After that the streak is 0 and further ticks change nothing. |
| Game.UpdateFlowerCooldown | Gameloop.cpp:1075-1084 | The cooldown runs only while flowers are locked, and reaching zero unlocks them. |
| Game.CooldownReleases | Gameloop.cpp:1075-1084 | A lock of cd ms ticked by ms > 0 releases exactly after ceil(cd/ms) ticks, not before. |
| Game.CheckHighScore | Gameloop.cpp:560-564 | The high score becomes the larger of itself and the score. |
| Game.CheckWin | Gameloop.cpp:565-577 | With no pellets left the round is won: ghosts hidden, the player stopped, and a 2000 ms pause. Otherwise nothing changes. |
| Game.HomeGhosts | Gameloop.cpp:359-413 | Ghost 0 starts outside the house and the others start at home in the house. Dot counters are kept. |
| Game.ResetGhostsAndPlayer | Gameloop.cpp:359-413 | Actors go to their start and the power-up and wave clock are cleared. The global counter starts at 0, and it is in charge after a lost life. |
| Game.ResetBoard | Gameloop.cpp:414-431 | The board comes back from the map with 244 pellets and no flowers. Every counter is zeroed and local counters are used. LEDs are cleared when connected. |
| Game.FreshRoundHouse | Gameloop.cpp:414-431 | A new round starts with every house counter at 0 and local counters. The first ghost waiting is ghost 1. |
| Game.LostLifeHouse | Gameloop.cpp:409-411 | After a lost life the global counter takes over from 0, and per-ghost counters are kept. |
| Game.AnswerTriviaQuestion | Gameloop.cpp:235-279 | The answer is logged and timed. A right answer gives the reward and the fright time, frightens the ghosts through `SetAllGhostState`, resets the streak and lights the next of four LEDs. Either way a connected controller is switched to steering. The controller gets the LED line (right answers only), then "MODE:STEERING\n". Nothing else changes. |
| Game.ConfirmCorrectExplanation | Gameloop.cpp:1002-1039 | The timer is logged, the LED is re-sent, and the flower is eaten like a pellet but without points. It is back to the maze with answer 0 selected. Score, timers, player, screens and the trivia session are kept. |
| Game.ConfirmIncorrectExplanation | Gameloop.cpp:1041-1073 | The timer is logged and it is back to the maze. Flowers are locked for 1000 ms, and nothing else changes. |
| Game.FlowerFate | Gameloop.cpp:1002-1073 | A right answer, once confirmed, removes the flower, costs one pellet of the count and pays the reward. A wrong one keeps the flower, and stepping on it right away does nothing. |
| Phases.UpdateGhosts | Gameloop.cpp:603 | The ghosts become what the header's update returns, with their count kept, and nothing else changes. |
| Phases.EatPause | Gameloop.cpp:583-593 | The pause runs down. Below zero the eaten ghost and the player reappear, and nothing else moves. |
| Phases.MovePlayer | Gameloop.cpp:597-599 | The player skips exactly one move after a pellet. |
| Phases.MazeRules | Gameloop.cpp:601-607 | After the rules the high score is at least the score, and a board without pellets ends in the 2000 ms win pause with the player stopped. |
| Phases.MazeRulesDeathFirst | Gameloop.cpp:600-607 | Corrected form, see Findings: a death in the collision check ends the frame's rules in the death pause with the lives taken and the board and quiz kept. Without a death it is the as-written rules. |
| Phases.FlowerHidesDeath | Gameloop.cpp:601-602 | As written, a death on a flower tile is overwritten by the flower's question: the frame ends in trivia with a life gone. The corrected rules end it in the death pause. |
| Phases.MainLoop | Gameloop.cpp:579-612 | The flower cooldown always runs. During the pause after eating a ghost the phase, the score and lives, and the board are kept, and of the timers only the pause moves. The quiz state is what the cooldown step leaves. |
| Phases.MazeRulesPhase | Gameloop.cpp:601-607 | The maze rules end in the maze, a death, trivia or a win. They never lower the score, and they keep the high score at least the score. |
| Phases.MainLoopScores | Gameloop.cpp:579-612 | A maze frame never lowers the score or the high score, and stays within maze, death, trivia or win. |
| Phases.GameStart | Gameloop.cpp:613-625 | When the start pause runs out the maze begins and the log opens the session. Before that only the pause moves. |
| Phases.EndGame | Gameloop.cpp:631-639 | Game over: a 5000 ms pause, actors hidden, and the final score and end written to the log. |
| Phases.NextLife | Gameloop.cpp:642-645 | Another life: ghosts back home, the player stopped at (14, 23.5) facing up, power-up and waves cleared, the global dot counter at 0, and a 2000 ms start pause. `firstLife`, score, board and everything else are kept. |
| Phases.GameLoseAsWritten | Gameloop.cpp:626-651 | The death pause as written: when it runs out the game ends only at exactly 0 lives, with actors hidden. Any other count restarts with ghosts home, the player at its start, and power-up and waves cleared. Before that only the pause moves. |
| Phases.GameLose | Gameloop.cpp:626-651 | After the death pause the game ends when no life is left (lives <= 0), with actors hidden. Otherwise it restarts with ghosts home, the player at its start, and power-up and waves cleared. Corrected form, see Findings. |
| Phases.GameLoseAgrees | Gameloop.cpp:630 | With lives never below zero, the corrected and as-written pauses agree. |
| Phases.NoLivesNoRestart | Gameloop.cpp:626-651 | A player without lives is never given another start. |
| Phases.DoubleCatch | Gameloop.cpp:504-531 | Two deadly ghosts on the tile with one life leave the count at -1, in the death pause. |
| Phases.BelowZeroRestarts | Gameloop.cpp:630 | With lives below zero the as-written pause restarts the game with the count still negative. The corrected one ends it. |
| Phases.GameWin | Gameloop.cpp:652-668 | After the win pause the score and a new round are logged. The board is fresh, the ghosts are home with zeroed dot counters, the player is stopped at (14, 23.5) facing up, and the house is back to local counters on a first life. Power-up and waves are cleared, the start pause is 2000 ms, and score and lives are kept. |
| Phases.SetupInstructionScreens | Gameloop.cpp:984-1001 | The first screen is shown locked from now, with every actor hidden. |
| Phases.MenuGhosts | Gameloop.cpp:669-687 | Ghost i goes to (6, 5.5+3i), heading right and chasing. |
| Phases.SetupMenu | Gameloop.cpp:669-687 | The menu line-up ends on the first instruction screen. Score, board, controller, log, trivia and timers are kept. |
| Phases.StartNewGame | Gameloop.cpp:698-705 | A new game: fresh board, ghosts home with zeroed dot counters, the player stopped at (14, 23.5) facing up, and the house on local counters and a first life. Power-up and waves are cleared, score is 0 with 3 lives, and the start pause is 4000 ms. |
| Phases.Menu | Gameloop.cpp:688-707 | Enter or the controller's start button begins a new game, and otherwise only the controller read happens. |
| Phases.UnlockScreen | Gameloop.cpp:840-842 | A screen unlocks once more than 100 ticks (unsigned 32-bit) have passed since it appeared. |
| Phases.InstructionScreen | Gameloop.cpp:831-949 | Once unlocked, a press moves to the next screen, which starts locked from now. Otherwise the screen is kept. |
| Phases.FinalInstructionScreen | Gameloop.cpp:951-981 | Once unlocked, a press is exactly `StartNewGame` on the state after the read and the unlock. Otherwise only the unlock and the read happen. |
| Phases.NoDoubleAdvance | Gameloop.cpp:853-861 | A screen just reached cannot be left within the next 100 ticks. |
| Phases.ArduinoChoice | Gameloop.cpp:305-320 | The controller's selection, when any, is an answer 0..3. |
| Phases.SelectAnswer | Gameloop.cpp:305-334 | A differing controller choice wins. Otherwise a fresh Up moves up (0 wraps to 3), else a fresh Down moves down (3 wraps to 0). |
| Phases.SelectionStaysInRange | Gameloop.cpp:305-334 | The selection stays in 0..3, and it is marked changed iff it changed. |
| Phases.HandleTriviaMode | Gameloop.cpp:281-356 | The frame reads, selects and reads again. Enter or the button submits the selection, and the key memory is this frame's keys. |
| Phases.TriviaFrame | Gameloop.cpp:281-356 | The selection stays in 0..3. A submit goes to the correct-answer screen iff the submitted answer is right. |
| Phases.ControllerSelectionWins | Gameloop.cpp:305-320 | A controller message naming another answer decides the selection, whatever the keys. |
| Phases.HandleCorrectExplanation | Gameloop.cpp:1002-1039 | A press confirms the right-answer explanation, and otherwise only the read happens. |
| Phases.HandleIncorrectExplanation | Gameloop.cpp:1041-1073 | A press confirms the wrong-answer explanation, and otherwise only the read happens. |
| Phases.ResetController | Gameloop.cpp:756-759 | When connected, "5\n" and then "GAME:RESET\n" are written, and nothing else changes. |
| Phases.GameOver | Gameloop.cpp:752-765 | The pause runs down. Below zero the controller is reset and the instruction screens return, with stats kept. |
| Phases.ResetFromController | Gameloop.cpp:711-739 | A reset: first screen locked from now, score 0, 3 lives, a fresh board. The ghosts are home with zeroed dot counters and hidden, the player is hidden at (14, 23.5), stopped and facing up, and the house is fresh. When connected "5\n", "5\n", "GAME:RESET\n" are written. Log, quiz and trivia session are kept. |
| Phases.GameLoop | Gameloop.cpp:708-797 | A reset request ends the frame on the first screen with score 0, 3 lives and a fresh board. Otherwise the frame moves only along the phase graph. |
| Phases.Dispatch | Gameloop.cpp:741-796 | Each phase's handler moves only to the phases the graph allows it. |
| Phases.ResetPreempts | Gameloop.cpp:711-739 | A reset request wins over every phase. Result: first screen, score 0, 3 lives, full board, and "5\n", "5\n", "GAME:RESET\n" written. |
| Phases.Init | Gameloop.cpp:180-233 | Start-up ends on the first instruction screen with a 2000 ms pause. The board comes from the map, trivia fields are cleared and flowers unlocked, and the player is at its menu spot. |
| Phases.InitValid | Gameloop.cpp:180-233 | Start-up establishes the state invariant. |
| Phases.MazeRulesValid | Gameloop.cpp:601-607 | The maze rules keep the invariant. |
| Phases.MainLoopValid | Gameloop.cpp:579-612 | A maze frame keeps the invariant. |
| Phases.TriviaValid | Gameloop.cpp:281-356 | A trivia frame keeps the invariant. |
| Phases.PausesValid | Gameloop.cpp:613-668 | The start, death, game-over and win pauses keep the invariant. |
| Phases.ScreensValid | Gameloop.cpp:831-981 | Menu, instruction screens and the reset keep the invariant. |
| Phases.ExplanationsValid | Gameloop.cpp:1002-1073 | Both explanation screens keep the invariant. |
| Phases.DispatchValid | Gameloop.cpp:741-796 | Every phase's handler keeps the invariant. |
| Phases.FrameKeepsValid | Gameloop.cpp:708-797 | Every frame keeps the invariant: four ghosts, a selection in 0..3, a wave counter up to 7, at most four flowers, and a locked flower only with cooldown left. |
| Phases.Run | Gameloop.cpp:708-797 | Any run of frames from a valid state ends in a valid state. |

## Left out

- Sound, music, animation and drawing (`Play*`, `AnimateUpdate`, `DrawFrame`, `PulseUpdate`, `SetPulseFrequency`, the draw screens) are left out: they only present the state and never change it.
- `RemovePellet` and `ResetPellets` in Render.cpp are left out: they update the pellet vertex array, not the game state.
- The serial port itself is left out: opening it, `ReadFile`, `PurgeComm`, the 256-byte buffer and the 500 ms and 50 ms sleeps. Each read becomes the text it returns, and each write is appended to `sent`.
- Controller.SetMode: a failed or short `WriteFile` is not modelled, and a connected write always succeeds, because the port's behaviour is outside the program.
- `DebugArduinoCommunication`, `InitializeSerialController`, `OnStart`, `OnQuit`, `InitBoard`, `LoadHighScore` and `SaveHighScore` are left out: they are file and port I/O around the core. The map file's lines are the `Env.mapFile` parameter.
- `CheckButtonPress` is left out: nothing in the core calls it. `getLastMessage` and `isResetRequested` are plain field reads.
- Ghost behaviour lives in headers that are not part of this model. It is passed in through `Env` as uninterpreted functions and constants, and no mode effect is assumed. These are `SetGhostState`, `SetAllGhostState` on one ghost, `GetGlobalTarget`, `UpdateGhosts`, `wave_times` and `fright_time`. Ghost speeds are not modelled: `Ghost` has no speed field, so the `ghost_speed` and `inhome_speed` that `ResetGhostsAndPlayer` sets (Gameloop.cpp:366-393) never reach the mover. The ghost-mode type lists only the five modes the core names.
- Game.SetAllGhostState: assumed to act on each ghost on its own and to keep the four ghosts in their order. The per-ghost effect itself is left open.
- Phases.UpdateGhosts: assumed to change only the ghost array and to keep four ghosts in it. What the ghosts become is left open.
- The player's wall test, tunnel test, step vector and centring (`PlayerTileCollision`, `InTunnel`, `dir_addition * player_speed`, `CenterObject`) are not part of this model. They are the `MoveHooks` fields; the reverse direction table is assumed to be the obvious one.
- `GetTile` and `SetTile` are not part of this model. The board is taken as rows of characters indexed `[y][x]`. Reads off the board give ' ' and writes off the board do nothing.
- Positions are `real`, not 32-bit floats. Rounding of float arithmetic is not modelled.
- Game.EatGhost: the score uses the exact 2^k, not `pow` on doubles, and score and lives are unbounded integers with no `int` overflow.
- Game.UpdateFlowerCooldown: the one-second cooldown is counted in integer milliseconds rather than float seconds.
- Dot counters, the global counter and the eaten-ghost streak are `nat`s, since the code only ever increments or zeroes them.
- Phases.EatPause: the eaten ghost is re-shown only when its recorded index is one of the ghosts. The source follows `recent_eaten` without any check.
- Logger.NewLogger: `roundNumber` is uninitialised in the constructor, so its value is a parameter. The local-time text and the clock are parameters too.
- Phases.Init: the default-constructed state the start-up code works on is a parameter with four ghosts.
- The random engine is replaced by the caller's pick. It is reduced into the pool's range, and a uniform distribution is not modelled.
- The per-frame key state is one `Keys` record. `enterKeyWasPressed` is never read, so it is not modelled.

## Findings

| source | as written | input that shows it | evidently intended | confidence | as-written member | corrected member |
|---|---|---|---|---|---|---|
| Gameloop.cpp:601-602 | `CheckPelletCollision` runs after `CheckGhostCollision` whatever it found. A death on a flower tile sets GAMELOSE, and the flower then sets TRIVIA_MODE in the same frame. The life is lost with no death pause and no actor reset. `CheckWin` can overwrite GAMELOSE with GAMEWIN the same way. | a chasing ghost on the player's tile, which holds an open flower, with pellets left | a death ends the frame's rules ("check collision first") | not executed | Phases.FlowerHidesDeath | Phases.MazeRulesDeathFirst |
| Gameloop.cpp:630 | The death pause ends the game only when `player_lives == 0`. `CheckGhostCollision` (Gameloop.cpp:504-531) does not stop at the first deadly ghost, so two deadly ghosts on the player's tile with one life left give lives -1. The pause then grants a new start, and the count never reaches zero again. | one life, ghosts 0 and 1 chasing on the player's tile, ghosts 2 and 3 elsewhere, then the 2000 ms death pause runs out | the game ends once no life is left (`player_lives <= 0`) | not executed | Phases.GameLoseAsWritten | Phases.GameLose |

The as-written behaviour is shown by `Phases.DoubleCatch` (the count reaches -1) and `Phases.BelowZeroRestarts` (the pause restarts instead of ending). The frame dispatcher (`Phases.Dispatch`, and with it `Phases.GameLoop` and `Phases.Run`) follows the source and uses `Phases.GameLoseAsWritten`. The corrected `Phases.GameLose` stands beside it. `Phases.NoLivesNoRestart` proves it never restarts without lives. `Phases.GameLoseAgrees` proves the two agree whenever the count is not negative.

The second row is shown by `Phases.FlowerHidesDeath` on `Phases.MazeRules`, which follows the source and which `Phases.MainLoop` uses. The corrected `Phases.MazeRulesDeathFirst` keeps the death pause, and it equals the as-written rules on every frame without a death.

=== FILE: cint.dfy ===
/**
  C++ integer semantics the game relies on, written out over Dafny's
  unbounded integers: division and remainder that truncate toward zero,
  the float-to-int cast, and unsigned 32-bit subtraction of tick counts.
 */
module CInt {
  function Abs(a: int): nat {
    if a < 0 then -a else a
  }

  /** C `/`: the quotient rounded toward zero. */
  function CDiv(a: int, b: int): (q: int)
    requires b != 0
    ensures Abs(q) * Abs(b) <= Abs(a) < (Abs(q) + 1) * Abs(b)
    ensures (a < 0) == (b < 0) ==> q >= 0
    ensures (a < 0) != (b < 0) ==> q <= 0
  {
    var q0 := Abs(a) / Abs(b);
    DivBounds(Abs(a), Abs(b));
    if (a < 0) == (b < 0) then q0 else -q0
  }

  lemma DivBounds(a: nat, b: nat)
    requires b > 0
    ensures (a / b) * b <= a < (a / b + 1) * b
  {
    assert a == (a / b) * b + a % b;
    assert (a / b + 1) * b == (a / b) * b + b;
  }

  /** C `%`: the remainder that goes with `CDiv`, carrying the sign of `a`. */
  function CMod(a: int, b: int): (r: int)
    requires b != 0
    ensures CDiv(a, b) * b + r == a
    ensures Abs(r) < Abs(b)
    ensures a >= 0 ==> r >= 0
    ensures a <= 0 ==> r <= 0
  {
    a - CDiv(a, b) * b
  }

  /** On non-negative operands the C operators agree with Dafny's. */
  lemma NonNegativeAgree(a: int, b: int)
    requires a >= 0 && b > 0
    ensures CDiv(a, b) == a / b && CMod(a, b) == a % b
  {
  }

  /** `(int)x` for a float: the integer part, rounded toward zero. */
  function Trunc(x: real): (t: int)
    ensures x >= 0.0 ==> t as real <= x < t as real + 1.0
    ensures x < 0.0 ==> t as real - 1.0 < x <= t as real
  {
    if x >= 0.0 then x.Floor else -((-x).Floor)
  }

  const TWO_TO_32: int := 0x1_0000_0000

  /** `a - b` on `DWORD` tick counts: the difference modulo 2^32. */
  function TickDiff(a: int, b: int): (d: int)
    ensures 0 <= d < TWO_TO_32
    ensures 0 <= b <= a < b + TWO_TO_32 ==> d == a - b
  {
    (a - b) % TWO_TO_32
  }
}

=== FILE: controller.dfy ===
/**
  The game controller seen from the game (SerialController.cpp): a keyword
  scan of each received message into one-shot flags (button, game start,
  reset request), persistent joystick flags, and the trivia selection parsed
  from "Selected: <digit>". Outgoing commands are appended to `sent`. The
  serial port itself is replaced by the received text (the empty string when
  nothing arrived) and by the list of commands written.
 */
module Controller {
  import opened Text
  import Decimal

  datatype Option<T> = None | Some(value: T)

  datatype Controller = Controller(
    connected: bool,
    joyUp: bool,
    joyDown: bool,
    joyLeft: bool,
    joyRight: bool,
    buttonPressed: bool,
    gameStartPressed: bool,   // the file-level `gameStartButtonPressed`
    selectedAnswer: int,      // 1-based
    resetRequested: bool,
    lastMessage: string,      // the file-level `lastMessage`
    sent: seq<string>)        // commands written to the port, oldest first

  datatype Sent = Sent(ok: bool, controller: Controller)

  const SELECTED_PREFIX: string := "Selected: "

  /** The controller as constructed, with `connected` telling whether
      `initialize` opened the port. */
  function NewController(connected: bool): (c: Controller)
    ensures c.connected == connected && c.selectedAnswer == 1
    ensures !c.joyUp && !c.joyDown && !c.joyLeft && !c.joyRight
    ensures !c.buttonPressed && !c.gameStartPressed && !c.resetRequested
    ensures c.lastMessage == "" && c.sent == []
  {
    Controller(connected, false, false, false, false, false, false, 1, false, "", [])
  }

  /** The message reports a button press in one of its three spellings. */
  predicate ButtonKeyword(msg: string) {
    Has(msg, "Button") || Has(msg, "NextScreen") || Has(msg, "Answering")
  }

  /** The digit after the first "Selected: " when it is '1'..'4'. */
  function ParseSelected(msg: string): (r: Option<int>)
    ensures r.Some? ==> 1 <= r.value <= 4
    ensures r.Some? ==>
      var p := Find(msg, SELECTED_PREFIX);
      OccursAt(msg, SELECTED_PREFIX, p) && p + 10 < |msg| && msg[p + 10] as int == '0' as int + r.value
    ensures !Contains(msg, SELECTED_PREFIX) ==> r == None
  {
    var p := Find(msg, SELECTED_PREFIX);
    if p != -1 && p + 10 < |msg| && '1' <= msg[p + 10] <= '4' then
      Some(msg[p + 10] as int - '0' as int)
    else
      None
  }

  /** Selection messages round-trip: a digit 1..4 placed right after the first
      "Selected: " of a message is what the decoder reads back. */
  lemma SelectedRoundTrip(pre: string, d: char, rest: string)
    requires '1' <= d <= '4'
    requires !Contains(pre, SELECTED_PREFIX)
    ensures ParseSelected(pre + SELECTED_PREFIX + [d] + rest) == Some(d as int - '0' as int)
  {
    var msg := pre + SELECTED_PREFIX + [d] + rest;
    var p := |pre|;
    assert msg[p..p + 10] == SELECTED_PREFIX;
    assert OccursAt(msg, SELECTED_PREFIX, p);
    forall j | 0 <= j < p
      ensures !OccursAt(msg, SELECTED_PREFIX, j)
    {
      if j + 10 > p {
        PrefixNoSelfOverlap(msg, j, p);
      } else {
        assert msg[j..j + 10] == pre[j..j + 10];
        assert !OccursAt(pre, SELECTED_PREFIX, j);
      }
    }
    assert Find(msg, SELECTED_PREFIX) == p;
    assert msg[p + 10] == d;
  }

  /** Two occurrences of "Selected: " never overlap: its only 'S' is the
      first character. */
  lemma PrefixNoSelfOverlap(msg: string, j: int, p: int)
    requires j < p < j + 10
    ensures !(OccursAt(msg, SELECTED_PREFIX, j) && OccursAt(msg, SELECTED_PREFIX, p))
  {
    if OccursAt(msg, SELECTED_PREFIX, j) {
      assert msg[p] == msg[j..j + 10][p - j] == SELECTED_PREFIX[p - j] != 'S';
    }
    if OccursAt(msg, SELECTED_PREFIX, p) {
      assert msg[p] == msg[p..p + 10][0] == 'S';
    }
  }

  /** What one message says, keyword by keyword. */
  datatype Scan = Scan(reset: bool, button: bool, up: bool, down: bool, left: bool, right: bool,
                       selected: Option<int>)

  function ScanMessage(input: string): Scan {
    Scan(Has(input, "RESET_GAME"), ButtonKeyword(input),
         Has(input, "Up") && !Has(input, "Selected"), Has(input, "Down") && !Has(input, "Selected"),
         Has(input, "Left"), Has(input, "Right"), ParseSelected(input))
  }

  /** SerialController::update with `input` the text read this call ("" when
      nothing arrived). */
  function Update(c: Controller, input: string): (r: Controller)
    ensures r.connected == c.connected && r.sent == c.sent
    ensures !c.connected ==> r == c
    ensures c.connected ==> r.lastMessage == (if input == "" then c.lastMessage else input)
    ensures c.connected ==> r.gameStartPressed == r.buttonPressed
  {
    if !c.connected then c
    else
      // An empty read matches no keyword, so the scan below leaves every
      // persistent field as it was and only the one-shot flags drop.
      var m := ScanMessage(input);
      c.(
        lastMessage := if input == "" then c.lastMessage else input,
        resetRequested := m.reset,
        buttonPressed := m.button,
        gameStartPressed := m.button,
        joyUp := c.joyUp || m.up,
        joyDown := c.joyDown || m.down,
        joyLeft := c.joyLeft || m.left,
        joyRight := c.joyRight || m.right,
        selectedAnswer := if m.selected.Some? then m.selected.value else c.selectedAnswer)
  }

  /** What a connected update decodes from one message: the one-shot flags
      hold exactly when their keywords occur, a joystick flag is raised by its
      keyword and never lowered, and the selection changes only on a valid
      "Selected: <1..4>". */
  lemma UpdateDecodes(c: Controller, input: string)
    requires c.connected
    ensures var r := Update(c, input);
      && (r.resetRequested <==> Contains(input, "RESET_GAME"))
      && (r.buttonPressed <==>
            Contains(input, "Button") || Contains(input, "NextScreen") || Contains(input, "Answering"))
      && (r.joyUp <==> c.joyUp || (Contains(input, "Up") && !Contains(input, "Selected")))
      && (r.joyDown <==> c.joyDown || (Contains(input, "Down") && !Contains(input, "Selected")))
      && (r.joyLeft <==> c.joyLeft || Contains(input, "Left"))
      && (r.joyRight <==> c.joyRight || Contains(input, "Right"))
      && r.selectedAnswer == (if ParseSelected(input).Some? then ParseSelected(input).value else c.selectedAnswer)
  {
    HasIffContains(input, "RESET_GAME");
    HasIffContains(input, "Button");
    HasIffContains(input, "NextScreen");
    HasIffContains(input, "Answering");
    HasIffContains(input, "Up");
    HasIffContains(input, "Down");
    HasIffContains(input, "Left");
    HasIffContains(input, "Right");
    HasIffContains(input, "Selected");
  }

  /** The selection stays in 1..4 across updates (it starts at 1). */
  lemma UpdateKeepsSelection(c: Controller, input: string)
    requires 1 <= c.selectedAnswer <= 4
    ensures 1 <= Update(c, input).selectedAnswer <= 4
  {
  }

  /** isGameStartPressed: either one-shot button flag. */
  function IsGameStartPressed(c: Controller): (b: bool)
    ensures b <==> c.gameStartPressed || c.buttonPressed
  {
    c.gameStartPressed || c.buttonPressed
  }

  /** After an update a start press is reported iff the message read names
      a button; a disconnected controller keeps reporting what it did. */
  lemma StartPressedAfterUpdate(c: Controller, input: string)
    ensures c.connected ==> (IsGameStartPressed(Update(c, input)) <==> ButtonKeyword(input))
    ensures !c.connected ==> IsGameStartPressed(Update(c, input)) == IsGameStartPressed(c)
  {
  }

  /** Successive updates, one per message. */
  function UpdateAll(c: Controller, inputs: seq<string>): Controller
    decreases |inputs|
  {
    if |inputs| == 0 then c else UpdateAll(Update(c, inputs[0]), inputs[1..])
  }

  /** One-shot flags reflect the last message only; joystick flags remember
      every message since they were last cleared. */
  lemma {:induction false} OneShotVersusPersistent(c: Controller, inputs: seq<string>)
    requires c.connected && |inputs| > 0
    ensures IsGameStartPressed(UpdateAll(c, inputs)) <==> ButtonKeyword(inputs[|inputs| - 1])
    ensures UpdateAll(c, inputs).resetRequested <==> Contains(inputs[|inputs| - 1], "RESET_GAME")
    ensures UpdateAll(c, inputs).joyLeft <==>
      c.joyLeft || exists k :: 0 <= k < |inputs| && Contains(inputs[k], "Left")
    decreases |inputs|
  {
    var c1 := Update(c, inputs[0]);
    if |inputs| > 1 {
      OneShotVersusPersistent(c1, inputs[1..]);
      assert inputs[1..][|inputs[1..]| - 1] == inputs[|inputs| - 1];
      if c1.joyLeft || exists k :: 0 <= k < |inputs[1..]| && Contains(inputs[1..][k], "Left") {
        if !c1.joyLeft {
          var k :| 0 <= k < |inputs[1..]| && Contains(inputs[1..][k], "Left");
          assert inputs[k + 1] == inputs[1..][k];
        }
      }
      if exists k :: 0 <= k < |inputs| && Contains(inputs[k], "Left") {
        var k :| 0 <= k < |inputs| && Contains(inputs[k], "Left");
        if k > 0 {
          assert inputs[1..][k - 1] == inputs[k];
        }
      }
    }
  }

  /** setMode: a "MODE:<mode>" line is written when connected. */
  function SetMode(c: Controller, mode: string): (s: Sent)
    ensures s.ok <==> c.connected
    ensures s.ok ==> s.controller == c.(sent := c.sent + ["MODE:" + mode + "\n"])
    ensures !s.ok ==> s.controller == c
  {
    if !c.connected then Sent(false, c)
    else Sent(true, c.(sent := c.sent + ["MODE:" + mode + "\n"]))
  }

  /** Joystick and button flags cleared, whatever the connection state. */
  function ClearInputFlags(c: Controller): Controller {
    c.(joyUp := false, joyDown := false, joyLeft := false, joyRight := false, buttonPressed := false)
  }

  /** The two input modes of the controller: answering trivia questions, or
      steering the bee. */
  datatype InputMode = ANSWERING | STEERING

  function ModeWord(m: InputMode): string {
    match m
    case ANSWERING => "ANSWERING"
    case STEERING => "STEERING"
  }

  /** setAnsweringMode / setSteeringMode: the mode line is written when
      connected, and the joystick and button flags are cleared either way. */
  function SwitchMode(c: Controller, m: InputMode): (r: Controller)
    ensures !r.joyUp && !r.joyDown && !r.joyLeft && !r.joyRight && !r.buttonPressed
    ensures r.sent == c.sent + (if c.connected then ["MODE:" + ModeWord(m) + "\n"] else [])
    ensures r.gameStartPressed == c.gameStartPressed && r.selectedAnswer == c.selectedAnswer
    ensures r.connected == c.connected && r.lastMessage == c.lastMessage
    ensures r.resetRequested == c.resetRequested
  {
    assert c.sent + [] == c.sent;
    ClearInputFlags(SetMode(c, ModeWord(m)).controller)
  }

  /** resetGame: "GAME:RESET" is written when connected. */
  function ResetGame(c: Controller): (s: Sent)
    ensures s.ok <==> c.connected
    ensures s.controller == c.(sent := c.sent + (if c.connected then ["GAME:RESET\n"] else []))
  {
    if !c.connected then Sent(false, c)
    else Sent(true, c.(sent := c.sent + ["GAME:RESET\n"]))
  }

  /** setFlowerCollected: the flower number 1..5 as a decimal line; refused
      without writing when disconnected or out of range. */
  function SetFlowerCollected(c: Controller, flower: int): (s: Sent)
    ensures s.ok <==> c.connected && 1 <= flower <= 5
    ensures !s.ok ==> s.controller == c
    ensures s.ok ==> 1 <= flower && s.controller == c.(sent := c.sent + [Decimal.NatToString(flower) + "\n"])
  {
    if !c.connected then Sent(false, c)
    else if flower < 1 || flower > 5 then Sent(false, c)
    else Sent(true, c.(sent := c.sent + [Decimal.IntToString(flower) + "\n"]))
  }

  /** The LED command carries the flower number back: its single digit reads
      as the number sent. */
  lemma FlowerCommandRoundTrip(c: Controller, flower: int)
    requires c.connected && 1 <= flower <= 5
    ensures
      var s := SetFlowerCollected(c, flower);
      var cmd := s.controller.sent[|s.controller.sent| - 1];
      |cmd| == 2 && cmd[1] == '\n' && Decimal.AllDigits(cmd[..1]) && Decimal.ParseDigits(cmd[..1]) == flower
  {
    var s := SetFlowerCollected(c, flower);
    var cmd := s.controller.sent[|s.controller.sent| - 1];
    assert cmd == Decimal.NatToString(flower) + "\n";
    assert cmd[..1] == Decimal.NatToString(flower);
    Decimal.NatToStringRoundTrip(flower);
  }

  /** resetLEDs: flower number 5 switches every LED off. */
  function ResetLEDs(c: Controller): (s: Sent)
    ensures s.ok <==> c.connected
    ensures s.controller.sent == c.sent + (if c.connected then ["5\n"] else [])
    ensures s.controller == c.(sent := s.controller.sent)
  {
    assert Decimal.NatToString(5) + "\n" == "5\n";
    assert c.sent + [] == c.sent;
    SetFlowerCollected(c, 5)
  }

  function ResetJoystickFlags(c: Controller): (r: Controller)
    ensures !r.joyUp && !r.joyDown && !r.joyLeft && !r.joyRight
    ensures r == c.(joyUp := r.joyUp, joyDown := r.joyDown, joyLeft := r.joyLeft, joyRight := r.joyRight)
  {
    c.(joyUp := false, joyDown := false, joyLeft := false, joyRight := false)
  }
}

=== FILE: decimal.dfy ===
/**
  Decimal rendering of integers, as produced by `std::to_string` and by
  `operator<<` on an integer stream. Used by the score display, the session
  log and the controller's LED command.
 */
module Decimal {

  predicate IsDigit(c: char) {
    '0' <= c <= '9'
  }

  predicate AllDigits(s: string) {
    forall i :: 0 <= i < |s| ==> IsDigit(s[i])
  }

  function DigitChar(d: nat): (c: char)
    requires d < 10
    ensures IsDigit(c) && DigitValue(c) == d
  {
    "0123456789"[d]
  }

  function DigitValue(c: char): nat
    requires IsDigit(c)
  {
    c as int - '0' as int
  }

  /** Decimal digits of `n`, most significant first, no leading zero. */
  function NatToString(n: nat): (r: string)
    ensures |r| >= 1 && AllDigits(r)
    ensures r[0] == '0' <==> n == 0
    ensures n < 10 <==> |r| == 1
    decreases n
  {
    if n < 10 then [DigitChar(n)] else NatToString(n / 10) + [DigitChar(n % 10)]
  }

  /** Decimal text of a signed integer: a '-' sign in front of a negative value. */
  function IntToString(i: int): (r: string)
    ensures |r| >= 1
    ensures i >= 0 ==> AllDigits(r)
    ensures i < 0 ==> r[0] == '-' && |r| >= 2 && AllDigits(r[1..])
  {
    if i < 0 then "-" + NatToString(-i) else NatToString(i)
  }

  /** The value of a run of decimal digits (the inverse of NatToString). */
  function ParseDigits(s: string): nat
    requires AllDigits(s)
  {
    if |s| == 0 then 0 else ParseDigits(s[..|s| - 1]) * 10 + DigitValue(s[|s| - 1])
  }

  /** A signed decimal text: digits, possibly after a '-'. */
  predicate IsNumeral(s: string) {
    |s| >= 1 && (AllDigits(s) || (s[0] == '-' && AllDigits(s[1..])))
  }

  /** The value of a signed decimal text (the inverse of IntToString). */
  function ParseInt(s: string): int
    requires IsNumeral(s)
  {
    if s[0] == '-' then -(ParseDigits(s[1..]) as int) else ParseDigits(s)
  }

  lemma {:induction false} NatToStringRoundTrip(n: nat)
    ensures ParseDigits(NatToString(n)) == n
    decreases n
  {
    if n >= 10 {
      var r := NatToString(n);
      NatToStringRoundTrip(n / 10);
      assert r[..|r| - 1] == NatToString(n / 10);
    }
  }

  lemma IntToStringRoundTrip(i: int)
    ensures ParseInt(IntToString(i)) == i
  {
    if i < 0 {
      NegativeRoundTrip(-i);
    } else {
      var r := NatToString(i);
      assert IsDigit(r[0]);
      NatToStringRoundTrip(i);
    }
  }

  lemma NegativeRoundTrip(n: nat)
    ensures var r := "-" + NatToString(n);
      r[0] == '-' && r[1..] == NatToString(n) && ParseInt(r) == -(n as int)
  {
    var r := "-" + NatToString(n);
    assert r[0] == '-' && r[1..] == NatToString(n);
    NatToStringRoundTrip(n);
  }

  /** A leading zero does not change the value of a digit run. */
  lemma {:induction false} LeadingZero(s: string)
    requires AllDigits(s)
    ensures ParseDigits("0" + s) == ParseDigits(s)
    decreases |s|
  {
    if |s| > 0 {
      var t := "0" + s;
      assert t[..|t| - 1] == "0" + s[..|s| - 1];
      LeadingZero(s[..|s| - 1]);
    }
  }
}

=== FILE: game.dfy ===
/**
  The game state and the rules the main loop applies to it (Gameloop.cpp):
  pellets and flowers, the ghost-house dot counters, ghost collisions, the
  scatter/chase wave timer, the energizer countdown, the high score, the win
  check, the board and actor resets, and the trivia answer and its
  confirmation.

  Ghost behaviour proper lives in headers that are not part of this model;
  it enters through the `Env` record, uninterpreted: what `SetGhostState`
  and `SetAllGhostState` do to a ghost, the mode `GetGlobalTarget` returns,
  the ghosts after `UpdateGhosts`, the wave lengths and the fright time.
  Sounds, animation and drawing are cues with no effect on the state and
  are left out.
 */
module Game {
  import opened CInt
  import opened Movement
  import Trivia
  import Controller
  import Logger
  import Decimal

  datatype Phase =
    | MENU | GAMESTART | MAINLOOP | GAMELOSE | GAMEOVER | GAMEWIN
    | TRIVIA_MODE | TRIVIA_CORRECT_EXPLANATION | TRIVIA_INCORRECT_EXPLANATION
    | INSTR_SCREEN1 | INSTR_SCREEN2 | INSTR_SCREEN3 | INSTR_SCREEN4 | INSTR_FINAL_SCREEN

  /** The ghost target states the game code names. */
  datatype Mode = CHASE | CORNER | FRIGHTENED | GOHOME | HOMEBASE

  datatype Ghost = Ghost(
    pos: Vec,
    dir: Dir,
    mode: Mode,           // target_state
    inHouse: bool,
    dotCounter: nat,
    enableDraw: bool)

  /** The maze and what is left on it. */
  datatype Maze = Maze(
    board: seq<string>,
    pelletsLeft: int,
    flowersCollected: nat)

  datatype Stats = Stats(score: int, highScore: int, lives: int)

  datatype Timers = Timers(
    pauseTime: int,
    energizerTime: int,
    waveCounter: nat,
    waveTime: int)

  /** Ghost-house release bookkeeping. */
  datatype House = House(
    firstLife: bool,
    usingGlobalCounter: bool,
    globalDotCounter: nat)

  /** What the player ate lately. */
  datatype Feeding = Feeding(
    pelletEaten: bool,
    playerEatGhost: bool,
    recentEaten: int,           // index of the ghost eaten last
    ghostsEaten: nat)           // ghosts_eaten_in_powerup

  /** The trivia screen and the flower it belongs to. */
  datatype Quiz = Quiz(
    question: Trivia.Question,  // current_trivia_question
    selected: int,              // selected_trivia_answer, 0-based
    lastAnswerCorrect: bool,
    explanation: string,
    canInteractWithFlower: bool,
    flowerCooldown: int,        // milliseconds
    upWasPressed: bool,         // HandleTriviaMode's static key memory
    downWasPressed: bool)

  /** Instruction screen gating. */
  datatype Screens = Screens(
    canAdvanceScreen: bool,
    screenChangeTime: int)      // GetTickCount() at the last screen change

  datatype GameState = GameState(
    phase: Phase,
    maze: Maze,
    player: Player,
    ghosts: seq<Ghost>,
    stats: Stats,
    timers: Timers,
    house: House,
    feeding: Feeding,
    quiz: Quiz,
    screens: Screens,
    trivia: Trivia.Session,      // gTriviaManager
    ctrl: Controller.Controller, // gSerialController
    log: Logger.Logger)          // gGameLogger

  function KeepGhosts(s: GameState): seq<Ghost> {
    s.ghosts
  }

  /** What `UpdateGhosts` leaves in the ghost array: as many ghosts as before. */
  type GhostMover = f: GameState -> seq<Ghost> | forall s :: |f(s)| == |s.ghosts| witness KeepGhosts

  datatype Env = Env(
    mapFile: seq<string>,                // the lines of Map.txt
    move: MoveHooks,
    setState: (Ghost, Mode) -> Ghost,    // SetGhostState
    setAllState: (Ghost, Mode) -> Ghost, // SetAllGhostState, on each ghost
    globalTarget: GameState -> Mode,     // GetGlobalTarget
    updateGhosts: GhostMover,            // UpdateGhosts
    waveTimes: nat -> int,               // wave_times, in seconds
    frightTime: int)                     // fright_time, in seconds

  const PELLET_COUNT: int := 244
  const GHOST_COUNT: nat := 4
  const LAST_WAVE: nat := 7
  const FLOWER_COOLDOWN_MS: int := 1000

  // ---------------------------------------------------------------------------
  // Board tiles
  // ---------------------------------------------------------------------------

  predicate TileInRange(board: seq<string>, x: int, y: int) {
    0 <= y < |board| && 0 <= x < |board[y]|
  }

  /** The tile under a position: row `(int)y`, column `(int)x`; a position
      off the board reads as an empty tile. */
  function GetTile(board: seq<string>, pos: Vec): char {
    var x, y := Trunc(pos.x), Trunc(pos.y);
    if TileInRange(board, x, y) then board[y][x] else ' '
  }

  /** Overwrites the tile under a position; off the board nothing happens. */
  function SetTile(board: seq<string>, pos: Vec, c: char): (r: seq<string>)
    ensures |r| == |board| && forall y :: 0 <= y < |r| ==> |r[y]| == |board[y]|
  {
    var x, y := Trunc(pos.x), Trunc(pos.y);
    if TileInRange(board, x, y) then board[y := board[y][x := c]] else board
  }

  /** A written tile reads back, and every other tile keeps its character. */
  lemma SetTileGetTile(board: seq<string>, pos: Vec, c: char, other: Vec)
    ensures TileInRange(board, Trunc(pos.x), Trunc(pos.y)) ==> GetTile(SetTile(board, pos, c), pos) == c
    ensures (Trunc(other.x), Trunc(other.y)) != (Trunc(pos.x), Trunc(pos.y)) ==>
      GetTile(SetTile(board, pos, c), other) == GetTile(board, other)
  {
  }

  // ---------------------------------------------------------------------------
  // Ghost modes
  // ---------------------------------------------------------------------------

  /** SetAllGhostState: the header's per-ghost effect applied to every
      ghost, the order and the number of ghosts kept. */
  function SetAllGhostState(gs: seq<Ghost>, m: Mode, env: Env): (r: seq<Ghost>)
    ensures |r| == |gs|
    ensures forall i :: 0 <= i < |r| ==> r[i] == env.setAllState(gs[i], m)
  {
    seq(|gs|, i requires 0 <= i < |gs| => env.setAllState(gs[i], m))
  }


  function HideGhosts(gs: seq<Ghost>): (r: seq<Ghost>)
    ensures |r| == |gs|
    ensures forall i :: 0 <= i < |r| ==> r[i] == gs[i].(enableDraw := false)
  {
    seq(|gs|, i requires 0 <= i < |gs| => gs[i].(enableDraw := false))
  }

  // ---------------------------------------------------------------------------
  // Ghost house dot counters
  // ---------------------------------------------------------------------------

  /** Index of the first ghost from `from` on that waits in the house, or -1
      when none does. */
  function FirstInHouse(gs: seq<Ghost>, from: nat): (i: int)
    requires from <= |gs|
    ensures i == -1 || (from <= i < |gs| && gs[i].mode == HOMEBASE)
    ensures i == -1 ==> forall j :: from <= j < |gs| ==> gs[j].mode != HOMEBASE
    ensures i != -1 ==> forall j :: from <= j < i ==> gs[j].mode != HOMEBASE
    decreases |gs| - from
  {
    if from == |gs| then -1
    else if gs[from].mode == HOMEBASE then from
    else FirstInHouse(gs, from + 1)
  }

  datatype HouseStep = HouseStep(house: House, ghosts: seq<Ghost>)

  /** IncrementGhostHouse on the house bookkeeping and the ghosts: the global
      counter moves only in global mode, global mode ends once no ghost
      waits, and the ghosts change only in local mode. */
  function IncrementHouse(h: House, gs: seq<Ghost>): (r: HouseStep)
    ensures |r.ghosts| == |gs|
    ensures r.house.firstLife == h.firstLife
    ensures r.house.globalDotCounter == h.globalDotCounter + (if h.usingGlobalCounter then 1 else 0)
    ensures r.house.usingGlobalCounter <==> h.usingGlobalCounter && FirstInHouse(gs, 0) != -1
    ensures h.usingGlobalCounter || FirstInHouse(gs, 0) == -1 ==> r.ghosts == gs
  {
    var first := FirstInHouse(gs, 0);
    var h1 := if h.usingGlobalCounter then h.(globalDotCounter := h.globalDotCounter + 1) else h;
    if first == -1 then
      HouseStep(h1.(usingGlobalCounter := false), gs)
    else if !h.usingGlobalCounter then
      HouseStep(h1, gs[first := gs[first].(dotCounter := gs[first].dotCounter + 1)])
    else HouseStep(h1, gs)
  }

  function CounterSum(gs: seq<Ghost>): nat {
    if |gs| == 0 then 0 else CounterSum(gs[..|gs| - 1]) + gs[|gs| - 1].dotCounter
  }

  /** Every counter the house uses, summed. */
  function HouseDots(h: House, gs: seq<Ghost>): nat {
    h.globalDotCounter + CounterSum(gs)
  }

  predicate SomeInHouse(gs: seq<Ghost>) {
    exists j :: 0 <= j < |gs| && gs[j].mode == HOMEBASE
  }

  /** Raising one ghost's counter by one raises the sum by one. */
  lemma {:induction false} CounterSumBump(gs: seq<Ghost>, i: nat)
    requires i < |gs|
    ensures CounterSum(gs[i := gs[i].(dotCounter := gs[i].dotCounter + 1)]) == CounterSum(gs) + 1
    decreases |gs|
  {
    var bumped := gs[i := gs[i].(dotCounter := gs[i].dotCounter + 1)];
    if i < |gs| - 1 {
      assert bumped[..|gs| - 1] == gs[..|gs| - 1][i := gs[i].(dotCounter := gs[i].dotCounter + 1)];
      CounterSumBump(gs[..|gs| - 1], i);
    } else {
      assert bumped[..|gs| - 1] == gs[..|gs| - 1];
    }
  }

  /** One house step: in global mode only the global counter moves (and
      global mode ends once no ghost waits); otherwise exactly the first
      waiting ghost's counter moves, and with no ghost waiting nothing does. */
  lemma HouseStepEffect(h: House, gs: seq<Ghost>)
    ensures var r := IncrementHouse(h, gs);
      && HouseDots(r.house, r.ghosts) == HouseDots(h, gs) + (if h.usingGlobalCounter || SomeInHouse(gs) then 1 else 0)
      && (h.usingGlobalCounter ==> r.house.globalDotCounter == h.globalDotCounter + 1 && r.ghosts == gs)
      && (!h.usingGlobalCounter ==> r.house.globalDotCounter == h.globalDotCounter)
      && (r.house.usingGlobalCounter <==> h.usingGlobalCounter && SomeInHouse(gs))
      && (forall j :: 0 <= j < |gs| ==> r.ghosts[j] == gs[j].(dotCounter := r.ghosts[j].dotCounter))
      && (forall j :: 0 <= j < |gs| && r.ghosts[j] != gs[j] ==>
            && !h.usingGlobalCounter
            && gs[j].mode == HOMEBASE
            && r.ghosts[j].dotCounter == gs[j].dotCounter + 1
            && (forall i :: 0 <= i < j ==> gs[i].mode != HOMEBASE))
  {
    var first := FirstInHouse(gs, 0);
    if first != -1 {
      assert SomeInHouse(gs);
      if !h.usingGlobalCounter {
        CounterSumBump(gs, first);
      }
    }
  }

  function IncrementGhostHouse(s: GameState): (r: GameState)
    ensures r == s.(house := IncrementHouse(s.house, s.ghosts).house, ghosts := IncrementHouse(s.house, s.ghosts).ghosts)
  {
    var step := IncrementHouse(s.house, s.ghosts);
    s.(house := step.house, ghosts := step.ghosts)
  }

  // ---------------------------------------------------------------------------
  // Pellets and flowers
  // ---------------------------------------------------------------------------

  /** The pool index used for a draw: the random pick reduced into the pool's
      range (`uniform_int_distribution(0, size - 1)`). */
  function DrawIndex(t: Trivia.Session, pick: nat): (i: int)
    ensures Trivia.IndexFits(t, i)
  {
    if |Trivia.Pool(t)| == 0 then 0 else pick % |Trivia.Pool(t)|
  }

  function PlayerTile(s: GameState): char {
    GetTile(s.maze.board, s.player.pos)
  }

  /** A pellet under the player: ten points, the tile emptied, one pellet
      fewer, one house step, and the player skips its next move. */
  function EatPellet(s: GameState): (r: GameState)
    ensures r.stats == s.stats.(score := s.stats.score + 10)
    ensures r.maze == s.maze.(board := SetTile(s.maze.board, s.player.pos, ' '), pelletsLeft := s.maze.pelletsLeft - 1)
    ensures r.feeding == s.feeding.(pelletEaten := true)
    ensures r.house == IncrementHouse(s.house, s.ghosts).house && r.ghosts == IncrementHouse(s.house, s.ghosts).ghosts
    ensures r == s.(stats := r.stats, maze := r.maze, feeding := r.feeding, house := r.house, ghosts := r.ghosts)
  {
    var s1 := s.(stats := s.stats.(score := s.stats.score + 10),
                 maze := s.maze.(board := SetTile(s.maze.board, s.player.pos, ' ')));
    var s2 := IncrementGhostHouse(s1);
    s2.(feeding := s2.feeding.(pelletEaten := true), maze := s2.maze.(pelletsLeft := s.maze.pelletsLeft - 1))
  }

  /** A flower under the player: a question is drawn and the trivia screen
      opens; the flower itself stays on the board for now. */
  function OpenTrivia(s: GameState, pick: nat): (r: GameState)
    ensures var d := Trivia.GetRandomQuestion(s.trivia, DrawIndex(s.trivia, pick));
      && r.phase == TRIVIA_MODE
      && r.quiz == s.quiz.(question := d.question, selected := 0)
      && r.trivia == d.session
      && r.timers == s.timers.(energizerTime := 0)
      && r.ctrl == (if s.ctrl.connected then Controller.SwitchMode(s.ctrl, Controller.ANSWERING) else s.ctrl)
    ensures r == s.(phase := r.phase, quiz := r.quiz, trivia := r.trivia, timers := r.timers, ctrl := r.ctrl)
  {
    var c := if s.ctrl.connected then Controller.SwitchMode(s.ctrl, Controller.ANSWERING) else s.ctrl;
    var d := Trivia.GetRandomQuestion(s.trivia, DrawIndex(s.trivia, pick));
    s.(ctrl := c,
       quiz := s.quiz.(question := d.question, selected := 0),
       trivia := d.session,
       phase := TRIVIA_MODE,
       timers := s.timers.(energizerTime := 0))
  }

  /** CheckPelletCollision, with `pick` the random draw for a flower's
      question. Nothing happens during the flower cooldown. */
  function CheckPelletCollision(s: GameState, pick: nat): (r: GameState)
    ensures !s.quiz.canInteractWithFlower ==> r == s
    ensures s.quiz.canInteractWithFlower && PlayerTile(s) == '.' ==> r == EatPellet(s)
    ensures s.quiz.canInteractWithFlower && PlayerTile(s) == 'o' ==> r == OpenTrivia(s, pick)
    ensures PlayerTile(s) != '.' && PlayerTile(s) != 'o' ==> r == s
  {
    if !s.quiz.canInteractWithFlower then s
    else if PlayerTile(s) == '.' then EatPellet(s)
    else if PlayerTile(s) == 'o' then OpenTrivia(s, pick)
    else s
  }

  /** A pellet is worth ten points and one pellet of the count, and moves the
      house counters by one step; a flower leaves the board, the pellet count
      and the score alone and opens the trivia screen with the first answer
      selected. */
  lemma PelletAndFlower(s: GameState, pick: nat)
    requires s.quiz.canInteractWithFlower
    ensures PlayerTile(s) == '.' ==>
      var r := CheckPelletCollision(s, pick);
      && r.stats.score == s.stats.score + 10
      && r.maze.pelletsLeft == s.maze.pelletsLeft - 1
      && (TileInRange(s.maze.board, Trunc(s.player.pos.x), Trunc(s.player.pos.y)) ==> PlayerTile(r) == ' ')
      && r.feeding.pelletEaten
      && HouseDots(r.house, r.ghosts) == HouseDots(s.house, s.ghosts) + (if s.house.usingGlobalCounter || SomeInHouse(s.ghosts) then 1 else 0)
      && r.phase == s.phase
    ensures PlayerTile(s) == 'o' ==>
      var r := CheckPelletCollision(s, pick);
      && r.phase == TRIVIA_MODE && r.quiz.selected == 0 && r.timers.energizerTime == 0
      && r.maze == s.maze && r.stats == s.stats
  {
    if PlayerTile(s) == '.' {
      HouseStepEffect(s.house, s.ghosts);
      var r := CheckPelletCollision(s, pick);
      SetTileGetTile(s.maze.board, s.player.pos, ' ', s.player.pos);
      assert r.player == s.player;
    }
  }

  // ---------------------------------------------------------------------------
  // Ghost collisions
  // ---------------------------------------------------------------------------

  function Pow2(k: nat): nat {
    if k == 0 then 1 else 2 * Pow2(k - 1)
  }

  /** Same tile: integer-truncated coordinates agree. */
  predicate SameTile(a: Vec, b: Vec) {
    Trunc(a.x) == Trunc(b.x) && Trunc(a.y) == Trunc(b.y)
  }

  predicate Deadly(g: Ghost) {
    g.mode != FRIGHTENED && g.mode != GOHOME
  }

  /** A frightened ghost caught: it is sent home (`SetGhostState(GOHOME)`)
      unseen, and the catch scores 2^k * 100 for the k-th ghost of the
      power-up. */
  function EatGhost(s: GameState, i: nat, env: Env): (r: GameState)
    requires i < |s.ghosts|
    ensures |r.ghosts| == |s.ghosts| && r.ghosts[i] == env.setState(s.ghosts[i], GOHOME).(enableDraw := false)
    ensures forall j :: 0 <= j < |s.ghosts| && j != i ==> r.ghosts[j] == s.ghosts[j]
    ensures r.feeding == s.feeding.(recentEaten := i, ghostsEaten := s.feeding.ghostsEaten + 1, playerEatGhost := true)
    ensures r.stats == s.stats.(score := s.stats.score + Pow2(s.feeding.ghostsEaten + 1) * 100)
    ensures r.timers == s.timers.(pauseTime := 500) && !r.player.enableDraw
    ensures r == s.(ghosts := r.ghosts, feeding := r.feeding, stats := r.stats, timers := r.timers, player := r.player)
  {
    var k := s.feeding.ghostsEaten + 1;
    s.(ghosts := s.ghosts[i := env.setState(s.ghosts[i], GOHOME).(enableDraw := false)],
       feeding := s.feeding.(recentEaten := i, ghostsEaten := k, playerEatGhost := true),
       stats := s.stats.(score := s.stats.score + Pow2(k) * 100),
       timers := s.timers.(pauseTime := 500),
       player := s.player.(enableDraw := false))
  }

  /** Caught by a ghost: one life lost and the death pause begins. */
  function LoseLife(s: GameState): (r: GameState)
    ensures r.phase == GAMELOSE && r.timers == s.timers.(pauseTime := 2000)
    ensures r.stats == s.stats.(lives := s.stats.lives - 1) && !r.house.firstLife
    ensures r == s.(phase := GAMELOSE, timers := r.timers, stats := r.stats, house := r.house)
    ensures r.house == s.house.(firstLife := false)
  {
    s.(phase := GAMELOSE, timers := s.timers.(pauseTime := 2000), stats := s.stats.(lives := s.stats.lives - 1),
       house := s.house.(firstLife := false))
  }

  /** One ghost on the player's tile. */
  function CollideWith(s: GameState, i: nat, env: Env): (r: GameState)
    requires i < |s.ghosts|
    ensures |r.ghosts| == |s.ghosts|
    ensures forall j :: 0 <= j < |s.ghosts| && j != i ==> r.ghosts[j] == s.ghosts[j]
  {
    if s.ghosts[i].mode == FRIGHTENED then EatGhost(s, i, env)
    else if s.ghosts[i].mode != GOHOME then LoseLife(s)
    else s
  }

  /** The collision loop from ghost `i` on; it does not stop at the first hit. */
  function CollideFrom(s: GameState, i: nat, at: Vec, env: Env): (r: GameState)
    requires i <= |s.ghosts|
    ensures |r.ghosts| == |s.ghosts|
    ensures r.maze == s.maze && r.stats.highScore == s.stats.highScore
    ensures r.quiz == s.quiz && r.timers.waveCounter == s.timers.waveCounter
    decreases |s.ghosts| - i
  {
    if i == |s.ghosts| then s
    else
      var s1 := if SameTile(s.ghosts[i].pos, at) then CollideWith(s, i, env) else s;
      CollideFrom(s1, i + 1, at, env)
  }

  /** CheckGhostCollision: every ghost on the player's tile, in index order. */
  function CheckGhostCollision(s: GameState, env: Env): (r: GameState)
    requires |s.ghosts| == GHOST_COUNT
    ensures |r.ghosts| == GHOST_COUNT
    ensures r.maze == s.maze && r.stats.highScore == s.stats.highScore
    ensures r.quiz == s.quiz && r.timers.waveCounter == s.timers.waveCounter
    ensures r.player.pos == s.player.pos
  {
    CollideKeepsPosition(s, 0, s.player.pos, env);
    CollideFrom(s, 0, s.player.pos, env)
  }

  /** A collision hides the player at most; it never moves it. */
  lemma {:induction false} CollideKeepsPosition(s: GameState, i: nat, at: Vec, env: Env)
    requires i <= |s.ghosts|
    ensures CollideFrom(s, i, at, env).player.pos == s.player.pos
    decreases |s.ghosts| - i
  {
    if i < |s.ghosts| {
      var s1 := if SameTile(s.ghosts[i].pos, at) then CollideWith(s, i, env) else s;
      CollideKeepsPosition(s1, i + 1, at, env);
    }
  }

  /** Ghosts from `i` on that share the tile and can kill. */
  function KillersFrom(gs: seq<Ghost>, i: nat, at: Vec): nat
    requires i <= |gs|
    decreases |gs| - i
  {
    if i == |gs| then 0
    else (if SameTile(gs[i].pos, at) && Deadly(gs[i]) then 1 else 0) + KillersFrom(gs, i + 1, at)
  }

  /** Ghosts from `i` on that share the tile and are frightened. */
  function PreyFrom(gs: seq<Ghost>, i: nat, at: Vec): nat
    requires i <= |gs|
    decreases |gs| - i
  {
    if i == |gs| then 0
    else (if SameTile(gs[i].pos, at) && gs[i].mode == FRIGHTENED then 1 else 0) + PreyFrom(gs, i + 1, at)
  }

  lemma {:induction false} CountsFromFrame(gs: seq<Ghost>, hs: seq<Ghost>, i: nat, at: Vec)
    requires |gs| == |hs| && i <= |gs|
    requires forall j :: i <= j < |gs| ==> gs[j] == hs[j]
    ensures KillersFrom(gs, i, at) == KillersFrom(hs, i, at)
    ensures PreyFrom(gs, i, at) == PreyFrom(hs, i, at)
    decreases |gs| - i
  {
    if i < |gs| {
      CountsFromFrame(gs, hs, i + 1, at);
    }
  }

  /** The loop takes one life per killing ghost on the tile and scores the
      frightened ones in sequence: the k-th ghost eaten since the streak was
      last reset is worth 2^k * 100, so eating `e` more after `n` adds
      100 * (2^(n+e+1) - 2^(n+1)). */
  lemma {:induction false} CollideFromCounts(s: GameState, i: nat, at: Vec, env: Env)
    requires i <= |s.ghosts|
    ensures var r := CollideFrom(s, i, at, env);
      var killers := KillersFrom(s.ghosts, i, at);
      var prey := PreyFrom(s.ghosts, i, at);
      && r.stats.lives == s.stats.lives - killers
      && r.feeding.ghostsEaten == s.feeding.ghostsEaten + prey
      && r.stats.score == s.stats.score + 100 * (Pow2(s.feeding.ghostsEaten + prey + 1) - Pow2(s.feeding.ghostsEaten + 1))
      && (killers > 0 ==> r.phase == GAMELOSE && !r.house.firstLife)
      && (killers == 0 ==> r.phase == s.phase && r.house == s.house)
      && (killers == 0 && prey == 0 ==> r == s)
    decreases |s.ghosts| - i
  {
    if i < |s.ghosts| {
      var s1 := if SameTile(s.ghosts[i].pos, at) then CollideWith(s, i, env) else s;
      CountsFromFrame(s.ghosts, s1.ghosts, i + 1, at);
      CollideFromCounts(s1, i + 1, at, env);
      assert CollideFrom(s, i, at, env) == CollideFrom(s1, i + 1, at, env);
      if SameTile(s.ghosts[i].pos, at) && s.ghosts[i].mode == FRIGHTENED {
        var n := s.feeding.ghostsEaten;
        assert s1 == EatGhost(s, i, env);
        assert Pow2(n + 2) == 2 * Pow2(n + 1);
        var e := PreyFrom(s.ghosts, i + 1, at);
        assert Pow2(n + 1 + e + 1) == Pow2(n + e + 2);
      } else if SameTile(s.ghosts[i].pos, at) && Deadly(s.ghosts[i]) {
        assert s1 == LoseLife(s);
      } else {
        assert s1 == s;
      }
    }
  }

  /** The collision check as a whole: lives drop by the number of killing
      ghosts on the tile (possibly more than one), and any such ghost leaves
      the game in the death pause; eaten ghosts score in sequence. */
  lemma GhostCollisionOutcome(s: GameState, env: Env)
    requires |s.ghosts| == GHOST_COUNT
    ensures var r := CheckGhostCollision(s, env);
      var killers := KillersFrom(s.ghosts, 0, s.player.pos);
      var prey := PreyFrom(s.ghosts, 0, s.player.pos);
      && r.stats.lives == s.stats.lives - killers
      && r.feeding.ghostsEaten == s.feeding.ghostsEaten + prey
      && r.stats.score == s.stats.score + 100 * (Pow2(s.feeding.ghostsEaten + prey + 1) - Pow2(s.feeding.ghostsEaten + 1))
      && (killers > 0 ==> r.phase == GAMELOSE && !r.house.firstLife)
      && (killers == 0 && prey == 0 ==> r == s)
  {
    CollideFromCounts(s, 0, s.player.pos, env);
  }

  // ---------------------------------------------------------------------------
  // Timers
  // ---------------------------------------------------------------------------

  /** UpdateWave: after the last wave nothing changes; otherwise the wave
      clock runs and, once its whole seconds reach the current wave's
      length, the next wave starts and, unless a power-up is running, every
      ghost takes the new global target. */
  function UpdateWave(s: GameState, ms: int, env: Env): (r: GameState)
    ensures s.timers.waveCounter >= LAST_WAVE ==> r == s
    ensures s.timers.waveCounter < LAST_WAVE ==>
      var t := s.timers.waveTime + ms;
      var next := CDiv(t, 1000) >= env.waveTimes(s.timers.waveCounter);
      && (next ==> r.timers == s.timers.(waveCounter := s.timers.waveCounter + 1, waveTime := 0))
      && (!next ==> r == s.(timers := s.timers.(waveTime := t)))
      && (next && s.timers.energizerTime > 0 ==> r.ghosts == s.ghosts)
      && (next && s.timers.energizerTime <= 0 ==>
            var advanced := s.(timers := s.timers.(waveCounter := s.timers.waveCounter + 1, waveTime := t));
            r.ghosts == SetAllGhostState(s.ghosts, env.globalTarget(advanced), env))
    ensures r == s.(timers := r.timers, ghosts := r.ghosts)
    ensures |r.ghosts| == |s.ghosts|
    ensures r.timers.waveCounter <= LAST_WAVE || r.timers.waveCounter == s.timers.waveCounter
  {
    if s.timers.waveCounter >= LAST_WAVE then s
    else
      var t := s.timers.waveTime + ms;
      if CDiv(t, 1000) >= env.waveTimes(s.timers.waveCounter) then
        var s1 := s.(timers := s.timers.(waveCounter := s.timers.waveCounter + 1, waveTime := t));
        var s2 := if s.timers.energizerTime <= 0 then s1.(ghosts := SetAllGhostState(s1.ghosts, env.globalTarget(s1), env)) else s1;
        s2.(timers := s2.timers.(waveTime := 0))
      else s.(timers := s.timers.(waveTime := t))
  }

  /** `k` ticks of `ms` milliseconds each through UpdateWave. */
  function Waves(s: GameState, ms: int, env: Env, k: nat): GameState
    decreases k
  {
    if k == 0 then s else UpdateWave(Waves(s, ms, env, k - 1), ms, env)
  }

  /** The wave counter never passes the last wave and never goes back: from
      a counter at most 7, any number of ticks leaves it between where it was
      and 7. */
  lemma {:induction false} WaveCounterBounded(s: GameState, ms: int, env: Env, k: nat)
    requires s.timers.waveCounter <= LAST_WAVE
    ensures s.timers.waveCounter <= Waves(s, ms, env, k).timers.waveCounter <= LAST_WAVE
    decreases k
  {
    if k > 0 {
      WaveCounterBounded(s, ms, env, k - 1);
    }
  }

  /** UpdateEnergizerTime: a running power-up counts down; when it runs out
      `SetAllGhostState` is applied with the target `GetGlobalTarget` gives
      for the counted-down state, and the eating streak resets. A power-up
      that is not running leaves everything alone. */
  function UpdateEnergizerTime(s: GameState, ms: int, env: Env): (r: GameState)
    ensures s.timers.energizerTime <= 0 ==> r == s
    ensures s.timers.energizerTime > 0 ==>
      && r.timers == s.timers.(energizerTime := s.timers.energizerTime - ms)
      && (r.timers.energizerTime > 0 ==> r == s.(timers := r.timers))
      && (r.timers.energizerTime <= 0 ==>
            && r.feeding == s.feeding.(ghostsEaten := 0)
            && r.ghosts == SetAllGhostState(s.ghosts, env.globalTarget(s.(timers := r.timers)), env))
    ensures r == s.(timers := r.timers, ghosts := r.ghosts, feeding := r.feeding)
  {
    if s.timers.energizerTime <= 0 then s
    else
      var s1 := s.(timers := s.timers.(energizerTime := s.timers.energizerTime - ms));
      if s1.timers.energizerTime <= 0 then
        s1.(ghosts := SetAllGhostState(s1.ghosts, env.globalTarget(s1), env),
            feeding := s1.feeding.(ghostsEaten := 0))
      else s1
  }

  /** `k` ticks of `ms` milliseconds each through UpdateEnergizerTime. */
  function Energizers(s: GameState, ms: int, env: Env, k: nat): GameState
    decreases k
  {
    if k == 0 then s else UpdateEnergizerTime(Energizers(s, ms, env, k - 1), ms, env)
  }

  /** A power-up of `e` milliseconds, ticked with positive `ms`, runs for
      exactly ceil(e / ms) ticks: until then only its clock moves, and from
      then on the eating streak is reset and nothing changes any more. */
  lemma {:induction false} PowerUpLasts(s: GameState, ms: int, env: Env, k: nat)
    requires s.timers.energizerTime > 0 && ms > 0
    ensures var e := s.timers.energizerTime;
      var r := Energizers(s, ms, env, k);
      && (r.timers.energizerTime > 0 <==> k * ms < e)
      && (k * ms < e ==> r == s.(timers := s.timers.(energizerTime := e - k * ms)))
      && (k * ms >= e ==> r.feeding.ghostsEaten == 0 && -ms < r.timers.energizerTime <= 0)
      && (k * ms >= e ==> UpdateEnergizerTime(r, ms, env) == r)
    decreases k
  {
    if k > 0 {
      PowerUpLasts(s, ms, env, k - 1);
      assert k * ms == (k - 1) * ms + ms;
    }
  }

  /** The flower cooldown, in milliseconds: it runs down only while flowers
      are locked, and unlocks them once it reaches zero. */
  function UpdateFlowerCooldown(s: GameState, ms: int): (r: GameState)
    ensures s.quiz.canInteractWithFlower ==> r == s
    ensures !s.quiz.canInteractWithFlower ==>
      var left := s.quiz.flowerCooldown - ms;
      && (left <= 0 ==> r.quiz == s.quiz.(canInteractWithFlower := true, flowerCooldown := 0))
      && (left > 0 ==> r.quiz == s.quiz.(flowerCooldown := left))
    ensures r == s.(quiz := r.quiz)
  {
    if s.quiz.canInteractWithFlower then s
    else
      var left := s.quiz.flowerCooldown - ms;
      if left <= 0 then s.(quiz := s.quiz.(canInteractWithFlower := true, flowerCooldown := 0))
      else s.(quiz := s.quiz.(flowerCooldown := left))
  }

  /** `k` ticks of `ms` milliseconds each through the flower cooldown. */
  function Cooldowns(s: GameState, ms: int, k: nat): GameState
    decreases k
  {
    if k == 0 then s else UpdateFlowerCooldown(Cooldowns(s, ms, k - 1), ms)
  }

  /** A lock of `cd` milliseconds, ticked with positive `ms`, is released
      after exactly ceil(cd / ms) ticks, and not before. */
  lemma {:induction false} CooldownReleases(s: GameState, ms: int, k: nat)
    requires !s.quiz.canInteractWithFlower && s.quiz.flowerCooldown > 0 && ms > 0
    ensures (Cooldowns(s, ms, k).quiz.canInteractWithFlower <==> k * ms >= s.quiz.flowerCooldown)
    ensures !Cooldowns(s, ms, k).quiz.canInteractWithFlower ==>
      Cooldowns(s, ms, k).quiz.flowerCooldown == s.quiz.flowerCooldown - k * ms
    ensures Cooldowns(s, ms, k).quiz.canInteractWithFlower ==> Cooldowns(s, ms, k).quiz.flowerCooldown == 0
    decreases k
  {
    if k > 0 {
      CooldownReleases(s, ms, k - 1);
      if Cooldowns(s, ms, k - 1).quiz.canInteractWithFlower {
        assert (k - 1) * ms >= s.quiz.flowerCooldown;
        assert k * ms == (k - 1) * ms + ms;
      } else {
        assert k * ms == (k - 1) * ms + ms;
      }
    }
  }

  function CheckHighScore(s: GameState): (r: GameState)
    ensures r.stats.highScore >= s.stats.highScore && r.stats.highScore >= s.stats.score
    ensures r.stats.highScore == s.stats.highScore || r.stats.highScore == s.stats.score
    ensures r == s.(stats := s.stats.(highScore := r.stats.highScore))
  {
    if s.stats.score > s.stats.highScore then s.(stats := s.stats.(highScore := s.stats.score)) else s
  }

  /** CheckWin: with every pellet eaten the round is won; the ghosts vanish,
      the player stops and the win pause begins. */
  function CheckWin(s: GameState): (r: GameState)
    ensures s.maze.pelletsLeft > 0 ==> r == s
    ensures s.maze.pelletsLeft <= 0 ==>
      && r.phase == GAMEWIN && r.ghosts == HideGhosts(s.ghosts)
      && r.player == s.player.(stopped := true) && r.timers == s.timers.(pauseTime := 2000)
      && r == s.(phase := GAMEWIN, ghosts := r.ghosts, player := r.player, timers := r.timers)
  {
    if s.maze.pelletsLeft <= 0 then
      s.(phase := GAMEWIN, ghosts := HideGhosts(s.ghosts), player := s.player.(stopped := true),
         timers := s.timers.(pauseTime := 2000))
    else s
  }

  // ---------------------------------------------------------------------------
  // Resets
  // ---------------------------------------------------------------------------

  /** The four ghosts at their start: the first outside the house heading
      left, the other three inside; each keeps its dot counter. */
  function HomeGhosts(gs: seq<Ghost>): (r: seq<Ghost>)
    requires |gs| == GHOST_COUNT
    ensures |r| == GHOST_COUNT
    ensures forall i :: 0 <= i < GHOST_COUNT ==> r[i].dotCounter == gs[i].dotCounter && r[i].enableDraw
    ensures forall i :: 0 <= i < GHOST_COUNT ==> (r[i].mode == HOMEBASE <==> i != 0) && (r[i].inHouse <==> i != 0)
  {
    [ gs[0].(pos := Vec(14.0, 11.5), dir := LEFT, mode := CORNER, inHouse := false, enableDraw := true),
      gs[1].(pos := Vec(14.0, 14.5), dir := UP, mode := HOMEBASE, inHouse := true, enableDraw := true),
      gs[2].(pos := Vec(12.0, 14.5), dir := DOWN, mode := HOMEBASE, inHouse := true, enableDraw := true),
      gs[3].(pos := Vec(16.0, 14.5), dir := DOWN, mode := HOMEBASE, inHouse := true, enableDraw := true) ]
  }

  /** ResetGhostsAndPlayer: actors to their start, the power-up and the wave
      clock cleared, and after a lost life the global dot counter in charge. */
  function ResetGhostsAndPlayer(s: GameState): (r: GameState)
    requires |s.ghosts| == GHOST_COUNT
    ensures r.ghosts == HomeGhosts(s.ghosts)
    ensures r.player == s.player.(curDir := UP, pos := Vec(14.0, 23.5), stopped := true, enableDraw := true)
    ensures r.timers == s.timers.(energizerTime := 0, waveCounter := 0, waveTime := 0)
    ensures r.house.globalDotCounter == 0 && r.house.firstLife == s.house.firstLife
    ensures r.house.usingGlobalCounter == (s.house.usingGlobalCounter || !s.house.firstLife)
    ensures r == s.(ghosts := r.ghosts, player := r.player, timers := r.timers, house := r.house)
  {
    s.(ghosts := HomeGhosts(s.ghosts),
       player := s.player.(curDir := UP, pos := Vec(14.0, 23.5), stopped := true, enableDraw := true),
       timers := s.timers.(energizerTime := 0, waveCounter := 0, waveTime := 0),
       house := s.house.(usingGlobalCounter := s.house.usingGlobalCounter || !s.house.firstLife,
                         globalDotCounter := 0))
  }

  function ZeroCounters(gs: seq<Ghost>): (r: seq<Ghost>)
    ensures |r| == |gs|
    ensures forall i :: 0 <= i < |r| ==> r[i] == gs[i].(dotCounter := 0)
  {
    seq(|gs|, i requires 0 <= i < |gs| => gs[i].(dotCounter := 0))
  }

  /** ResetBoard: a fresh board from the map with all 244 pellets, no
      flowers, every house counter at zero and local counters in use, and the
      controller's LEDs cleared. */
  function ResetBoard(s: GameState, env: Env): (r: GameState)
    ensures r.maze == Maze(env.mapFile, PELLET_COUNT, 0)
    ensures r.house == s.house.(firstLife := true, usingGlobalCounter := false)
    ensures r.ghosts == ZeroCounters(s.ghosts)
    ensures r.ctrl == (if s.ctrl.connected then Controller.ResetLEDs(s.ctrl).controller else s.ctrl)
    ensures r == s.(maze := r.maze, house := r.house, ghosts := r.ghosts, ctrl := r.ctrl)
  {
    var c := if s.ctrl.connected then Controller.ResetLEDs(s.ctrl).controller else s.ctrl;
    s.(maze := Maze(env.mapFile, PELLET_COUNT, 0),
       house := s.house.(firstLife := true, usingGlobalCounter := false),
       ghosts := ZeroCounters(s.ghosts),
       ctrl := c)
  }

  /** A new round (board then actors) starts with the house empty of dots:
      every counter is zero, the counters are local, and the first ghost in
      the house is the second ghost. */
  lemma FreshRoundHouse(s: GameState, env: Env)
    requires |s.ghosts| == GHOST_COUNT
    ensures var r := ResetGhostsAndPlayer(ResetBoard(s, env));
      && HouseDots(r.house, r.ghosts) == 0
      && !r.house.usingGlobalCounter && r.house.firstLife
      && FirstInHouse(r.ghosts, 0) == 1
      && r.maze.pelletsLeft == PELLET_COUNT
  {
    var r := ResetGhostsAndPlayer(ResetBoard(s, env));
    var gs := r.ghosts;
    assert gs[..1][..0] == [] && gs[..2][..1] == gs[..1] && gs[..3][..2] == gs[..2] && gs[..4][..3] == gs[..3];
    assert gs[..4] == gs;
    assert CounterSum(gs[..1]) == 0;
    assert CounterSum(gs[..2]) == 0;
    assert CounterSum(gs[..3]) == 0;
  }

  /** After a lost life (the board kept), the global counter takes over and
      starts from zero, while the per-ghost counters are kept. */
  lemma LostLifeHouse(s: GameState)
    requires |s.ghosts| == GHOST_COUNT && !s.house.firstLife
    ensures var r := ResetGhostsAndPlayer(s);
      && r.house.usingGlobalCounter && r.house.globalDotCounter == 0
      && CounterSum(r.ghosts) == CounterSum(s.ghosts)
  {
    var r := ResetGhostsAndPlayer(s);
    CounterSumSameCounters(s.ghosts, r.ghosts);
  }

  lemma {:induction false} CounterSumSameCounters(gs: seq<Ghost>, hs: seq<Ghost>)
    requires |gs| == |hs|
    requires forall i :: 0 <= i < |gs| ==> gs[i].dotCounter == hs[i].dotCounter
    ensures CounterSum(gs) == CounterSum(hs)
    decreases |gs|
  {
    if |gs| > 0 {
      CounterSumSameCounters(gs[..|gs| - 1], hs[..|hs| - 1]);
    }
  }

  // ---------------------------------------------------------------------------
  // Trivia answers
  // ---------------------------------------------------------------------------

  /** AnswerTriviaQuestion with the 0-based `choice`. Either way the answer is
      logged and the explanation timer starts. A right answer earns the
      question's reward, frightens every ghost for the fright time, restarts
      the eating streak and lights the next of the four flower LEDs; the
      flower stays on the board until the explanation is confirmed. */
  function AnswerTriviaQuestion(s: GameState, choice: int, now: int, env: Env): (r: GameState)
    ensures var q := s.quiz.question;
      var ok := Trivia.CheckAnswer(q, choice);
      && r.quiz == s.quiz.(lastAnswerCorrect := ok, explanation := Trivia.GetExplanation(q, choice))
      && r.log == Logger.StartExplanationTimer(Logger.LogTriviaAnswer(s.log, q.question, choice, ok), now)
      && (ok ==> r.phase == TRIVIA_CORRECT_EXPLANATION) && (!ok ==> r.phase == TRIVIA_INCORRECT_EXPLANATION)
      && (ok ==> r.stats == s.stats.(score := s.stats.score + q.pointsReward))
      && (ok ==> r.timers == s.timers.(energizerTime := env.frightTime * 1000))
      && (ok ==> r.ghosts == SetAllGhostState(s.ghosts, FRIGHTENED, env) && r.feeding == s.feeding.(ghostsEaten := 0))
      && (ok ==> 1 <= r.maze.flowersCollected <= 4 && r.maze == s.maze.(flowersCollected := s.maze.flowersCollected % 4 + 1))
      && (ok ==> r == s.(quiz := r.quiz, log := r.log, phase := r.phase, stats := r.stats, timers := r.timers,
                         ghosts := r.ghosts, feeding := r.feeding, maze := r.maze, ctrl := r.ctrl))
      && (!ok ==> r == s.(quiz := r.quiz, log := r.log, phase := r.phase, ctrl := r.ctrl))
    ensures var ok := Trivia.CheckAnswer(s.quiz.question, choice);
      var lit := if ok && s.ctrl.connected
                 then Controller.SetFlowerCollected(s.ctrl, s.maze.flowersCollected % 4 + 1).controller
                 else s.ctrl;
      r.ctrl == (if s.ctrl.connected then Controller.SwitchMode(lit, Controller.STEERING) else s.ctrl)
    ensures var ok := Trivia.CheckAnswer(s.quiz.question, choice);
      var led := if ok then [Decimal.NatToString(s.maze.flowersCollected % 4 + 1) + "\n"] else [];
      r.ctrl.sent == s.ctrl.sent + (if s.ctrl.connected then led + ["MODE:STEERING\n"] else [])
    ensures r.maze.board == s.maze.board && r.maze.pelletsLeft == s.maze.pelletsLeft
    ensures r.ctrl.connected == s.ctrl.connected
    ensures s.ctrl.connected ==> r.ctrl.lastMessage == s.ctrl.lastMessage
  {
    var q := s.quiz.question;
    var ok := Trivia.CheckAnswer(q, choice);
    var s1 := s.(quiz := s.quiz.(lastAnswerCorrect := ok, explanation := Trivia.GetExplanation(q, choice)),
                 log := Logger.StartExplanationTimer(Logger.LogTriviaAnswer(s.log, q.question, choice, ok), now));
    var s2 :=
      if ok then
        var flowers := s.maze.flowersCollected % 4 + 1;
        s1.(stats := s1.stats.(score := s1.stats.score + q.pointsReward),
            timers := s1.timers.(energizerTime := env.frightTime * 1000),
            ghosts := SetAllGhostState(s1.ghosts, FRIGHTENED, env),
            feeding := s1.feeding.(ghostsEaten := 0),
            maze := s1.maze.(flowersCollected := flowers),
            ctrl := if s1.ctrl.connected then Controller.SetFlowerCollected(s1.ctrl, flowers).controller else s1.ctrl,
            phase := TRIVIA_CORRECT_EXPLANATION)
      else s1.(phase := TRIVIA_INCORRECT_EXPLANATION);
    var led := if ok then [Decimal.NatToString(s.maze.flowersCollected % 4 + 1) + "\n"] else [];
    assert s.ctrl.connected ==> s2.ctrl.sent == s.ctrl.sent + led;
    assert s.ctrl.sent + led + ["MODE:STEERING\n"] == s.ctrl.sent + (led + ["MODE:STEERING\n"]);
    assert s.ctrl.sent + [] == s.ctrl.sent;
    assert "MODE:" + Controller.ModeWord(Controller.STEERING) + "\n" == "MODE:STEERING\n";
    s2.(ctrl := if s2.ctrl.connected then Controller.SwitchMode(s2.ctrl, Controller.STEERING) else s2.ctrl)
  }

  /** Confirming the correct-answer explanation: the timer is logged, the LED
      shown again, and the flower finally eaten like a pellet (no points). */
  function ConfirmCorrectExplanation(s: GameState, now: int): (r: GameState)
    ensures r.log == Logger.EndExplanationTimer(s.log, now)
    ensures r.phase == MAINLOOP && r.quiz == s.quiz.(selected := 0)
    ensures r.maze == s.maze.(board := SetTile(s.maze.board, s.player.pos, ' '), pelletsLeft := s.maze.pelletsLeft - 1)
    ensures r.feeding == s.feeding.(pelletEaten := true)
    ensures r.house == IncrementHouse(s.house, s.ghosts).house && r.ghosts == IncrementHouse(s.house, s.ghosts).ghosts
    ensures r.stats == s.stats && r.timers == s.timers && r.player == s.player
    ensures r.ctrl == (if s.ctrl.connected then Controller.SetFlowerCollected(s.ctrl, s.maze.flowersCollected).controller else s.ctrl)
    ensures r == s.(log := r.log, phase := MAINLOOP, quiz := r.quiz, maze := r.maze, feeding := r.feeding,
                    house := r.house, ghosts := r.ghosts, ctrl := r.ctrl)
  {
    var c := if s.ctrl.connected then Controller.SetFlowerCollected(s.ctrl, s.maze.flowersCollected).controller else s.ctrl;
    var s1 := s.(log := Logger.EndExplanationTimer(s.log, now), ctrl := c,
                 maze := s.maze.(board := SetTile(s.maze.board, s.player.pos, ' ')));
    var s2 := IncrementGhostHouse(s1);
    s2.(feeding := s2.feeding.(pelletEaten := true), maze := s2.maze.(pelletsLeft := s.maze.pelletsLeft - 1),
        phase := MAINLOOP, quiz := s2.quiz.(selected := 0))
  }

  /** Confirming the wrong-answer explanation: back to the maze with flowers
      locked for one second so the player can move off this one. */
  function ConfirmIncorrectExplanation(s: GameState, now: int): (r: GameState)
    ensures r.log == Logger.EndExplanationTimer(s.log, now)
    ensures r.phase == MAINLOOP
    ensures r.quiz == s.quiz.(selected := 0, canInteractWithFlower := false, flowerCooldown := FLOWER_COOLDOWN_MS)
    ensures r == s.(log := r.log, phase := MAINLOOP, quiz := r.quiz)
  {
    s.(log := Logger.EndExplanationTimer(s.log, now), phase := MAINLOOP,
       quiz := s.quiz.(selected := 0, canInteractWithFlower := false, flowerCooldown := FLOWER_COOLDOWN_MS))
  }

  /** A flower's fate. Stepping on it opens a question; a right answer,
      once confirmed, removes it, costs one pellet of the count and pays the
      question's reward; a wrong answer leaves it on the board and, right
      after confirming, stepping on it again does nothing. */
  lemma FlowerFate(s: GameState, pick: nat, choice: int, t1: int, t2: int, env: Env)
    requires s.quiz.canInteractWithFlower && PlayerTile(s) == 'o'
    requires TileInRange(s.maze.board, Trunc(s.player.pos.x), Trunc(s.player.pos.y))
    ensures
      var asked := CheckPelletCollision(s, pick);
      var answered := AnswerTriviaQuestion(asked, choice, t1, env);
      Trivia.CheckAnswer(asked.quiz.question, choice) ==>
        var done := ConfirmCorrectExplanation(answered, t2);
        && PlayerTile(done) == ' '
        && done.maze.pelletsLeft == s.maze.pelletsLeft - 1
        && done.stats.score == s.stats.score + asked.quiz.question.pointsReward
        && done.phase == MAINLOOP
    ensures
      var asked := CheckPelletCollision(s, pick);
      var answered := AnswerTriviaQuestion(asked, choice, t1, env);
      !Trivia.CheckAnswer(asked.quiz.question, choice) ==>
        var done := ConfirmIncorrectExplanation(answered, t2);
        && PlayerTile(done) == 'o'
        && done.maze.pelletsLeft == s.maze.pelletsLeft
        && done.stats.score == s.stats.score
        && done.phase == MAINLOOP
        && CheckPelletCollision(done, pick) == done
  {
    var asked := CheckPelletCollision(s, pick);
    var answered := AnswerTriviaQuestion(asked, choice, t1, env);
    if Trivia.CheckAnswer(asked.quiz.question, choice) {
      var done := ConfirmCorrectExplanation(answered, t2);
      assert answered.player == s.player;
      SetTileGetTile(answered.maze.board, s.player.pos, ' ', s.player.pos);
    }
  }
}

=== FILE: logger.dfy ===
/**
  The session log (GameLogger.cpp). The log file is the sequence of lines
  written to it, every `std::endl` ending one line; whether the file opened
  is the `open` flag. Clock readings (milliseconds of the system clock) and
  the formatted local time are parameters.
 */
module Logger {
  import opened Decimal
  import opened CInt

  // ---------------------------------------------------------------------------
  // durationToString
  // ---------------------------------------------------------------------------

  datatype Duration = Duration(minutes: int, seconds: int, millis: int)

  /** The three fields `durationToString` prints, computed with C++'s
      truncating `/` and `%` on a `long long` count. */
  function DurationFields(d: int): (f: Duration)
    ensures f.minutes * 60000 + f.seconds * 1000 + f.millis == d
    ensures d >= 0 ==> f.minutes >= 0 && 0 <= f.seconds < 60 && 0 <= f.millis < 1000
    ensures d <= 0 ==> f.minutes <= 0 && -60 < f.seconds <= 0 && -1000 < f.millis <= 0
  {
    var totalSeconds := CDiv(d, 1000);
    var f := Duration(CDiv(totalSeconds, 60), CMod(totalSeconds, 60), CMod(d, 1000));
    assert CDiv(d, 1000) * 1000 + f.millis == d;
    assert f.minutes * 60 + f.seconds == totalSeconds;
    assert f.minutes * 60000 + f.seconds * 1000 == totalSeconds * 1000;
    f
  }

  /** durationToString: "Xm Ys Zms", whose three numbers, read back as
      minutes, seconds and milliseconds, add up to the duration. */
  function DurationToString(d: int): (r: string)
    ensures exists a, b, c ::
      && IsNumeral(a) && IsNumeral(b) && IsNumeral(c)
      && r == a + "m " + b + "s " + c + "ms"
      && ParseInt(a) * 60000 + ParseInt(b) * 1000 + ParseInt(c) == d
  {
    var f := DurationFields(d);
    var a, b, c := IntToString(f.minutes), IntToString(f.seconds), IntToString(f.millis);
    IntToStringRoundTrip(f.minutes);
    IntToStringRoundTrip(f.seconds);
    IntToStringRoundTrip(f.millis);
    a + "m " + b + "s " + c + "ms"
  }

  /** The printed fields are exactly the C fields of `DurationFields`. */
  lemma DurationTextRoundTrip(d: int)
    ensures
      var f := DurationFields(d);
      var a, b, c := IntToString(f.minutes), IntToString(f.seconds), IntToString(f.millis);
      && DurationToString(d) == a + "m " + b + "s " + c + "ms"
      && ParseInt(a) * 60000 + ParseInt(b) * 1000 + ParseInt(c) == d
  {
    var f := DurationFields(d);
    IntToStringRoundTrip(f.minutes);
    IntToStringRoundTrip(f.seconds);
    IntToStringRoundTrip(f.millis);
  }

  // ---------------------------------------------------------------------------
  // Logger state
  // ---------------------------------------------------------------------------

  datatype Logger = Logger(
    open: bool,
    gameStartTime: int,
    explanationStartTime: int,
    explanationActive: bool,
    currentGameScore: int,
    roundNumber: int,
    lines: seq<string>)

  const SESSION_START: string := "==== GAME SESSION START ===="
  const SESSION_SEPARATOR: string := "============================"

  /** The logger after construction and `initialize`: `open` says whether the
      file opened; `roundNumber` is left uninitialised by the constructor, so
      its value is a parameter. */
  function NewLogger(open: bool, roundNumber: int): (l: Logger)
    ensures l.open == open && !l.explanationActive && l.currentGameScore == 0
    ensures l.roundNumber == roundNumber && l.lines == []
  {
    Logger(open, 0, 0, false, 0, roundNumber, [])
  }

  function LogGameStart(l: Logger, now: int, timestamp: string): (r: Logger)
    ensures !l.open ==> r == l
    ensures l.open ==> r.roundNumber == 1 && r.gameStartTime == now
    ensures l.open ==> r.lines == l.lines + [SESSION_START, "Start Time: " + timestamp, ""]
    ensures r.open == l.open && r.explanationActive == l.explanationActive
    ensures r.currentGameScore == l.currentGameScore
  {
    if !l.open then l
    else l.(gameStartTime := now, roundNumber := 1,
            lines := l.lines + [SESSION_START, "Start Time: " + timestamp, ""])
  }

  function ResultText(wasCorrect: bool): string {
    if wasCorrect then "CORRECT" else "INCORRECT"
  }

  /** logTriviaAnswer; `selected` is the 0-based answer index. */
  function LogTriviaAnswer(l: Logger, question: string, selected: int, wasCorrect: bool): (r: Logger)
    ensures !l.open ==> r == l
    ensures l.open ==> |r.lines| == |l.lines| + 4 && r.lines[..|l.lines|] == l.lines
    ensures l.open ==> r == l.(lines := r.lines)
  {
    if !l.open then l
    else l.(lines := l.lines + [
      "TRIVIA QUESTION: " + question,
      "Selected Answer: " + IntToString(selected + 1),
      "Result: " + ResultText(wasCorrect),
      ""])
  }

  /** The answer record names the question, the answer counted from 1 and the
      verdict. */
  lemma TriviaAnswerRecord(l: Logger, question: string, selected: int, wasCorrect: bool)
    requires l.open
    ensures
      var r := LogTriviaAnswer(l, question, selected, wasCorrect);
      var n := |l.lines|;
      var sel := r.lines[n + 1];
      && r.lines[n] == "TRIVIA QUESTION: " + question
      && |sel| >= 18 && sel[..17] == "Selected Answer: "
      && (AllDigits(sel[17..]) || (sel[17] == '-' && AllDigits(sel[18..])))
      && ParseInt(sel[17..]) == selected + 1
      && (r.lines[n + 2] == "Result: CORRECT" <==> wasCorrect)
      && (r.lines[n + 2] == "Result: INCORRECT" <==> !wasCorrect)
      && r.lines[n + 3] == ""
  {
    var r := LogTriviaAnswer(l, question, selected, wasCorrect);
    var n := |l.lines|;
    assert r.lines[n + 1] == "Selected Answer: " + IntToString(selected + 1);
    assert r.lines[n + 2] == "Result: " + ResultText(wasCorrect);
    SelectedLine(selected);
    ResultLine(wasCorrect);
  }

  lemma SelectedLine(selected: int)
    ensures var sel := "Selected Answer: " + IntToString(selected + 1);
      && |sel| >= 18 && sel[..17] == "Selected Answer: "
      && (AllDigits(sel[17..]) || (sel[17] == '-' && AllDigits(sel[18..])))
      && ParseInt(sel[17..]) == selected + 1
  {
    var digits := IntToString(selected + 1);
    var sel := "Selected Answer: " + digits;
    assert sel[17..] == digits;
    IntToStringRoundTrip(selected + 1);
  }

  lemma ResultLine(wasCorrect: bool)
    ensures ("Result: " + ResultText(wasCorrect) == "Result: CORRECT") <==> wasCorrect
    ensures ("Result: " + ResultText(wasCorrect) == "Result: INCORRECT") <==> !wasCorrect
  {
    var line := "Result: " + ResultText(wasCorrect);
    if wasCorrect {
      assert line == "Result: CORRECT";
      assert line[8] == 'C';
    } else {
      assert line == "Result: INCORRECT";
      assert line[8] == 'I';
    }
  }

  function LogNewRound(l: Logger): (r: Logger)
    ensures !l.open ==> r == l
    ensures l.open ==> r == l.(roundNumber := l.roundNumber + 1, lines := r.lines)
    ensures l.open ==> r.lines == l.lines + ["", "ROUND " + IntToString(r.roundNumber) + " START"]
  {
    if !l.open then l
    else
      var round := l.roundNumber + 1;
      l.(roundNumber := round, lines := l.lines + ["", "ROUND " + IntToString(round) + " START"])
  }

  /** `k` rounds announced in a row. */
  function NewRounds(l: Logger, k: nat): Logger
    decreases k
  {
    if k == 0 then l else LogNewRound(NewRounds(l, k - 1))
  }

  /** After a session start and `k` new rounds the counter is `k + 1`, and the
      last line announces that round. */
  lemma {:induction false} RoundCounter(l: Logger, now: int, timestamp: string, k: nat)
    requires l.open
    ensures NewRounds(LogGameStart(l, now, timestamp), k).roundNumber == k + 1
    ensures NewRounds(LogGameStart(l, now, timestamp), k).open
    ensures k > 0 ==>
      var r := NewRounds(LogGameStart(l, now, timestamp), k);
      r.lines[|r.lines| - 1] == "ROUND " + IntToString(k + 1) + " START"
    decreases k
  {
    if k > 0 {
      RoundCounter(l, now, timestamp, k - 1);
    }
  }

  /** startExplanationTimer runs whether or not the file is open. */
  function StartExplanationTimer(l: Logger, now: int): (r: Logger)
    ensures r.explanationActive && r.explanationStartTime == now
    ensures r.lines == l.lines && r.roundNumber == l.roundNumber && r.open == l.open
  {
    l.(explanationStartTime := now, explanationActive := true)
  }

  function EndExplanationTimer(l: Logger, now: int): (r: Logger)
    ensures !(l.open && l.explanationActive) ==> r == l
    ensures l.open && l.explanationActive ==>
      && !r.explanationActive
      && r.lines == l.lines + ["Time spent on explanation: " + DurationToString(now - l.explanationStartTime), ""]
      && r == l.(explanationActive := false, lines := r.lines)
  {
    if !l.open || !l.explanationActive then l
    else l.(explanationActive := false,
            lines := l.lines + ["Time spent on explanation: " + DurationToString(now - l.explanationStartTime), ""])
  }

  /** One explanation screen is timed once: a start followed by two ends
      appends exactly the two lines of the first end, and with the file closed
      nothing at all. */
  lemma ExplanationTimedOnce(l: Logger, t0: int, t1: int, t2: int)
    ensures
      var once := EndExplanationTimer(StartExplanationTimer(l, t0), t1);
      var twice := EndExplanationTimer(once, t2);
      && twice == once
      && |once.lines| == |l.lines| + (if l.open then 2 else 0)
      && (!once.explanationActive <==> l.open)
  {
  }

  function LogGameScore(l: Logger, score: int): (r: Logger)
    ensures !l.open ==> r == l
    ensures l.open ==> r == l.(currentGameScore := score, lines := r.lines)
    ensures l.open ==> r.lines == l.lines + ["Final Game Score: " + IntToString(score) + " points"]
  {
    if !l.open then l
    else l.(currentGameScore := score, lines := l.lines + ["Final Game Score: " + IntToString(score) + " points"])
  }

  /** addSessionSeparator: a blank line, the rule and another blank line. */
  function AddSessionSeparator(l: Logger): (r: Logger)
    ensures !l.open ==> r == l
    ensures l.open ==> r == l.(lines := l.lines + ["", SESSION_SEPARATOR, ""])
  {
    if !l.open then l else l.(lines := l.lines + ["", SESSION_SEPARATOR, ""])
  }

  function LogGameOver(l: Logger, now: int, timestamp: string): (r: Logger)
    ensures !l.open ==> r == l
    ensures l.open ==> r == l.(lines := r.lines)
    ensures l.open ==> r.lines == l.lines + [
      "Game Over Time: " + timestamp,
      "Total Game Duration: " + DurationToString(now - l.gameStartTime),
      "", SESSION_SEPARATOR, ""]
  {
    if !l.open then l
    else
      var l1 := l.(lines := l.lines + [
        "Game Over Time: " + timestamp,
        "Total Game Duration: " + DurationToString(now - l.gameStartTime)]);
      AddSessionSeparator(l1)
  }

  /** With the file closed, every logging call leaves the logger as it was. */
  lemma ClosedLogIsInert(l: Logger, now: int, timestamp: string, question: string, selected: int,
                         wasCorrect: bool, score: int)
    requires !l.open
    ensures LogGameStart(l, now, timestamp) == l
    ensures LogTriviaAnswer(l, question, selected, wasCorrect) == l
    ensures LogNewRound(l) == l
    ensures LogGameScore(l, score) == l
    ensures LogGameOver(l, now, timestamp) == l
    ensures EndExplanationTimer(l, now) == l
  {
  }
}

=== FILE: movement.dfy ===
/**
  The player's movement step (Player.cpp). Positions are `real`s standing for
  the game's float tile coordinates. The maze tests and geometry that live in
  headers not part of this model (the wall test `PlayerTileCollision`,
  `InTunnel`, the per-direction step `dir_addition[d] * player_speed` and
  `CenterObject`) are the fields of a `MoveHooks` record.
 */
module Movement {
  import opened CInt
  import Controller

  datatype Dir = UP | DOWN | LEFT | RIGHT | NONE

  datatype Vec = Vec(x: real, y: real) {
    function Plus(v: Vec): Vec {
      Vec(x + v.x, y + v.y)
    }
  }

  datatype Player = Player(
    pos: Vec,
    curDir: Dir,
    stopped: bool,
    cornering: bool,
    correction: Dir,
    enableDraw: bool)

  /** Keyboard state sampled this tick. */
  datatype Keys = Keys(up: bool, down: bool, left: bool, right: bool, enter: bool)

  datatype MoveHooks = MoveHooks(
    blocked: (Dir, Vec) -> bool,    // PlayerTileCollision
    inTunnel: Vec -> bool,          // InTunnel
    step: Dir -> Vec,               // dir_addition[d] * player_speed
    center: (Dir, Vec) -> Vec)      // CenterObject

  predicate Vertical(d: Dir) {
    d == UP || d == DOWN
  }

  predicate Horizontal(d: Dir) {
    d == LEFT || d == RIGHT
  }

  /** The reverse of a direction (`opposite_dir`); NONE has none. */
  function Opposite(d: Dir): (r: Dir)
    ensures Vertical(d) <==> Vertical(r)
    ensures d != NONE ==> r != d
  {
    match d
    case UP => DOWN
    case DOWN => UP
    case LEFT => RIGHT
    case RIGHT => LEFT
    case NONE => NONE
  }

  lemma OppositeInvolution(d: Dir)
    ensures Opposite(Opposite(d)) == d
  {
  }

  /** `p - (int)p`: the part a float-to-int cast drops. */
  function Frac(p: real): real {
    p - Trunc(p) as real
  }

  /** GetCorrection: the sideways nudge toward the lane centre that goes with
      turning into `d`. The source has no result for NONE, and is only called
      with a real direction. */
  function GetCorrection(d: Dir, pos: Vec): (r: Dir)
    requires d != NONE
    ensures Vertical(d) ==> Horizontal(r) && (r == LEFT <==> Frac(pos.x) >= 0.5)
    ensures Horizontal(d) ==> Vertical(r) && (r == UP <==> Frac(pos.y) >= 0.5)
  {
    match d
    case UP | DOWN => if Frac(pos.x) >= 0.5 then LEFT else RIGHT
    case LEFT | RIGHT => if Frac(pos.y) >= 0.5 then UP else DOWN
  }

  /** Cornering: one correction step, and once the lane centre is reached the
      player is centred on its direction and the manoeuvre ends. */
  function Cornering(p: Player, h: MoveHooks): (r: Player)
    ensures r.curDir == p.curDir && r.stopped == p.stopped && r.correction == p.correction
    ensures r.enableDraw == p.enableDraw
    ensures
      var moved := p.pos.Plus(h.step(p.correction));
      var done := match p.correction
        case UP => Frac(moved.y) <= 0.5
        case DOWN => Frac(moved.y) >= 0.5
        case LEFT => Frac(moved.x) <= 0.5
        case RIGHT => Frac(moved.x) >= 0.5
        case NONE => false;
      && (r.cornering <==> p.cornering && !done)
      && r.pos == (if done then h.center(p.curDir, moved) else moved)
  {
    var moved := p.pos.Plus(h.step(p.correction));
    var done := match p.correction
      case UP => Frac(moved.y) <= 0.5
      case DOWN => Frac(moved.y) >= 0.5
      case LEFT => Frac(moved.x) <= 0.5
      case RIGHT => Frac(moved.x) >= 0.5
      case NONE => false;
    if done then p.(pos := h.center(p.curDir, moved), cornering := false)
    else p.(pos := moved)
  }

  /** The tile-centre snap: the truncated coordinate plus one half. */
  function Snap(c: real): real {
    Trunc(c) as real + 0.5
  }

  /** ResolveCollision: the coordinate along `curDir` is snapped to the tile
      centre; the other coordinate and every other field stay. */
  function ResolveCollision(p: Player): (r: Player)
    ensures Vertical(p.curDir) ==> r.pos == Vec(p.pos.x, Snap(p.pos.y))
    ensures Horizontal(p.curDir) ==> r.pos == Vec(Snap(p.pos.x), p.pos.y)
    ensures p.curDir == NONE ==> r.pos == p.pos
    ensures r == p.(pos := r.pos)
  {
    match p.curDir
    case UP | DOWN => p.(pos := p.pos.(y := Snap(p.pos.y)))
    case LEFT | RIGHT => p.(pos := p.pos.(x := Snap(p.pos.x)))
    case NONE => p
  }

  /** On the board (non-negative coordinates) the snap stays in the same tile,
      lands on its centre, and a second snap changes nothing. */
  lemma SnapCentres(c: real)
    requires c >= 0.0
    ensures Trunc(Snap(c)) == Trunc(c)
    ensures Frac(Snap(c)) == 0.5
    ensures Snap(Snap(c)) == Snap(c)
  {
    var t := Trunc(c);
    assert t >= 0;
    assert Trunc(t as real + 0.5) == t;
  }

  /** Horizontal tunnel: leaving past either edge re-enters at the other. */
  function TunnelWrap(x: real): (r: real)
    ensures x < -1.0 ==> r == x + 29.0
    ensures x >= 29.0 ==> r == x - 29.0
    ensures -1.0 <= x < 29.0 ==> r == x
    ensures -30.0 <= x < 58.0 ==> -1.0 <= r < 29.0
  {
    if x < -1.0 then x + 29.0
    else if x >= 29.0 then x - 29.0
    else x
  }

  /** The keyboard's choice: Up, then Down, then Right, then Left. */
  function KeyboardDir(k: Keys): Dir {
    if k.up then UP else if k.down then DOWN else if k.right then RIGHT else if k.left then LEFT else NONE
  }

  predicate JoystickActive(c: Controller.Controller) {
    c.connected && (c.joyUp || c.joyDown || c.joyRight || c.joyLeft)
  }

  /** The direction `PlayerMovement` tries: a joystick direction, when the
      controller is connected and reports one, overrides the keyboard; both
      sources rank Up over Down over Right over Left. */
  function ChooseDir(k: Keys, c: Controller.Controller): (r: Dir)
    ensures JoystickActive(c) ==>
      && (r == UP <==> c.joyUp)
      && (r == DOWN <==> !c.joyUp && c.joyDown)
      && (r == RIGHT <==> !c.joyUp && !c.joyDown && c.joyRight)
      && (r == LEFT <==> !c.joyUp && !c.joyDown && !c.joyRight && c.joyLeft)
    ensures !JoystickActive(c) ==>
      && (r == UP <==> k.up)
      && (r == DOWN <==> !k.up && k.down)
      && (r == RIGHT <==> !k.up && !k.down && k.right)
      && (r == LEFT <==> !k.up && !k.down && !k.right && k.left)
    ensures r == NONE <==> !JoystickActive(c) && !k.up && !k.down && !k.right && !k.left
  {
    var fromKeys := KeyboardDir(k);
    if !c.connected then fromKeys
    else if c.joyUp then UP
    else if c.joyDown then DOWN
    else if c.joyRight then RIGHT
    else if c.joyLeft then LEFT
    else fromKeys
  }

  /** The turn rule: a tried direction is taken only when its way is open and
      the player is not in the tunnel; taking it unstops the player, and a
      turn that is not a reversal starts cornering toward the lane centre. */
  function TryTurn(p: Player, tryDir: Dir, h: MoveHooks): (r: Player)
    ensures r.pos == p.pos && r.enableDraw == p.enableDraw
    ensures
      var turns := tryDir != NONE && !h.blocked(tryDir, p.pos) && !h.inTunnel(p.pos);
      && (turns ==> r.curDir == tryDir && !r.stopped)
      && (!turns ==> r == p)
      && (turns && tryDir != Opposite(p.curDir) ==>
            r.cornering && r.correction == GetCorrection(tryDir, p.pos))
      && (turns && tryDir == Opposite(p.curDir) ==>
            r.cornering == p.cornering && r.correction == p.correction)
  {
    if tryDir != NONE && !h.blocked(tryDir, p.pos) && !h.inTunnel(p.pos) then
      var turned := p.(curDir := tryDir, stopped := false);
      if tryDir != Opposite(p.curDir) then
        turned.(cornering := true, correction := GetCorrection(tryDir, p.pos))
      else turned
    else p
  }

  /** A direction change needs an open way, and a move outside the tunnel. */
  lemma TurnNeedsOpenWay(p: Player, k: Keys, c: Controller.Controller, h: MoveHooks)
    ensures
      var d := ChooseDir(k, c);
      var r := TryTurn(p, d, h);
      r.curDir != p.curDir ==> d != NONE && r.curDir == d && !h.blocked(d, p.pos) && !h.inTunnel(p.pos)
  {
  }

  /** The moves after the turn decision: advance unless stopped, corner,
      stop against a wall, then wrap through the tunnel. */
  function Advance(p: Player, h: MoveHooks): (r: Player)
    ensures r.curDir == p.curDir
    ensures h.blocked(p.curDir, AfterCornering(p, h).pos) ==> r.stopped
    ensures !h.blocked(p.curDir, AfterCornering(p, h).pos) ==> r.stopped == p.stopped
    ensures r.pos.x == TunnelWrap(ResolveIfBlocked(AfterCornering(p, h), h).pos.x)
    ensures r.pos.y == ResolveIfBlocked(AfterCornering(p, h), h).pos.y
  {
    var q := ResolveIfBlocked(AfterCornering(p, h), h);
    q.(pos := q.pos.(x := TunnelWrap(q.pos.x)))
  }

  function AfterCornering(p: Player, h: MoveHooks): Player {
    var moved := if !p.stopped then p.(pos := p.pos.Plus(h.step(p.curDir))) else p;
    if moved.cornering then Cornering(moved, h) else moved
  }

  function ResolveIfBlocked(p: Player, h: MoveHooks): Player {
    if h.blocked(p.curDir, p.pos) then ResolveCollision(p).(stopped := true) else p
  }

  /** PlayerMovement: read the controller, choose and try a direction, drop
      the joystick flags (only when connected), then advance. */
  function PlayerMovement(p: Player, c: Controller.Controller, input: string, k: Keys, h: MoveHooks)
    : (r: (Player, Controller.Controller))
    ensures var c1 := Controller.Update(c, input);
      && r.0 == Advance(TryTurn(p, ChooseDir(k, c1), h), h)
      && (c.connected ==> r.1 == Controller.ResetJoystickFlags(c1))
      && (!c.connected ==> r.1 == c)
    ensures c.connected ==> !r.1.joyUp && !r.1.joyDown && !r.1.joyLeft && !r.1.joyRight
    ensures r.1.selectedAnswer == Controller.Update(c, input).selectedAnswer
    ensures r.1.sent == c.sent
  {
    var c1 := Controller.Update(c, input);
    var turned := TryTurn(p, ChooseDir(k, c1), h);
    var c2 := if c1.connected then Controller.ResetJoystickFlags(c1) else c1;
    (Advance(turned, h), c2)
  }

  /** Whatever the player did this tick, a wall straight ahead at the end of
      the move leaves it stopped, and a position that entered the wrap in
      [-30, 58) leaves it on the board's [-1, 29) strip. */
  lemma MovementEnds(p: Player, c: Controller.Controller, input: string, k: Keys, h: MoveHooks)
    ensures
      var c1 := Controller.Update(c, input);
      var q := AfterCornering(TryTurn(p, ChooseDir(k, c1), h), h);
      var r := PlayerMovement(p, c, input, k, h).0;
      && (h.blocked(q.curDir, q.pos) ==> r.stopped)
      && (-30.0 <= ResolveIfBlocked(q, h).pos.x < 58.0 ==> -1.0 <= r.pos.x < 29.0)
  {
  }
}

=== FILE: phases.dfy ===
/**
  The per-frame dispatch (`GameLoop` in Gameloop.cpp) and the handler of
  each phase: the maze loop, the start, death, win and game-over pauses, the
  instruction screens, the menu, the trivia question and its two explanation
  screens.

  Everything a frame reads from outside arrives in an `Input`: the elapsed
  milliseconds, the 32-bit tick count, the system clock in milliseconds and
  the formatted local time for the log, the keyboard, the text each serial
  read returns, and the random pick for a flower's question.
 */
module Phases {
  import opened CInt
  import opened Movement
  import opened Game
  import Trivia
  import Controller
  import Logger
  import Text

  datatype Input = Input(
    ms: int,
    tick: int,               // GetTickCount()
    now: int,                // system clock, milliseconds
    timestamp: string,       // local time as the log prints it
    keys: Keys,
    serial: seq<string>,     // what the k-th update() of this frame reads
    pick: nat)               // the random draw for a flower's question

  /** The text the k-th controller read of the frame receives; a read past
      the recorded ones finds nothing. Read 0 is the dispatcher's own. */
  function Read(inp: Input, k: nat): string {
    if k < |inp.serial| then inp.serial[k] else ""
  }

  // ---------------------------------------------------------------------------
  // The maze loop
  // ---------------------------------------------------------------------------

  /** UpdateGhosts: the ghosts take what the header's update gives them,
      and nothing else changes. */
  function UpdateGhosts(s: GameState, env: Env): (r: GameState)
    ensures |r.ghosts| == |s.ghosts|
    ensures r == s.(ghosts := env.updateGhosts(s))
  {
    s.(ghosts := env.updateGhosts(s))
  }

  /** The pause after eating a ghost: the clock runs down and, once it drops
      below zero, the eaten ghost and the player reappear. */
  function EatPause(s: GameState, ms: int): (r: GameState)
    ensures r.timers == s.timers.(pauseTime := s.timers.pauseTime - ms)
    ensures r.timers.pauseTime >= 0 ==> r == s.(timers := r.timers)
    ensures r.timers.pauseTime < 0 ==> !r.feeding.playerEatGhost && r.player.enableDraw
    ensures r.timers.pauseTime < 0 && 0 <= s.feeding.recentEaten < |s.ghosts| ==>
      r.ghosts == s.ghosts[s.feeding.recentEaten := s.ghosts[s.feeding.recentEaten].(enableDraw := true)]
    ensures r.phase == s.phase && r.stats == s.stats && r.maze == s.maze
    ensures r.timers.pauseTime < 0 ==>
      r == s.(timers := r.timers, ghosts := r.ghosts, player := s.player.(enableDraw := true),
              feeding := s.feeding.(playerEatGhost := false))
  {
    var s1 := s.(timers := s.timers.(pauseTime := s.timers.pauseTime - ms));
    if s1.timers.pauseTime < 0 then
      var i := s.feeding.recentEaten;
      var gs := if 0 <= i < |s.ghosts| then s.ghosts[i := s.ghosts[i].(enableDraw := true)] else s.ghosts;
      s1.(ghosts := gs, player := s1.player.(enableDraw := true), feeding := s1.feeding.(playerEatGhost := false))
    else s1
  }

  /** The player's step: skipped, once, right after a pellet. */
  function MovePlayer(s: GameState, inp: Input, env: Env): (r: GameState)
    ensures s.feeding.pelletEaten ==> r == s.(feeding := s.feeding.(pelletEaten := false))
    ensures !s.feeding.pelletEaten ==>
      var m := PlayerMovement(s.player, s.ctrl, Read(inp, 1), inp.keys, env.move);
      r == s.(player := m.0, ctrl := m.1)
  {
    if !s.feeding.pelletEaten then
      var m := PlayerMovement(s.player, s.ctrl, Read(inp, 1), inp.keys, env.move);
      s.(player := m.0, ctrl := m.1)
    else s.(feeding := s.feeding.(pelletEaten := false))
  }

  /** The rules after the player's step, in the order the loop applies them:
      the high score ends at least the score, and a board without pellets
      ends the frame in the win pause. */
  function MazeRules(s: GameState, inp: Input, env: Env): (r: GameState)
    requires |s.ghosts| == GHOST_COUNT
    ensures |r.ghosts| == GHOST_COUNT
    ensures r.stats.highScore >= r.stats.score
    ensures r.maze.pelletsLeft <= 0 ==> r.phase == GAMEWIN && r.timers.pauseTime == 2000 && r.player.stopped
  {
    var s1 := CheckGhostCollision(s, env);
    var s2 := CheckPelletCollision(s1, inp.pick);
    var s3 := UpdateGhosts(s2, env);
    var s4 := UpdateWave(s3, inp.ms, env);
    var s5 := UpdateEnergizerTime(s4, inp.ms, env);
    CheckWin(CheckHighScore(s5))
  }

  /** The rules as the loop evidently means them ("check collision first"):
      a death ends the frame's rules, so no pellet, flower or win check can
      replace the death pause. */
  function MazeRulesDeathFirst(s: GameState, inp: Input, env: Env): (r: GameState)
    requires |s.ghosts| == GHOST_COUNT
    ensures |r.ghosts| == GHOST_COUNT
    ensures r.stats.highScore >= r.stats.score
    ensures KillersFrom(s.ghosts, 0, s.player.pos) > 0 ==>
      && r.phase == GAMELOSE
      && r.stats.lives == s.stats.lives - KillersFrom(s.ghosts, 0, s.player.pos)
      && r.maze == s.maze && r.quiz == s.quiz
    ensures KillersFrom(s.ghosts, 0, s.player.pos) == 0 ==> r == MazeRules(s, inp, env)
  {
    GhostCollisionOutcome(s, env);
    var s1 := CheckGhostCollision(s, env);
    if KillersFrom(s.ghosts, 0, s.player.pos) > 0 then CheckHighScore(s1)
    else MazeRules(s, inp, env)
  }

  /** As written, a ghost that kills the player on a flower's tile is
      followed, in the same frame, by the flower's question: the life is
      gone, yet the death pause and the actor reset never come. */
  lemma FlowerHidesDeath(s: GameState, inp: Input, env: Env)
    requires |s.ghosts| == GHOST_COUNT && s.quiz.canInteractWithFlower
    requires PlayerTile(s) == 'o' && s.maze.pelletsLeft > 0
    requires KillersFrom(s.ghosts, 0, s.player.pos) > 0
    ensures MazeRules(s, inp, env).phase == TRIVIA_MODE
    ensures MazeRules(s, inp, env).stats.lives < s.stats.lives
    ensures MazeRulesDeathFirst(s, inp, env).phase == GAMELOSE
  {
    GhostCollisionOutcome(s, env);
    var s1 := CheckGhostCollision(s, env);
    assert PlayerTile(s1) == 'o';
    var s2 := CheckPelletCollision(s1, inp.pick);
    assert s2.phase == TRIVIA_MODE && s2.stats == s1.stats && s2.maze == s.maze;
  }

  /** MainLoop: the flower cooldown always runs; during the pause after
      eating a ghost nothing else happens. */
  function MainLoop(s: GameState, inp: Input, env: Env): (r: GameState)
    requires |s.ghosts| == GHOST_COUNT
    ensures |r.ghosts| == GHOST_COUNT
    ensures s.feeding.playerEatGhost ==>
      && r.phase == s.phase && r.stats == s.stats && r.maze == s.maze
      && r.timers == s.timers.(pauseTime := s.timers.pauseTime - inp.ms)
      && r.quiz == UpdateFlowerCooldown(s, inp.ms).quiz
  {
    var s0 := UpdateFlowerCooldown(s, inp.ms);
    if s0.feeding.playerEatGhost then EatPause(s0, inp.ms)
    else MazeRules(MovePlayer(s0, inp, env), inp, env)
  }

  lemma Pow2Monotone(a: nat, b: nat)
    requires a <= b
    ensures Pow2(a) <= Pow2(b)
    decreases b
  {
    if a < b {
      Pow2Monotone(a, b - 1);
    }
  }

  /** The phases the maze rules can leave behind: a death, a flower's
      question, or a cleared board (which wins over the other two). */
  lemma MazeRulesPhase(s: GameState, inp: Input, env: Env)
    requires |s.ghosts| == GHOST_COUNT && s.phase == MAINLOOP
    ensures MazeRules(s, inp, env).phase in {MAINLOOP, GAMELOSE, TRIVIA_MODE, GAMEWIN}
    ensures MazeRules(s, inp, env).stats.score >= s.stats.score
    ensures var r := MazeRules(s, inp, env);
      r.stats.highScore >= r.stats.score && r.stats.highScore >= s.stats.highScore
  {
    var s1 := CheckGhostCollision(s, env);
    GhostCollisionOutcome(s, env);
    Pow2Monotone(s.feeding.ghostsEaten + 1,
      s.feeding.ghostsEaten + PreyFrom(s.ghosts, 0, s.player.pos) + 1);
    var killers := KillersFrom(s.ghosts, 0, s.player.pos);
    var prey := PreyFrom(s.ghosts, 0, s.player.pos);
    if killers == 0 && prey > 0 {
      CollideFromCounts(s, 0, s.player.pos, env);
    }
    assert s1.phase in {MAINLOOP, GAMELOSE};
  }

  /** A frame of the maze loop never lowers the score, and leaves the high
      score at least the score and at least what it was. */
  lemma MainLoopScores(s: GameState, inp: Input, env: Env)
    requires |s.ghosts| == GHOST_COUNT && s.phase == MAINLOOP
    ensures var r := MainLoop(s, inp, env);
      && r.stats.score >= s.stats.score
      && r.stats.highScore >= s.stats.highScore
      && r.phase in {MAINLOOP, GAMELOSE, TRIVIA_MODE, GAMEWIN}
    ensures !s.feeding.playerEatGhost ==> MainLoop(s, inp, env).stats.highScore >= MainLoop(s, inp, env).stats.score
  {
    var s0 := UpdateFlowerCooldown(s, inp.ms);
    assert s0 == s.(quiz := s0.quiz);
    if s0.feeding.playerEatGhost {
      assert MainLoop(s, inp, env) == EatPause(s0, inp.ms);
    } else {
      var m := MovePlayer(s0, inp, env);
      assert m.stats == s.stats && m.phase == MAINLOOP && |m.ghosts| == GHOST_COUNT;
      MazeRulesPhase(m, inp, env);
      assert MainLoop(s, inp, env) == MazeRules(m, inp, env);
    }
  }

  // ---------------------------------------------------------------------------
  // Pauses
  // ---------------------------------------------------------------------------

  /** GameStart: when the start pause runs out the maze loop begins and the
      log opens the session. */
  function GameStart(s: GameState, inp: Input): (r: GameState)
    ensures r.timers == s.timers.(pauseTime := s.timers.pauseTime - inp.ms)
    ensures r.timers.pauseTime <= 0 ==>
      r == s.(timers := r.timers, phase := MAINLOOP, log := Logger.LogGameStart(s.log, inp.now, inp.timestamp))
    ensures r.timers.pauseTime > 0 ==> r == s.(timers := r.timers)
  {
    var s1 := s.(timers := s.timers.(pauseTime := s.timers.pauseTime - inp.ms));
    if s1.timers.pauseTime <= 0 then
      s1.(phase := MAINLOOP, log := Logger.LogGameStart(s1.log, inp.now, inp.timestamp))
    else s1
  }

  /** The game ends: ghosts and player vanish for the five-second game-over
      pause, and the log records the final score and the session's end. */
  function EndGame(s: GameState, inp: Input): (r: GameState)
    ensures r.phase == GAMEOVER && r.timers == s.timers.(pauseTime := 5000)
    ensures r.ghosts == HideGhosts(s.ghosts) && !r.player.enableDraw
    ensures r.log == Logger.LogGameOver(Logger.LogGameScore(s.log, s.stats.score), inp.now, inp.timestamp)
    ensures r.stats == s.stats && r.maze == s.maze
  {
    s.(phase := GAMEOVER, timers := s.timers.(pauseTime := 5000), ghosts := HideGhosts(s.ghosts),
       player := s.player.(enableDraw := false),
       log := Logger.LogGameOver(Logger.LogGameScore(s.log, s.stats.score), inp.now, inp.timestamp))
  }

  /** Another life: the actors go back to their start for a two-second
      start pause. */
  function NextLife(s: GameState): (r: GameState)
    requires |s.ghosts| == GHOST_COUNT
    ensures r.phase == GAMESTART && r.timers.pauseTime == 2000
    ensures r.stats == s.stats && r.maze == s.maze
    ensures |r.ghosts| == GHOST_COUNT
    ensures r.ghosts == HomeGhosts(s.ghosts)
    ensures r.player == s.player.(curDir := UP, pos := Vec(14.0, 23.5), stopped := true, enableDraw := true)
    ensures r.timers == s.timers.(pauseTime := 2000, energizerTime := 0, waveCounter := 0, waveTime := 0)
    ensures r.house.globalDotCounter == 0 && r.house.usingGlobalCounter == (s.house.usingGlobalCounter || !s.house.firstLife)
    ensures r.house.firstLife == s.house.firstLife
    ensures r == s.(phase := GAMESTART, ghosts := r.ghosts, player := r.player, timers := r.timers, house := r.house)
  {
    var s1 := ResetGhostsAndPlayer(s);
    s1.(phase := GAMESTART, timers := s1.timers.(pauseTime := 2000))
  }

  /** GameLose exactly as written: the game ends only when the lives are
      exactly zero. */
  function GameLoseAsWritten(s: GameState, inp: Input): (r: GameState)
    requires |s.ghosts| == GHOST_COUNT
    ensures |r.ghosts| == GHOST_COUNT
    ensures r.stats == s.stats
    ensures var pause := s.timers.pauseTime - inp.ms;
      && (pause > 0 ==> r == s.(timers := s.timers.(pauseTime := pause)))
      && (pause <= 0 && s.stats.lives == 0 ==>
            && r.phase == GAMEOVER && r.timers.pauseTime == 5000
            && r.ghosts == HideGhosts(s.ghosts) && !r.player.enableDraw)
      && (pause <= 0 && s.stats.lives != 0 ==>
            && r.phase == GAMESTART && r.timers.pauseTime == 2000
            && r.ghosts == HomeGhosts(s.ghosts) && r.player.pos == Vec(14.0, 23.5) && r.player.stopped
            && r.timers.energizerTime == 0 && r.timers.waveCounter == 0)
  {
    var s1 := s.(timers := s.timers.(pauseTime := s.timers.pauseTime - inp.ms));
    if s1.timers.pauseTime <= 0 then
      if s1.stats.lives == 0 then EndGame(s1, inp) else NextLife(s1)
    else s1
  }

  /** GameLose as intended: when the death pause runs out the game ends once
      no life is left, and otherwise the next life starts. */
  function GameLose(s: GameState, inp: Input): (r: GameState)
    requires |s.ghosts| == GHOST_COUNT
    ensures |r.ghosts| == GHOST_COUNT
    ensures r.stats == s.stats
    ensures var pause := s.timers.pauseTime - inp.ms;
      && (pause > 0 ==> r == s.(timers := s.timers.(pauseTime := pause)))
      && (pause <= 0 && s.stats.lives <= 0 ==>
            && r.phase == GAMEOVER && r.timers.pauseTime == 5000
            && r.ghosts == HideGhosts(s.ghosts) && !r.player.enableDraw)
      && (pause <= 0 && s.stats.lives > 0 ==>
            && r.phase == GAMESTART && r.timers.pauseTime == 2000
            && r.ghosts == HomeGhosts(s.ghosts) && r.player.pos == Vec(14.0, 23.5) && r.player.stopped
            && r.timers.energizerTime == 0 && r.timers.waveCounter == 0)
  {
    var s1 := s.(timers := s.timers.(pauseTime := s.timers.pauseTime - inp.ms));
    if s1.timers.pauseTime <= 0 then
      if s1.stats.lives <= 0 then EndGame(s1, inp) else NextLife(s1)
    else s1
  }

  /** With a life count that never went below zero the two agree. */
  lemma GameLoseAgrees(s: GameState, inp: Input)
    requires |s.ghosts| == GHOST_COUNT && s.stats.lives >= 0
    ensures GameLoseAsWritten(s, inp) == GameLose(s, inp)
  {
  }

  /** A player without lives is never given another start. */
  lemma NoLivesNoRestart(s: GameState, inp: Input)
    requires |s.ghosts| == GHOST_COUNT && s.phase == GAMELOSE && s.stats.lives <= 0
    ensures GameLose(s, inp).phase in {GAMELOSE, GAMEOVER}
  {
  }

  /** Two deadly ghosts on the player's tile with one life left: the
      collision loop takes both lives and leaves the count at -1 in the
      death pause. */
  lemma DoubleCatch(s: GameState, env: Env)
    requires |s.ghosts| == GHOST_COUNT && s.stats.lives == 1
    requires SameTile(s.ghosts[0].pos, s.player.pos) && Deadly(s.ghosts[0])
    requires SameTile(s.ghosts[1].pos, s.player.pos) && Deadly(s.ghosts[1])
    requires !SameTile(s.ghosts[2].pos, s.player.pos) && !SameTile(s.ghosts[3].pos, s.player.pos)
    ensures var hit := CheckGhostCollision(s, env);
      && hit.stats.lives == -1
      && hit.phase == GAMELOSE
      && hit.timers.pauseTime == 2000
  {
    GhostCollisionOutcome(s, env);
    var gs, at := s.ghosts, s.player.pos;
    assert KillersFrom(gs, 3, at) == 0;
    assert KillersFrom(gs, 2, at) == 0;
    assert KillersFrom(gs, 0, at) == 2;
    var s2 := LoseLife(LoseLife(s));
    assert s2.ghosts == gs;
    assert CollideFrom(s2, 4, at, env) == s2;
    assert CollideFrom(s2, 3, at, env) == s2;
    assert CollideFrom(s2, 2, at, env) == s2;
    assert CollideFrom(s, 0, at, env) == CollideFrom(s2, 2, at, env);
  }

  /** With the count below zero, the death pause as written grants a fresh
      start instead of ending the game, and the count stays below zero; the
      corrected pause ends the game. */
  lemma BelowZeroRestarts(s: GameState, inp: Input)
    requires |s.ghosts| == GHOST_COUNT && s.stats.lives < 0
    requires s.timers.pauseTime - inp.ms <= 0
    ensures GameLoseAsWritten(s, inp).phase == GAMESTART
    ensures GameLoseAsWritten(s, inp).stats.lives == s.stats.lives
    ensures GameLose(s, inp).phase == GAMEOVER
  {
  }

  /** GameWin: when the win pause runs out the score is logged, a new round
      is announced, and a fresh board starts with the same score and lives. */
  function GameWin(s: GameState, inp: Input, env: Env): (r: GameState)
    requires |s.ghosts| == GHOST_COUNT
    ensures |r.ghosts| == GHOST_COUNT
    ensures r.stats == s.stats
    ensures s.timers.pauseTime - inp.ms > 0 ==> r == s.(timers := s.timers.(pauseTime := s.timers.pauseTime - inp.ms))
    ensures s.timers.pauseTime - inp.ms <= 0 ==>
      && r.phase == GAMESTART && r.timers.pauseTime == 2000
      && r.maze == Maze(env.mapFile, PELLET_COUNT, 0)
      && r.log == Logger.LogNewRound(Logger.LogGameScore(s.log, s.stats.score))
      && r.ghosts == HomeGhosts(ZeroCounters(s.ghosts))
      && r.player == s.player.(curDir := UP, pos := Vec(14.0, 23.5), stopped := true, enableDraw := true)
      && r.house == House(true, false, 0)
      && r.timers == s.timers.(pauseTime := 2000, energizerTime := 0, waveCounter := 0, waveTime := 0)
  {
    var s1 := s.(timers := s.timers.(pauseTime := s.timers.pauseTime - inp.ms));
    if s1.timers.pauseTime <= 0 then
      var s2 := s1.(log := Logger.LogNewRound(Logger.LogGameScore(s1.log, s1.stats.score)));
      var s3 := ResetGhostsAndPlayer(ResetBoard(s2, env));
      s3.(timers := s3.timers.(pauseTime := 2000), phase := GAMESTART)
    else s1
  }

  // ---------------------------------------------------------------------------
  // Menu and instruction screens
  // ---------------------------------------------------------------------------

  /** SetupInstructionScreens: the first screen, locked until the tick count
      moves on, with every actor hidden. */
  function SetupInstructionScreens(s: GameState, tick: int): (r: GameState)
    ensures r.phase == INSTR_SCREEN1 && r.screens == Screens(false, tick)
    ensures r.ghosts == HideGhosts(s.ghosts) && !r.player.enableDraw
    ensures r == s.(phase := INSTR_SCREEN1, screens := r.screens, ghosts := r.ghosts, player := r.player)
  {
    s.(phase := INSTR_SCREEN1, screens := Screens(false, tick), ghosts := HideGhosts(s.ghosts),
       player := s.player.(enableDraw := false))
  }

  /** The menu line-up: ghost i at (6, 5.5 + 3i) heading right and chasing,
      the player at (6, 17.5) heading right. */
  function MenuGhosts(gs: seq<Ghost>): (r: seq<Ghost>)
    ensures |r| == |gs|
    ensures forall i :: 0 <= i < |r| ==>
      r[i] == gs[i].(enableDraw := true, pos := Vec(6.0, 5.5 + i as real * 3.0), dir := RIGHT, mode := CHASE, inHouse := false)
  {
    seq(|gs|, i requires 0 <= i < |gs| =>
      gs[i].(enableDraw := true, pos := Vec(6.0, 5.5 + i as real * 3.0), dir := RIGHT, mode := CHASE, inHouse := false))
  }

  /** SetupMenu, which ends on the instruction screens. */
  function SetupMenu(s: GameState, tick: int): (r: GameState)
    ensures r.phase == INSTR_SCREEN1 && r.screens == Screens(false, tick)
    ensures r.ghosts == HideGhosts(MenuGhosts(s.ghosts))
    ensures r.player == s.player.(pos := Vec(6.0, 17.5), curDir := RIGHT, enableDraw := false)
    ensures r.stats == s.stats && r.maze == s.maze && r.ctrl == s.ctrl && r.log == s.log
    ensures r.quiz == s.quiz && r.timers == s.timers
  {
    var s1 := s.(ghosts := MenuGhosts(s.ghosts),
                 player := s.player.(enableDraw := true, pos := Vec(6.0, 17.5), curDir := RIGHT));
    SetupInstructionScreens(s1, tick)
  }

  /** A new game: fresh board and actors, no score, three lives, and the
      four-second start pause. */
  function StartNewGame(s: GameState, env: Env): (r: GameState)
    requires |s.ghosts| == GHOST_COUNT
    ensures |r.ghosts| == GHOST_COUNT
    ensures r.phase == GAMESTART && r.timers.pauseTime == 4000
    ensures r.stats == s.stats.(score := 0, lives := 3)
    ensures r.maze == Maze(env.mapFile, PELLET_COUNT, 0)
    ensures r.log == s.log && r.screens == s.screens
    ensures r.ghosts == HomeGhosts(ZeroCounters(s.ghosts))
    ensures r.player == s.player.(curDir := UP, pos := Vec(14.0, 23.5), stopped := true, enableDraw := true)
    ensures r.house == House(true, false, 0)
    ensures r.timers == s.timers.(pauseTime := 4000, energizerTime := 0, waveCounter := 0, waveTime := 0)
  {
    var s1 := ResetGhostsAndPlayer(ResetBoard(s, env));
    s1.(stats := s1.stats.(score := 0, lives := 3), timers := s1.timers.(pauseTime := 4000), phase := GAMESTART)
  }

  /** Menu: Enter or the controller's start button begins a game. */
  function Menu(s: GameState, inp: Input, env: Env): (r: GameState)
    requires |s.ghosts| == GHOST_COUNT
    ensures |r.ghosts| == GHOST_COUNT
    ensures var c := Controller.Update(s.ctrl, Read(inp, 1));
      && (inp.keys.enter || Controller.IsGameStartPressed(c) ==> r == StartNewGame(s.(ctrl := c), env))
      && (!(inp.keys.enter || Controller.IsGameStartPressed(c)) ==> r == s.(ctrl := c))
  {
    var s1 := s.(ctrl := Controller.Update(s.ctrl, Read(inp, 1)));
    if inp.keys.enter || Controller.IsGameStartPressed(s1.ctrl) then StartNewGame(s1, env) else s1
  }

  function NextScreen(p: Phase): Phase {
    match p
    case INSTR_SCREEN1 => INSTR_SCREEN2
    case INSTR_SCREEN2 => INSTR_SCREEN3
    case INSTR_SCREEN3 => INSTR_SCREEN4
    case INSTR_SCREEN4 => INSTR_FINAL_SCREEN
    case _ => p
  }

  predicate InstructionPhase(p: Phase) {
    p in {INSTR_SCREEN1, INSTR_SCREEN2, INSTR_SCREEN3, INSTR_SCREEN4, INSTR_FINAL_SCREEN}
  }

  /** A screen unlocks once more than 100 ticks have passed since it appeared. */
  function UnlockScreen(s: GameState, tick: int): (r: GameState)
    ensures r.screens.canAdvanceScreen <==> s.screens.canAdvanceScreen || TickDiff(tick, s.screens.screenChangeTime) > 100
    ensures r == s.(screens := r.screens) && r.screens.screenChangeTime == s.screens.screenChangeTime
  {
    if TickDiff(tick, s.screens.screenChangeTime) > 100 then s.(screens := s.screens.(canAdvanceScreen := true)) else s
  }

  predicate ScreenPress(inp: Input, c: Controller.Controller) {
    inp.keys.enter || c.buttonPressed || Controller.IsGameStartPressed(c)
  }

  /** One of the four first instruction screens: once unlocked, a press moves
      on to the next screen, which starts locked. */
  function InstructionScreen(s: GameState, inp: Input): (r: GameState)
    ensures var c := Controller.Update(s.ctrl, Read(inp, 1));
      var unlocked := s.screens.canAdvanceScreen || TickDiff(inp.tick, s.screens.screenChangeTime) > 100;
      && r.ctrl == c
      && (unlocked && ScreenPress(inp, c) ==> r.phase == NextScreen(s.phase) && r.screens == Screens(false, inp.tick))
      && (!(unlocked && ScreenPress(inp, c)) ==> r.phase == s.phase && r.screens == Screens(unlocked, s.screens.screenChangeTime))
    ensures r == s.(phase := r.phase, screens := r.screens, ctrl := r.ctrl)
  {
    var s1 := UnlockScreen(s, inp.tick).(ctrl := Controller.Update(s.ctrl, Read(inp, 1)));
    if s1.screens.canAdvanceScreen && ScreenPress(inp, s1.ctrl) then
      s1.(phase := NextScreen(s.phase), screens := Screens(false, inp.tick))
    else s1
  }

  /** The last instruction screen: once unlocked, a press starts a game. */
  function FinalInstructionScreen(s: GameState, inp: Input, env: Env): (r: GameState)
    requires |s.ghosts| == GHOST_COUNT
    ensures |r.ghosts| == GHOST_COUNT
    ensures var c := Controller.Update(s.ctrl, Read(inp, 1));
      var unlocked := s.screens.canAdvanceScreen || TickDiff(inp.tick, s.screens.screenChangeTime) > 100;
      && (unlocked && ScreenPress(inp, c) ==> r == StartNewGame(s.(ctrl := c, screens := s.screens.(canAdvanceScreen := true)), env))
      && (!(unlocked && ScreenPress(inp, c)) ==> r == s.(ctrl := c, screens := s.screens.(canAdvanceScreen := unlocked)))
  {
    var s1 := UnlockScreen(s, inp.tick).(ctrl := Controller.Update(s.ctrl, Read(inp, 1)));
    if s1.screens.canAdvanceScreen && ScreenPress(inp, s1.ctrl) then StartNewGame(s1, env) else s1
  }

  /** A screen that has just appeared cannot be left within the next 100
      ticks: two presses in quick succession advance one screen, not two. */
  lemma NoDoubleAdvance(s: GameState, a: Input, b: Input)
    requires s.phase in {INSTR_SCREEN1, INSTR_SCREEN2, INSTR_SCREEN3}
    requires 0 <= a.tick <= b.tick <= a.tick + 100
    ensures var r1 := InstructionScreen(s, a);
      r1.phase != s.phase ==> InstructionScreen(r1, b).phase == r1.phase
  {
  }

  // ---------------------------------------------------------------------------
  // Trivia
  // ---------------------------------------------------------------------------

  /** The answer the controller's last message selects, counted from 0. */
  function ArduinoChoice(c: Controller.Controller): (r: Controller.Option<int>)
    ensures r.Some? ==> 0 <= r.value <= 3
  {
    if !c.connected then Controller.None
    else match Controller.ParseSelected(c.lastMessage)
      case Some(d) => Controller.Some(d - 1)
      case None => Controller.None
  }

  datatype Selection = Selection(answer: int, changed: bool)

  /** The selection step: the controller's choice, when it differs, wins;
      otherwise a fresh Up press moves up (wrapping 0 to 3), or else a fresh
      Down press moves down (wrapping 3 to 0). */
  function SelectAnswer(selected: int, arduino: Controller.Option<int>, keys: Keys, upWas: bool, downWas: bool)
    : (r: Selection)
    ensures arduino.Some? && arduino.value != selected ==> r == Selection(arduino.value, true)
    ensures !(arduino.Some? && arduino.value != selected) ==>
      && (keys.up && !upWas ==> r == Selection(if selected > 0 then selected - 1 else 3, true))
      && (!(keys.up && !upWas) && keys.down && !downWas ==> r == Selection(if selected < 3 then selected + 1 else 0, true))
      && (!(keys.up && !upWas) && !(keys.down && !downWas) ==> r == Selection(selected, false))
  {
    var first := if arduino.Some? && arduino.value != selected then Selection(arduino.value, true)
                 else Selection(selected, false);
    var afterUp := if !first.changed && keys.up && !upWas then
                     Selection(if first.answer > 0 then first.answer - 1 else 3, true)
                   else first;
    if !afterUp.changed && keys.down && !downWas then
      Selection(if afterUp.answer < 3 then afterUp.answer + 1 else 0, true)
    else afterUp
  }

  /** The selection never leaves 0..3, and only a wrap-around jumps by more
      than one. */
  lemma SelectionStaysInRange(selected: int, arduino: Controller.Option<int>, keys: Keys, upWas: bool, downWas: bool)
    requires 0 <= selected <= 3
    requires arduino.Some? ==> 0 <= arduino.value <= 3
    ensures var r := SelectAnswer(selected, arduino, keys, upWas, downWas);
      && 0 <= r.answer <= 3
      && (r.changed <==> r.answer != selected)
  {
  }

  /** HandleTriviaMode: read the controller, update the selection, read the
      controller again, and on Enter or the controller's button submit the
      selection. The held-key memory is what the keyboard showed this frame. */
  function HandleTriviaMode(s: GameState, inp: Input, env: Env): (r: GameState)
    ensures var c1 := Controller.Update(s.ctrl, Read(inp, 1));
      var c2 := Controller.Update(c1, Read(inp, 2));
      var sel := SelectAnswer(s.quiz.selected, ArduinoChoice(c1), inp.keys, s.quiz.upWasPressed, s.quiz.downWasPressed);
      var s1 := s.(ctrl := c2, quiz := s.quiz.(selected := sel.answer, upWasPressed := inp.keys.up, downWasPressed := inp.keys.down));
      && (inp.keys.enter || c2.buttonPressed ==> r == AnswerTriviaQuestion(s1, sel.answer, inp.now, env))
      && (!(inp.keys.enter || c2.buttonPressed) ==> r == s1)
    ensures r.quiz.upWasPressed == inp.keys.up && r.quiz.downWasPressed == inp.keys.down
  {
    var c1 := Controller.Update(s.ctrl, Read(inp, 1));
    var sel := SelectAnswer(s.quiz.selected, ArduinoChoice(c1), inp.keys, s.quiz.upWasPressed, s.quiz.downWasPressed);
    var c2 := Controller.Update(c1, Read(inp, 2));
    var s1 := s.(ctrl := c2, quiz := s.quiz.(selected := sel.answer, upWasPressed := inp.keys.up, downWasPressed := inp.keys.down));
    if inp.keys.enter || c2.buttonPressed then AnswerTriviaQuestion(s1, sel.answer, inp.now, env) else s1
  }

  /** A trivia frame keeps the selection in 0..3; the frame either stays on
      the question or, on a submit, moves to the explanation that matches
      the verdict on the submitted answer. */
  lemma TriviaFrame(s: GameState, inp: Input, env: Env)
    requires s.phase == TRIVIA_MODE && 0 <= s.quiz.selected <= 3
    ensures var r := HandleTriviaMode(s, inp, env);
      && 0 <= r.quiz.selected <= 3
      && r.phase in {TRIVIA_MODE, TRIVIA_CORRECT_EXPLANATION, TRIVIA_INCORRECT_EXPLANATION}
      && (r.phase == TRIVIA_CORRECT_EXPLANATION <==> r.phase != TRIVIA_MODE && Trivia.CheckAnswer(s.quiz.question, r.quiz.selected))
  {
    var c1 := Controller.Update(s.ctrl, Read(inp, 1));
    SelectionStaysInRange(s.quiz.selected, ArduinoChoice(c1), inp.keys, s.quiz.upWasPressed, s.quiz.downWasPressed);
  }

  /** A connected controller whose message of this frame names an answer
      other than the current one decides the selection, whatever the
      keyboard does. */
  lemma ControllerSelectionWins(s: GameState, inp: Input, env: Env, d: int)
    requires s.ctrl.connected && Read(inp, 1) != ""
    requires Controller.ParseSelected(Read(inp, 1)) == Controller.Some(d)
    requires d - 1 != s.quiz.selected
    ensures HandleTriviaMode(s, inp, env).quiz.selected == d - 1
  {
  }

  /** The explanation after a right answer; a press confirms it. */
  function HandleCorrectExplanation(s: GameState, inp: Input): (r: GameState)
    ensures var c := Controller.Update(s.ctrl, Read(inp, 1));
      && (inp.keys.enter || c.buttonPressed ==> r == ConfirmCorrectExplanation(s.(ctrl := c), inp.now))
      && (!(inp.keys.enter || c.buttonPressed) ==> r == s.(ctrl := c))
  {
    var s1 := s.(ctrl := Controller.Update(s.ctrl, Read(inp, 1)));
    if inp.keys.enter || s1.ctrl.buttonPressed then ConfirmCorrectExplanation(s1, inp.now) else s1
  }

  /** The explanation after a wrong answer; a press confirms it. */
  function HandleIncorrectExplanation(s: GameState, inp: Input): (r: GameState)
    ensures var c := Controller.Update(s.ctrl, Read(inp, 1));
      && (inp.keys.enter || c.buttonPressed ==> r == ConfirmIncorrectExplanation(s.(ctrl := c), inp.now))
      && (!(inp.keys.enter || c.buttonPressed) ==> r == s.(ctrl := c))
  {
    var s1 := s.(ctrl := Controller.Update(s.ctrl, Read(inp, 1)));
    if inp.keys.enter || s1.ctrl.buttonPressed then ConfirmIncorrectExplanation(s1, inp.now) else s1
  }

  // ---------------------------------------------------------------------------
  // The frame
  // ---------------------------------------------------------------------------

  /** Clears the controller's LEDs and game state, when it is connected. */
  function ResetController(c: Controller.Controller): (r: Controller.Controller)
    ensures r == c.(sent := c.sent + (if c.connected then ["5\n", "GAME:RESET\n"] else []))
  {
    if c.connected then Controller.ResetGame(Controller.ResetLEDs(c).controller).controller else c
  }

  /** The game-over pause; once it drops below zero the controller is reset
      and the instruction screens come back. */
  function GameOver(s: GameState, inp: Input): (r: GameState)
    ensures var pause := s.timers.pauseTime - inp.ms;
      && (pause >= 0 ==> r == s.(timers := s.timers.(pauseTime := pause)))
      && (pause < 0 ==> r.phase == INSTR_SCREEN1 && r.ctrl == ResetController(s.ctrl) && r.stats == s.stats)
  {
    var s1 := s.(timers := s.timers.(pauseTime := s.timers.pauseTime - inp.ms));
    if s1.timers.pauseTime < 0 then SetupMenu(s1.(ctrl := ResetController(s1.ctrl)), inp.tick) else s1
  }

  /** The controller's reset request: a whole new game, back on the first
      instruction screen, with the LEDs and the controller's game reset. */
  function ResetFromController(s: GameState, inp: Input, env: Env): (r: GameState)
    requires |s.ghosts| == GHOST_COUNT
    ensures |r.ghosts| == GHOST_COUNT
    ensures r.phase == INSTR_SCREEN1 && r.screens == Screens(false, inp.tick)
    ensures r.stats == s.stats.(score := 0, lives := 3)
    ensures r.maze == Maze(env.mapFile, PELLET_COUNT, 0)
    ensures r.ctrl.sent == s.ctrl.sent + (if s.ctrl.connected then ["5\n", "5\n", "GAME:RESET\n"] else [])
    ensures r.log == s.log && r.quiz == s.quiz && r.trivia == s.trivia
    ensures r.ghosts == HideGhosts(HomeGhosts(ZeroCounters(s.ghosts)))
    ensures r.player == s.player.(curDir := UP, pos := Vec(14.0, 23.5), stopped := true, enableDraw := false)
    ensures r.house == House(true, false, 0)
    ensures r.timers == s.timers.(energizerTime := 0, waveCounter := 0, waveTime := 0)
  {
    var s1 := s.(stats := s.stats.(score := 0, lives := 3));
    var s2 := ResetGhostsAndPlayer(ResetBoard(s1, env));
    var s3 := s2.(ctrl := ResetController(s2.ctrl));
    SetupInstructionScreens(s3, inp.tick)
  }

  /** One frame of GameLoop: the dispatcher's own controller read first; a
      reset request pre-empts the phase's handler. */
  function GameLoop(s: GameState, inp: Input, env: Env): (r: GameState)
    requires |s.ghosts| == GHOST_COUNT
    ensures |r.ghosts| == GHOST_COUNT
    ensures Controller.Update(s.ctrl, Read(inp, 0)).resetRequested ==>
      && r.phase == INSTR_SCREEN1
      && r.stats == s.stats.(score := 0, lives := 3)
      && r.maze == Maze(env.mapFile, PELLET_COUNT, 0)
    ensures !Controller.Update(s.ctrl, Read(inp, 0)).resetRequested ==> r.phase in Successors(s.phase)
  {
    var s0 := s.(ctrl := Controller.Update(s.ctrl, Read(inp, 0)));
    if s0.ctrl.resetRequested then ResetFromController(s0, inp, env)
    else Dispatch(s0, inp, env)
  }

  /** The phase switch of a frame with no reset request: each phase's
      handler, which moves only along the phase graph. */
  function Dispatch(s: GameState, inp: Input, env: Env): (r: GameState)
    requires |s.ghosts| == GHOST_COUNT
    ensures |r.ghosts| == GHOST_COUNT
    ensures r.phase in Successors(s.phase)
  {
    match s.phase
    case MAINLOOP => MainLoopScores(s, inp, env); MainLoop(s, inp, env)
    case GAMESTART => GameStart(s, inp)
    case GAMELOSE => GameLoseAsWritten(s, inp)
    case GAMEOVER => GameOver(s, inp)
    case GAMEWIN => GameWin(s, inp, env)
    case TRIVIA_MODE => HandleTriviaMode(s, inp, env)
    case TRIVIA_CORRECT_EXPLANATION => HandleCorrectExplanation(s, inp)
    case TRIVIA_INCORRECT_EXPLANATION => HandleIncorrectExplanation(s, inp)
    case MENU => Menu(s, inp, env)
    case INSTR_SCREEN1 | INSTR_SCREEN2 | INSTR_SCREEN3 | INSTR_SCREEN4 => InstructionScreen(s, inp)
    case INSTR_FINAL_SCREEN => FinalInstructionScreen(s, inp, env)
  }

  /** A reset request from a connected controller wins over every phase: the
      frame ends on the first instruction screen with no score, three lives,
      a full board, and the LEDs-off line (sent twice, once by the board
      reset), then the reset command, written to the controller. */
  lemma ResetPreempts(s: GameState, inp: Input, env: Env)
    requires |s.ghosts| == GHOST_COUNT && s.ctrl.connected
    requires Text.Contains(Read(inp, 0), "RESET_GAME")
    ensures var r := GameLoop(s, inp, env);
      && r.phase == INSTR_SCREEN1
      && r.stats.score == 0 && r.stats.lives == 3 && r.stats.highScore == s.stats.highScore
      && r.maze == Maze(env.mapFile, PELLET_COUNT, 0)
      && r.screens == Screens(false, inp.tick)
      && r.ctrl.sent == s.ctrl.sent + ["5\n", "5\n", "GAME:RESET\n"]
  {
    Controller.UpdateDecodes(s.ctrl, Read(inp, 0));
  }

  /** The phases a frame can move to from each phase, when no reset is
      requested. */
  function Successors(p: Phase): set<Phase> {
    match p
    case MAINLOOP => {MAINLOOP, GAMELOSE, TRIVIA_MODE, GAMEWIN}
    case GAMESTART => {GAMESTART, MAINLOOP}
    case GAMELOSE => {GAMELOSE, GAMESTART, GAMEOVER}
    case GAMEOVER => {GAMEOVER, INSTR_SCREEN1}
    case GAMEWIN => {GAMEWIN, GAMESTART}
    case TRIVIA_MODE => {TRIVIA_MODE, TRIVIA_CORRECT_EXPLANATION, TRIVIA_INCORRECT_EXPLANATION}
    case TRIVIA_CORRECT_EXPLANATION => {TRIVIA_CORRECT_EXPLANATION, MAINLOOP}
    case TRIVIA_INCORRECT_EXPLANATION => {TRIVIA_INCORRECT_EXPLANATION, MAINLOOP}
    case MENU => {MENU, GAMESTART}
    case INSTR_SCREEN1 => {INSTR_SCREEN1, INSTR_SCREEN2}
    case INSTR_SCREEN2 => {INSTR_SCREEN2, INSTR_SCREEN3}
    case INSTR_SCREEN3 => {INSTR_SCREEN3, INSTR_SCREEN4}
    case INSTR_SCREEN4 => {INSTR_SCREEN4, INSTR_FINAL_SCREEN}
    case INSTR_FINAL_SCREEN => {INSTR_FINAL_SCREEN, GAMESTART}
  }

  // ---------------------------------------------------------------------------
  // Start-up and the state invariant
  // ---------------------------------------------------------------------------

  /** Init, from the default-constructed state `s` (four ghosts): actors to
      their start, the trivia fields cleared, the menu line-up, and then the
      first instruction screen with flowers unlocked. */
  function Init(s: GameState, tick: int, env: Env): (r: GameState)
    requires |s.ghosts| == GHOST_COUNT
    ensures r.phase == INSTR_SCREEN1 && r.timers.pauseTime == 2000
    ensures r.screens == Screens(false, tick)
    ensures r.maze.board == env.mapFile
    ensures r.quiz == s.quiz.(selected := 0, lastAnswerCorrect := false, explanation := "",
                              canInteractWithFlower := true, flowerCooldown := 0)
    ensures r.timers.waveCounter == 0 && |r.ghosts| == GHOST_COUNT
    ensures r.player.pos == Vec(6.0, 17.5) && r.player.curDir == RIGHT && r.player.stopped
  {
    var s1 := ResetGhostsAndPlayer(s.(maze := s.maze.(board := env.mapFile)));
    var s2 := s1.(quiz := s1.quiz.(selected := 0, lastAnswerCorrect := false, explanation := ""));
    var s3 := SetupMenu(s2, tick).(phase := MENU, timers := s2.timers.(pauseTime := 2000),
                                   screens := Screens(false, 0));
    var s4 := SetupMenu(s3, tick).(phase := INSTR_SCREEN1);
    s4.(timers := s4.timers.(pauseTime := 2000),
        quiz := s4.quiz.(canInteractWithFlower := true, flowerCooldown := 0))
  }

  /** What every frame keeps: four ghosts, a selection among the four
      answers, a wave counter that stops at the last wave, at most four
      flowers lit, and a locked flower only with cooldown left. */
  predicate Valid(s: GameState) {
    && |s.ghosts| == GHOST_COUNT
    && 0 <= s.quiz.selected <= 3
    && s.timers.waveCounter <= LAST_WAVE
    && s.maze.flowersCollected <= 4
    && (!s.quiz.canInteractWithFlower ==> s.quiz.flowerCooldown > 0)
  }

  lemma InitValid(s: GameState, tick: int, env: Env)
    requires |s.ghosts| == GHOST_COUNT && s.maze.flowersCollected <= 4
    ensures Valid(Init(s, tick, env))
  {
  }

  lemma MazeRulesValid(s: GameState, inp: Input, env: Env)
    requires Valid(s)
    ensures Valid(MazeRules(s, inp, env))
  {
    var s1 := CheckGhostCollision(s, env);
    var s2 := CheckPelletCollision(s1, inp.pick);
    assert Valid(s2);
    var s3 := UpdateGhosts(s2, env);
    var s4 := UpdateWave(s3, inp.ms, env);
    assert Valid(s4);
    var s5 := UpdateEnergizerTime(s4, inp.ms, env);
    assert Valid(s5);
  }

  lemma MainLoopValid(s: GameState, inp: Input, env: Env)
    requires Valid(s)
    ensures Valid(MainLoop(s, inp, env))
  {
    var s0 := UpdateFlowerCooldown(s, inp.ms);
    assert Valid(s0);
    if !s0.feeding.playerEatGhost {
      MazeRulesValid(MovePlayer(s0, inp, env), inp, env);
    }
  }

  lemma TriviaValid(s: GameState, inp: Input, env: Env)
    requires Valid(s)
    ensures Valid(HandleTriviaMode(s, inp, env))
  {
    var c1 := Controller.Update(s.ctrl, Read(inp, 1));
    SelectionStaysInRange(s.quiz.selected, ArduinoChoice(c1), inp.keys, s.quiz.upWasPressed, s.quiz.downWasPressed);
  }

  lemma PausesValid(s: GameState, inp: Input, env: Env)
    requires Valid(s)
    ensures Valid(GameStart(s, inp)) && Valid(GameLoseAsWritten(s, inp))
    ensures Valid(GameOver(s, inp)) && Valid(GameWin(s, inp, env))
  {
  }

  lemma ScreensValid(s: GameState, inp: Input, env: Env)
    requires Valid(s)
    ensures Valid(Menu(s, inp, env)) && Valid(InstructionScreen(s, inp))
    ensures Valid(FinalInstructionScreen(s, inp, env)) && Valid(ResetFromController(s, inp, env))
  {
  }

  lemma ExplanationsValid(s: GameState, inp: Input)
    requires Valid(s)
    ensures Valid(HandleCorrectExplanation(s, inp)) && Valid(HandleIncorrectExplanation(s, inp))
  {
  }

  lemma DispatchValid(s: GameState, inp: Input, env: Env)
    requires Valid(s)
    ensures Valid(Dispatch(s, inp, env))
  {
    match s.phase
    case MAINLOOP => MainLoopValid(s, inp, env);
    case TRIVIA_MODE => TriviaValid(s, inp, env);
    case GAMESTART | GAMELOSE | GAMEOVER | GAMEWIN => PausesValid(s, inp, env);
    case TRIVIA_CORRECT_EXPLANATION | TRIVIA_INCORRECT_EXPLANATION => ExplanationsValid(s, inp);
    case MENU | INSTR_SCREEN1 | INSTR_SCREEN2 | INSTR_SCREEN3 | INSTR_SCREEN4 | INSTR_FINAL_SCREEN =>
      ScreensValid(s, inp, env);
  }

  /** Every frame keeps the invariant, whatever the phase and the input. */
  lemma FrameKeepsValid(s: GameState, inp: Input, env: Env)
    requires Valid(s)
    ensures Valid(GameLoop(s, inp, env))
  {
    var s0 := s.(ctrl := Controller.Update(s.ctrl, Read(inp, 0)));
    assert Valid(s0);
    if s0.ctrl.resetRequested {
      ScreensValid(s0, inp, env);
    } else {
      DispatchValid(s0, inp, env);
    }
  }

  /** From start-up, any run of frames keeps the invariant. */
  function Run(s: GameState, inputs: seq<Input>, env: Env): (r: GameState)
    requires Valid(s)
    ensures Valid(r)
    decreases |inputs|
  {
    if |inputs| == 0 then s
    else
      FrameKeepsValid(s, inputs[0], env);
      Run(GameLoop(s, inputs[0], env), inputs[1..], env)
  }
}

=== FILE: text.dfy ===
/**
  String helpers of the renderer (Render.cpp): the greedy word wrap used for
  trivia questions, answers and explanations, the truncation of the wrapped
  lines, and the two-digit padding of the score display. Also the substring
  search (`std::string::find`) the controller decoder is built on.
 */
module Text {
  import Decimal

  // ---------------------------------------------------------------------------
  // Substring search
  // ---------------------------------------------------------------------------

  /** `pat` occurs in `s` starting at index `i`. */
  predicate OccursAt(s: string, pat: string, i: int) {
    0 <= i && i + |pat| <= |s| && s[i..i + |pat|] == pat
  }

  /** Index of the first occurrence of `pat` in `s` at or after `from`, or -1
      (`std::string::npos`) when there is none. */
  function FindFrom(s: string, pat: string, from: nat): (r: int)
    ensures r == -1 || (from <= r && OccursAt(s, pat, r))
    ensures r == -1 ==> forall j :: from <= j ==> !OccursAt(s, pat, j)
    ensures r != -1 ==> forall j :: from <= j < r ==> !OccursAt(s, pat, j)
    decreases |s| - from
  {
    if from + |pat| > |s| then -1
    else if s[from..from + |pat|] == pat then from
    else FindFrom(s, pat, from + 1)
  }

  function Find(s: string, pat: string): (r: int)
    ensures r == -1 || OccursAt(s, pat, r)
    ensures r == -1 <==> !Contains(s, pat)
    ensures r != -1 ==> forall j :: 0 <= j < r ==> !OccursAt(s, pat, j)
  {
    FindFrom(s, pat, 0)
  }

  ghost predicate Contains(s: string, pat: string) {
    exists i :: OccursAt(s, pat, i)
  }

  /** Executable membership test (`s.find(pat) != npos`). */
  predicate Has(s: string, pat: string) {
    Find(s, pat) != -1
  }

  lemma HasIffContains(s: string, pat: string)
    ensures Has(s, pat) <==> Contains(s, pat)
  {
  }

  // ---------------------------------------------------------------------------
  // Words: what `istringstream >> word` extracts
  // ---------------------------------------------------------------------------

  /** The characters `isspace` accepts in the "C" locale. */
  predicate IsSpace(c: char) {
    c == ' ' || '\t' <= c <= '\r'
  }

  predicate NoSpace(w: string) {
    forall i :: 0 <= i < |w| ==> !IsSpace(w[i])
  }

  predicate IsWord(w: string) {
    |w| > 0 && NoSpace(w)
  }

  predicate AllWords(ws: seq<string>) {
    forall i :: 0 <= i < |ws| ==> IsWord(ws[i])
  }

  /** Length of the run of non-space characters at the front of `s`. */
  function WordLen(s: string): (k: nat)
    ensures k <= |s|
    ensures NoSpace(s[..k])
    ensures k == |s| || IsSpace(s[k])
  {
    if |s| == 0 || IsSpace(s[0]) then 0 else 1 + WordLen(s[1..])
  }

  /** The whitespace-separated words of `s`, in order. */
  function Words(s: string): seq<string>
    decreases |s|
  {
    if |s| == 0 then []
    else if IsSpace(s[0]) then Words(s[1..])
    else
      var k := WordLen(s);
      [s[..k]] + Words(s[k..])
  }

  /** The first word of a line (the whole line when it holds no space). */
  function FirstWord(s: string): string {
    s[..WordLen(s)]
  }

  /** Words joined by single spaces. */
  function JoinSpace(ws: seq<string>): string
    requires |ws| > 0
  {
    if |ws| == 1 then ws[0] else JoinSpace(ws[..|ws| - 1]) + " " + ws[|ws| - 1]
  }

  /** The words of every line, one after the other. */
  function WordsOfLines(lines: seq<string>): seq<string> {
    if |lines| == 0 then [] else Words(lines[0]) + WordsOfLines(lines[1..])
  }

  /** A line made of its words joined by single spaces: not empty, no space
      at either end, no two spaces in a row, no other whitespace. */
  predicate Spaced(l: string) {
    && |l| > 0
    && !IsSpace(l[0])
    && !IsSpace(l[|l| - 1])
    && (forall i :: 0 <= i < |l| && IsSpace(l[i]) ==> l[i] == ' ')
    && (forall i :: 0 <= i < |l| - 1 && IsSpace(l[i]) ==> !IsSpace(l[i + 1]))
  }

  lemma {:induction false} WordLenOfWord(w: string)
    requires NoSpace(w)
    ensures WordLen(w) == |w|
    decreases |w|
  {
    if |w| > 0 {
      WordLenOfWord(w[1..]);
    }
  }

  lemma WordsOfWord(w: string)
    requires IsWord(w)
    ensures Words(w) == [w]
  {
    WordLenOfWord(w);
    assert !IsSpace(w[0]);
    assert w[..|w|] == w;
    assert w[|w|..] == "";
  }

  /** A word ending before a space ends at the same place when more text follows. */
  lemma {:induction false} WordLenConcat(a: string, b: string)
    requires |b| > 0 && IsSpace(b[0])
    ensures WordLen(a + b) == WordLen(a)
    decreases |a|
  {
    if |a| > 0 && !IsSpace(a[0]) {
      assert (a + b)[1..] == a[1..] + b;
      WordLenConcat(a[1..], b);
    }
  }

  /** Words distribute over a single space. */
  lemma {:induction false} WordsAroundSpace(a: string, b: string)
    ensures Words(a + " " + b) == Words(a) + Words(b)
    decreases |a|
  {
    var s := a + " " + b;
    if |a| == 0 {
      assert s[1..] == b;
    } else if IsSpace(a[0]) {
      assert s[1..] == a[1..] + " " + b;
      WordsAroundSpace(a[1..], b);
    } else {
      var k := WordLen(a);
      WordLenConcat(a, " " + b);
      assert s == a + (" " + b);
      assert s[..k] == a[..k];
      assert s[k..] == a[k..] + " " + b;
      WordsAroundSpace(a[k..], b);
    }
  }

  lemma {:induction false} WordsAreWords(s: string)
    ensures AllWords(Words(s))
    decreases |s|
  {
    if |s| > 0 {
      if IsSpace(s[0]) {
        WordsAreWords(s[1..]);
      } else {
        WordsAreWords(s[WordLen(s)..]);
      }
    }
  }

  /** A text has no words exactly when it is all whitespace. */
  lemma {:induction false} NoWordsIffBlank(s: string)
    ensures Words(s) == [] <==> forall i :: 0 <= i < |s| ==> IsSpace(s[i])
    decreases |s|
  {
    if |s| > 0 && IsSpace(s[0]) {
      NoWordsIffBlank(s[1..]);
      assert forall i :: 1 <= i < |s| ==> s[i] == s[1..][i - 1];
    }
  }

  lemma JoinSnoc(ws: seq<string>, w: string)
    requires |ws| > 0
    ensures JoinSpace(ws + [w]) == JoinSpace(ws) + " " + w
  {
    assert (ws + [w])[..|ws|] == ws;
  }

  lemma SpacedExtend(a: string, w: string)
    requires Spaced(a) && IsWord(w)
    ensures Spaced(a + " " + w)
  {
    var l := a + " " + w;
    forall i | 0 <= i < |l| - 1
      ensures IsSpace(l[i]) ==> !IsSpace(l[i + 1])
    {
      if i < |a| {
        assert l[i] == a[i];
        if i + 1 < |a| { assert l[i + 1] == a[i + 1]; }
      } else if i == |a| {
        assert l[i + 1] == w[0];
      } else {
        assert l[i] == w[i - |a| - 1];
      }
    }
    forall i | 0 <= i < |l|
      ensures IsSpace(l[i]) ==> l[i] == ' '
    {
      if i < |a| { assert l[i] == a[i]; }
      else if i > |a| { assert l[i] == w[i - |a| - 1]; }
    }
    assert l[|l| - 1] == w[|w| - 1];
  }

  /** Joining words with single spaces gives a well-spaced line. */
  lemma {:induction false} JoinSpaceSpaced(ws: seq<string>)
    requires |ws| > 0 && AllWords(ws)
    ensures Spaced(JoinSpace(ws))
    decreases |ws|
  {
    if |ws| > 1 {
      JoinSpaceSpaced(ws[..|ws| - 1]);
      SpacedExtend(JoinSpace(ws[..|ws| - 1]), ws[|ws| - 1]);
    }
  }

  // ---------------------------------------------------------------------------
  // Byte length: `std::string::length()` of UTF-8 text
  // ---------------------------------------------------------------------------

  /** The number of bytes a character takes in UTF-8. */
  function Utf8Width(c: char): nat {
    if c as int < 0x80 then 1
    else if c as int < 0x800 then 2
    else if c as int < 0x1_0000 then 3
    else 4
  }

  /** The length of a string as `std::string` counts it: the bytes of its
      UTF-8 encoding, so "–" (U+2013) counts three. */
  function ByteLen(s: string): nat
    decreases |s|
  {
    if |s| == 0 then 0 else ByteLen(s[..|s| - 1]) + Utf8Width(s[|s| - 1])
  }

  lemma {:induction false} ByteLenConcat(a: string, b: string)
    ensures ByteLen(a + b) == ByteLen(a) + ByteLen(b)
    decreases |b|
  {
    if |b| > 0 {
      assert (a + b)[..|a + b| - 1] == a + b[..|b| - 1];
      ByteLenConcat(a, b[..|b| - 1]);
    } else {
      assert a + b == a;
    }
  }

  /** Every character takes one to four bytes, and text made only of ASCII
      characters takes exactly one byte per character. */
  lemma {:induction false} ByteLenBounds(s: string)
    ensures |s| <= ByteLen(s) <= 4 * |s|
    ensures (forall i :: 0 <= i < |s| ==> s[i] as int < 0x80) ==> ByteLen(s) == |s|
    decreases |s|
  {
    if |s| > 0 {
      ByteLenBounds(s[..|s| - 1]);
    }
  }

  lemma AppendWordBytes(cur: string, w: string)
    ensures ByteLen(cur + " " + w) == ByteLen(cur) + 1 + ByteLen(w)
  {
    ByteLenConcat(cur, " ");
    ByteLenConcat(cur + " ", w);
    assert " "[..0] == "";
  }

  // ---------------------------------------------------------------------------
  // WrapText (Render.cpp)
  // ---------------------------------------------------------------------------

  /** The loop of WrapText over the remaining words `ws`, with the line being
      built in `cur`: a word joins the current line when the line is empty or
      the word still fits with one separating space; otherwise the line is
      emitted and the word starts a new one. A last non-empty line is emitted
      at the end. Lengths are byte counts, as `std::string::length()` gives
      them. */
  function WrapFrom(ws: seq<string>, cur: string, n: nat): seq<string>
    decreases |ws|
  {
    if |ws| == 0 then
      (if cur == "" then [] else [cur])
    else if cur == "" || ByteLen(cur) + ByteLen(ws[0]) + 1 <= n then
      WrapFrom(ws[1..], if cur == "" then ws[0] else cur + " " + ws[0], n)
    else
      [cur] + WrapFrom(ws[1..], ws[0], n)
  }

  /** WrapText: the lines give back the text's words, in order, each once. */
  function WrapText(text: string, n: nat): (r: seq<string>)
    ensures WordsOfLines(r) == Words(text)
  {
    WordsAreWords(text);
    WrapFromWords(Words(text), "", n);
    WrapFrom(Words(text), "", n)
  }

  /** A line under construction: empty, or its words joined by single spaces. */
  predicate LineSoFar(cur: string, n: nat) {
    cur == "" || (|Words(cur)| > 0 && cur == JoinSpace(Words(cur)) && (ByteLen(cur) > n ==> NoSpace(cur)))
  }

  /** Every emitted line is the single-space join of its words. */
  predicate JoinedLines(r: seq<string>) {
    forall i :: 0 <= i < |r| ==> |Words(r[i])| > 0 && r[i] == JoinSpace(Words(r[i]))
  }

  /** A line longer than the limit holds one word. */
  predicate LongLinesSingle(r: seq<string>, n: nat) {
    forall i :: 0 <= i < |r| && ByteLen(r[i]) > n ==> NoSpace(r[i])
  }

  /** Each line break was forced: the next line's first word did not fit. */
  predicate GreedyBreaks(r: seq<string>, n: nat) {
    forall i :: 0 <= i < |r| - 1 ==> ByteLen(r[i]) + 1 + ByteLen(FirstWord(r[i + 1])) > n
  }

  lemma WordsOfLinesCons(l: string, r: seq<string>)
    ensures WordsOfLines([l] + r) == Words(l) + WordsOfLines(r)
  {
    assert ([l] + r)[1..] == r;
  }

  lemma AppendWordWords(cur: string, w: string)
    requires IsWord(w)
    ensures Words(cur + " " + w) == Words(cur) + [w]
  {
    WordsAroundSpace(cur, w);
    WordsOfWord(w);
  }

  lemma AppendWordFirst(cur: string, w: string)
    ensures FirstWord(cur + " " + w) == FirstWord(cur)
  {
    var k := WordLen(cur);
    WordLenConcat(cur, " " + w);
    assert cur + " " + w == cur + (" " + w);
    assert (cur + " " + w)[..k] == cur[..k];
  }

  lemma AppendWordLine(cur: string, w: string, n: nat)
    requires cur != "" && LineSoFar(cur, n) && IsWord(w)
    requires ByteLen(cur) + ByteLen(w) + 1 <= n
    ensures LineSoFar(cur + " " + w, n)
  {
    AppendWordBytes(cur, w);
    AppendWordWords(cur, w);
    JoinSnoc(Words(cur), w);
  }

  lemma WordLine(w: string, n: nat)
    requires IsWord(w)
    ensures LineSoFar(w, n) && FirstWord(w) == w && Words(w) == [w]
  {
    WordsOfWord(w);
    WordLenOfWord(w);
  }

  /** The lines keep the words: those of the current line, then the rest. */
  lemma {:induction false} WrapFromWords(ws: seq<string>, cur: string, n: nat)
    requires AllWords(ws) && LineSoFar(cur, n)
    ensures WordsOfLines(WrapFrom(ws, cur, n)) == Words(cur) + ws
    decreases |ws|
  {
    if |ws| == 0 {
      if cur != "" {
        WordsOfLinesCons(cur, []);
      }
    } else {
      var w := ws[0];
      WordLine(w, n);
      assert AllWords(ws[1..]);
      if cur == "" {
        WrapFromWords(ws[1..], w, n);
        assert [w] + ws[1..] == ws;
      } else if ByteLen(cur) + ByteLen(w) + 1 <= n {
        AppendWordWords(cur, w);
        AppendWordLine(cur, w, n);
        WrapFromWords(ws[1..], cur + " " + w, n);
        assert Words(cur) + [w] + ws[1..] == Words(cur) + ws;
      } else {
        WrapFromWords(ws[1..], w, n);
        WordsOfLinesCons(cur, WrapFrom(ws[1..], w, n));
        assert Words(cur) + ([w] + ws[1..]) == Words(cur) + ws;
      }
    }
  }

  /** Every line is a single-space join of its words, and only a single word
      can exceed the limit. */
  lemma {:induction false} WrapFromShape(ws: seq<string>, cur: string, n: nat)
    requires AllWords(ws) && LineSoFar(cur, n)
    ensures JoinedLines(WrapFrom(ws, cur, n))
    ensures LongLinesSingle(WrapFrom(ws, cur, n), n)
    decreases |ws|
  {
    if |ws| > 0 {
      var w := ws[0];
      WordLine(w, n);
      assert AllWords(ws[1..]);
      if cur == "" {
        WrapFromShape(ws[1..], w, n);
      } else if ByteLen(cur) + ByteLen(w) + 1 <= n {
        AppendWordLine(cur, w, n);
        WrapFromShape(ws[1..], cur + " " + w, n);
      } else {
        WrapFromShape(ws[1..], w, n);
        var rest := WrapFrom(ws[1..], w, n);
        var r := [cur] + rest;
        assert forall i :: 1 <= i < |r| ==> r[i] == rest[i - 1];
      }
    }
  }

  /** Line breaks are forced, and the first line starts with the first word
      of the current line (or of the remaining words). */
  lemma {:induction false} WrapFromGreedy(ws: seq<string>, cur: string, n: nat)
    requires AllWords(ws) && LineSoFar(cur, n)
    ensures GreedyBreaks(WrapFrom(ws, cur, n), n)
    ensures cur != "" ==> |WrapFrom(ws, cur, n)| > 0 && FirstWord(WrapFrom(ws, cur, n)[0]) == FirstWord(cur)
    ensures cur == "" && |ws| > 0 ==> |WrapFrom(ws, cur, n)| > 0 && FirstWord(WrapFrom(ws, cur, n)[0]) == ws[0]
    ensures cur == "" && |ws| == 0 ==> WrapFrom(ws, cur, n) == []
    decreases |ws|
  {
    if |ws| > 0 {
      var w := ws[0];
      WordLine(w, n);
      assert AllWords(ws[1..]);
      if cur == "" {
        WrapFromGreedy(ws[1..], w, n);
      } else if ByteLen(cur) + ByteLen(w) + 1 <= n {
        AppendWordLine(cur, w, n);
        AppendWordFirst(cur, w);
        WrapFromGreedy(ws[1..], cur + " " + w, n);
      } else {
        WrapFromGreedy(ws[1..], w, n);
        var rest := WrapFrom(ws[1..], w, n);
        var r := [cur] + rest;
        assert forall i :: 1 <= i < |r| ==> r[i] == rest[i - 1];
        assert ByteLen(r[0]) + 1 + ByteLen(FirstWord(r[1])) > n;
      }
    }
  }

  /** Widths are bytes: "a–" takes four bytes, so "b" no longer fits beside
      it on a line of four, although the three characters would. */
  lemma WrapCountsBytes()
    ensures WrapText("a\U{2013} b", 4) == ["a\U{2013}", "b"]
  {
    var t := "a\U{2013} b";
    assert WordLen(t) == 2;
    assert t[2..] == " b" && Words(" b") == Words("b");
    WordsOfWord("b");
    assert t[..2] == "a\U{2013}";
    assert Words(t) == ["a\U{2013}", "b"];
    assert ByteLen("a\U{2013}") == 4 by {
      assert "a\U{2013}"[..1] == "a" && "a"[..0] == "";
    }
    assert ByteLen("b") == 1 by {
      assert "b"[..0] == "";
    }
  }

  /** Every line is non-empty, is its words joined by single spaces, and has
      no leading, trailing or doubled space. */
  lemma WrapTextLinesSpaced(text: string, n: nat)
    ensures forall i :: 0 <= i < |WrapText(text, n)| ==>
      var l := WrapText(text, n)[i];
      |Words(l)| > 0 && l == JoinSpace(Words(l)) && Spaced(l)
  {
    WordsAreWords(text);
    WrapFromShape(Words(text), "", n);
    var r := WrapText(text, n);
    forall i | 0 <= i < |r|
      ensures Spaced(r[i])
    {
      WordsAreWords(r[i]);
      JoinSpaceSpaced(Words(r[i]));
    }
  }

  /** A line longer than the limit consists of a single word. */
  lemma WrapTextLongLine(text: string, n: nat)
    ensures forall i :: 0 <= i < |WrapText(text, n)| && ByteLen(WrapText(text, n)[i]) > n ==>
      Words(WrapText(text, n)[i]) == [WrapText(text, n)[i]]
  {
    WordsAreWords(text);
    WrapFromShape(Words(text), "", n);
    var r := WrapText(text, n);
    forall i | 0 <= i < |r| && ByteLen(r[i]) > n
      ensures Words(r[i]) == [r[i]]
    {
      WordsOfWord(r[i]);
    }
  }

  /** A line break happens only when the next word would overflow the line. */
  lemma WrapTextGreedy(text: string, n: nat)
    ensures GreedyBreaks(WrapText(text, n), n)
  {
    WordsAreWords(text);
    WrapFromGreedy(Words(text), "", n);
  }

  /** Whitespace-only input yields no lines; any other input yields some. */
  lemma WrapTextBlank(text: string, n: nat)
    ensures WrapText(text, n) == [] <==> forall i :: 0 <= i < |text| ==> IsSpace(text[i])
  {
    NoWordsIffBlank(text);
    WordsAreWords(text);
    WrapFromGreedy(Words(text), "", n);
  }

  // ---------------------------------------------------------------------------
  // Line-count truncation and score padding (Render.cpp)
  // ---------------------------------------------------------------------------

  const MAX_LINE_LENGTH: nat := 26
  const MAX_QUESTION_LINES: nat := 5
  const MAX_ANSWER_LINES: nat := 3
  const MAX_EXPLANATION_LINES: nat := 10

  /** `vector::resize` to at most `max` lines. */
  function TruncateLines(lines: seq<string>, max: nat): (r: seq<string>)
    ensures |r| <= max && |r| <= |lines|
    ensures |lines| <= max ==> r == lines
    ensures |lines| > max ==> |r| == max
    ensures r == lines[..|r|]
  {
    if |lines| > max then lines[..max] else lines
  }

  /** The question lines drawn on the trivia screen. */
  function QuestionLines(question: string): (r: seq<string>)
    ensures var w := WrapText(question, MAX_LINE_LENGTH);
      |r| == if |w| <= MAX_QUESTION_LINES then |w| else MAX_QUESTION_LINES
    ensures r == WrapText(question, MAX_LINE_LENGTH)[..|r|]
  {
    TruncateLines(WrapText(question, MAX_LINE_LENGTH), MAX_QUESTION_LINES)
  }

  /** The lines drawn for answer `i` (0-based): "<i+1>: <answer>", wrapped. */
  function AnswerLines(i: nat, answer: string): (r: seq<string>)
    ensures var w := WrapText(Decimal.NatToString(i + 1) + ": " + answer, MAX_LINE_LENGTH);
      |r| == if |w| <= MAX_ANSWER_LINES then |w| else MAX_ANSWER_LINES
    ensures r == WrapText(Decimal.NatToString(i + 1) + ": " + answer, MAX_LINE_LENGTH)[..|r|]
  {
    TruncateLines(WrapText(Decimal.NatToString(i + 1) + ": " + answer, MAX_LINE_LENGTH), MAX_ANSWER_LINES)
  }

  /** The explanation lines drawn on the explanation screen. */
  function ExplanationLines(explanation: string): (r: seq<string>)
    ensures var w := WrapText(explanation, MAX_LINE_LENGTH);
      |r| == if |w| <= MAX_EXPLANATION_LINES then |w| else MAX_EXPLANATION_LINES
    ensures r == WrapText(explanation, MAX_LINE_LENGTH)[..|r|]
  {
    TruncateLines(WrapText(explanation, MAX_LINE_LENGTH), MAX_EXPLANATION_LINES)
  }

  /** The score text: a single character gets a leading '0', which a
      string of digits reads past. */
  function PadScore(s: string): (r: string)
    ensures |s| == 1 ==> r == "0" + s
    ensures |s| != 1 ==> r == s
    ensures |s| >= 1 ==> |r| >= 2
    ensures Decimal.AllDigits(s) ==> Decimal.AllDigits(r) && Decimal.ParseDigits(r) == Decimal.ParseDigits(s)
  {
    if |s| == 1 && Decimal.AllDigits(s) then
      Decimal.LeadingZero(s);
      "0" + s
    else if |s| == 1 then "0" + s
    else s
  }

  /** The score display of a non-negative score has at least two digits and
      still reads back as the score; a negative score is printed as is. */
  function ScoreText(score: int): (r: string)
    ensures score >= 0 ==> |r| >= 2 && Decimal.AllDigits(r) && Decimal.ParseDigits(r) == score
    ensures score < 0 ==> r == Decimal.IntToString(score) && Decimal.ParseInt(r) == score
  {
    var s := Decimal.IntToString(score);
    Decimal.IntToStringRoundTrip(score);
    if score >= 0 then
      Decimal.NatToStringRoundTrip(score);
      PadScore(s)
    else PadScore(s)
  }
}

=== FILE: trivia.dfy ===
/**
  The trivia session of TriviaManager (Trivia.cpp): a fixed question bank and
  a pool of still-available questions drawn without replacement and refilled
  from the bank once it runs dry. The random engine is replaced by the index
  the caller supplies.
 */
module Trivia {

  datatype Question = Question(
    question: string,
    answers: seq<string>,
    correctIndex: int,
    pointsReward: int,
    explanations: seq<string>)

  /** The value-initialised question `{}` returned when there is nothing to draw. */
  const EmptyQuestion: Question := Question("", [], 0, 0, [])

  const FallbackExplanation: string := "No explanation available."

  datatype Session = Session(bank: seq<Question>, available: seq<Question>)

  datatype Draw = Draw(question: Question, session: Session)

  /** The session right after construction: every question is available. */
  function NewSession(bank: seq<Question>): (s: Session)
    ensures s.bank == bank && s.available == bank
  {
    Session(bank, bank)
  }

  /** The pool a draw picks from: the available questions, or the whole bank
      when none are left. */
  function Pool(s: Session): (p: seq<Question>)
    ensures |s.available| > 0 ==> p == s.available
    ensures |s.available| == 0 ==> p == s.bank
  {
    if |s.available| == 0 then s.bank else s.available
  }

  /** The random index is acceptable: in range of the pool, or anything when
      there is nothing to draw from. */
  predicate IndexFits(s: Session, index: int) {
    |Pool(s)| == 0 || 0 <= index < |Pool(s)|
  }

  function RemoveAt<T>(xs: seq<T>, i: nat): (r: seq<T>)
    requires i < |xs|
    ensures |r| == |xs| - 1
    ensures forall j :: 0 <= j < i ==> r[j] == xs[j]
    ensures forall j :: i <= j < |r| ==> r[j] == xs[j + 1]
    ensures multiset(r) + multiset{xs[i]} == multiset(xs)
  {
    assert xs == xs[..i] + [xs[i]] + xs[i + 1..];
    xs[..i] + xs[i + 1..]
  }

  /** GetRandomQuestion with the uniformly drawn index supplied as `index`. */
  function GetRandomQuestion(s: Session, index: int): (d: Draw)
    requires IndexFits(s, index)
    ensures d.session.bank == s.bank
    ensures |Pool(s)| == 0 ==> d.question == EmptyQuestion && d.session.available == []
    ensures |Pool(s)| > 0 ==>
      && d.question == Pool(s)[index]
      && d.question in Pool(s)
      && |d.session.available| == |Pool(s)| - 1
      && (forall j :: 0 <= j < index ==> d.session.available[j] == Pool(s)[j])
      && (forall j :: index <= j < |d.session.available| ==> d.session.available[j] == Pool(s)[j + 1])
      && multiset(d.session.available) + multiset{d.question} == multiset(Pool(s))
  {
    var pool := Pool(s);
    if |pool| == 0 then
      Draw(EmptyQuestion, Session(s.bank, pool))
    else
      Draw(pool[index], Session(s.bank, RemoveAt(pool, index)))
  }

  /** Every index of a run of draws fits the pool at its turn. */
  predicate PicksFit(s: Session, picks: seq<int>)
    decreases |picks|
  {
    |picks| == 0 ||
    (IndexFits(s, picks[0]) && PicksFit(GetRandomQuestion(s, picks[0]).session, picks[1..]))
  }

  datatype Draws = Draws(questions: seq<Question>, session: Session)

  /** Consecutive draws with the given indices. */
  function DrawMany(s: Session, picks: seq<int>): Draws
    requires PicksFit(s, picks)
    decreases |picks|
  {
    if |picks| == 0 then Draws([], s)
    else
      var d := GetRandomQuestion(s, picks[0]);
      var rest := DrawMany(d.session, picks[1..]);
      Draws([d.question] + rest.questions, rest.session)
  }

  /** Draws from a pool that does not run dry take distinct pool entries:
      what was drawn plus what is left is exactly the pool. */
  lemma {:induction false} DrawManyPartition(s: Session, picks: seq<int>)
    requires |picks| <= |s.available|
    requires forall k :: 0 <= k < |picks| ==> 0 <= picks[k] < |s.available| - k
    ensures PicksFit(s, picks)
    ensures |DrawMany(s, picks).questions| == |picks|
    ensures multiset(DrawMany(s, picks).questions) + multiset(DrawMany(s, picks).session.available)
         == multiset(s.available)
    ensures |DrawMany(s, picks).session.available| == |s.available| - |picks|
    ensures DrawMany(s, picks).session.bank == s.bank
    decreases |picks|
  {
    if |picks| > 0 {
      var d := GetRandomQuestion(s, picks[0]);
      assert forall k :: 0 <= k < |picks[1..]| ==> picks[1..][k] == picks[k + 1];
      DrawManyPartition(d.session, picks[1..]);
      var rest := DrawMany(d.session, picks[1..]);
      assert DrawMany(s, picks).questions == [d.question] + rest.questions;
    }
  }

  /** Starting from a full pool, |bank| draws return every bank entry exactly
      once (as a multiset), leave the pool empty, and the next draw picks from
      the refilled bank. */
  lemma FullCycle(bank: seq<Question>, picks: seq<int>, next: int)
    requires |picks| == |bank|
    requires forall k :: 0 <= k < |picks| ==> 0 <= picks[k] < |bank| - k
    requires 0 <= next < |bank|
    ensures PicksFit(NewSession(bank), picks)
    ensures DrawMany(NewSession(bank), picks).session.bank == bank
    ensures multiset(DrawMany(NewSession(bank), picks).questions) == multiset(bank)
    ensures DrawMany(NewSession(bank), picks).session.available == []
    ensures
      var after := DrawMany(NewSession(bank), picks).session;
      var d := GetRandomQuestion(after, next);
      d.question == bank[next] && multiset(d.session.available) + multiset{bank[next]} == multiset(bank)
  {
    DrawManyPartition(NewSession(bank), picks);
  }

  /** The shape every bank entry has: four answers, four explanations, a
      correct index among the answers and a positive reward. */
  predicate WellFormed(q: Question) {
    && |q.answers| == 4
    && |q.explanations| == 4
    && 0 <= q.correctIndex < 4
    && q.pointsReward > 0
  }

  predicate AllWellFormed(bank: seq<Question>) {
    forall i :: 0 <= i < |bank| ==> WellFormed(bank[i])
  }

  /** A pool that only ever holds bank questions keeps doing so, and every
      draw from it returns a bank question. */
  lemma DrawStaysInBank(s: Session, index: int)
    requires multiset(s.available) <= multiset(s.bank)
    requires |s.bank| > 0 && IndexFits(s, index)
    ensures GetRandomQuestion(s, index).question in s.bank
    ensures AllWellFormed(s.bank) ==> WellFormed(GetRandomQuestion(s, index).question)
    ensures multiset(GetRandomQuestion(s, index).session.available) <= multiset(s.bank)
  {
    var p := Pool(s);
    var d := GetRandomQuestion(s, index);
    assert |p| > 0;
    assert d.question in multiset(p);
    assert multiset(p) <= multiset(s.bank);
    var j :| 0 <= j < |s.bank| && s.bank[j] == d.question;
  }

  /** CheckAnswer: the submitted index is the stored correct index. */
  function CheckAnswer(q: Question, selected: int): (ok: bool)
    ensures ok <==> selected == q.correctIndex
  {
    selected == q.correctIndex
  }

  /** Exactly one of the four answer slots is accepted when the correct index is one of them. */
  lemma CheckAnswerExactlyOne(q: Question)
    requires 0 <= q.correctIndex < 4
    ensures CheckAnswer(q, q.correctIndex)
    ensures forall i :: 0 <= i < 4 && i != q.correctIndex ==> !CheckAnswer(q, i)
    ensures |set i | 0 <= i < 4 && CheckAnswer(q, i)| == 1
  {
    assert (set i | 0 <= i < 4 && CheckAnswer(q, i)) == {q.correctIndex};
  }

  /** GetExplanation: the explanation aligned with the answer, or the fallback
      text for an index outside the explanation list. */
  function GetExplanation(q: Question, selected: int): (e: string)
    ensures 0 <= selected < |q.explanations| ==> e == q.explanations[selected]
    ensures !(0 <= selected < |q.explanations|) ==> e == FallbackExplanation
  {
    if 0 <= selected < |q.explanations| then q.explanations[selected] else FallbackExplanation
  }
}

=== FILE: trivia_bank.dfy ===
/**
  The question bank built by TriviaManager::InitializeQuestions: eighteen
  questions, each with four answers, the index of the correct one, a point
  reward and one explanation per answer.
 */
module TriviaBank {
  import opened Trivia

  const Bank: seq<Question> := [
    // Question 1
    Question(
      "Who is the boss of the hive and lays all the eggs?",
      ["Worker Bee", "Queen Bee", "Drone Bee", "Baby Bee"],
      1, 1000,
      [
        "Almost! Worker bees have many important jobs, like guarding the hive, collecting nectar, and pollinating flowers. But we don't lay eggs. Come back and try this flower again!",
        "Correct! The Queen is in charge and lays all the eggs.",
        "Almost! Drone bees mate with the Queen, but they can't lay eggs. Come back and try this flower again!",
        "Not quite! Baby bees can not lay eggs. Come back and try this flower again!"
      ]),
    // Question 2
    Question(
      "What are some jobs that worker bees do every day?",
      ["Laying eggs and fighting bugs", "Sleeping and buzzing", "Collecting nectar, making honey, and caring for babies", "Flying far away from the hive"],
      2, 1000,
      [
        "Almost! Worker bees do guard the hive, but we can't lay eggs. Come back and try this flower again!",
        "Not quite! Worker bees have many important jobs to do to keep the hive healthy and safe. Come back and try this flower again!",
        "Correct! These are just a few of the many important jobs worker bees have to keep their hive safe and healthy.",
        "Not quite! On average, worker bees actually stay within a mile of the hive during the day. Come back and try this flower again!"
      ]),
    // Question 3
    Question(
      "What is the main job of drone bees?",
      ["Collect nectar", "Guard the hive", "Help the queen make more bees", "Make honey"],
      2, 1500,
      [
        "Not quite! Drone bees do not collect nectar. They only have one job, which is to help the queen with something. What is it? Come back and try this flower again!",
        "Not quite! Drone bees do not guard the hive. They only have one job, which is to help the queen with something. What is it? Come back and try this flower again!",
        "Correct! Drone bees only have one job, which is to mate with the queen.",
        "Not quite! Drone bees do not make honey. They only have one job, which is to help the queen with something. What is it? Come back and try this flower again!"
      ]),
    // Question 4
    Question(
      "Why do bees visit flowers? What do they collect?",
      ["Rain and dirt", "Nectar and pollen", "Honey and leaves", "Seeds and stems"],
      1, 2000,
      [
        "Not quite! Think – what can you get from inside a flower? Come back and try this flower again!",
        "Correct! Bees collect nectar and pollen from flowers. The nectar becomes honey, and pollen helps plants reproduce.",
        "Not quite! Think – what can you get from inside a flower? Come back and try this flower again!",
        "Almost! Think – what can you get from inside a flower? Come back and try this flower again!"
      ]),
    // Question 5
    Question(
      "What sticks to bees when they visit flowers, helping plants grow?",
      ["Water", "Leaves", "Pollen", "Honey"],
      2, 1500,
      [
        "Not quite! Hint – it's inside the flower. Come back and try this flower again!",
        "Not quite! Hint – it's inside the flower. Come back and try this flower again!",
        "Correct! Pollen sticks to bees, and we spread it to other flowers which helps them grow more seeds and fruits.",
        "Not quite! Bees make honey, but what sticks to us when we visit flowers? Come back and try this flower again!"
      ]),
    // Question 6
    Question(
      "What happens when bees spread pollen from flower to flower?",
      ["The flowers wilt", "The flowers get sticky", "Fruits and veggies grow", "Bees get tired"],
      2, 1200,
      [
        "Not quite! Pollination helps flowers. Come back and try this flower again!",
        "Not quite! Come back and try this flower again!",
        "Correct! Pollen sticks to bees, and we spread it to other flowers which helps them grow more seeds and fruits.",
        "Not quite! Although we do get tired from a long day's work, when we spread pollen, it helps the flowers! Come back and try this flower again!"
      ]),
    // Question 7
    Question(
      "Name two foods we eat that need bees to grow?",
      ["Apples and almonds", "Pizza and burgers", "Bread and rice", "Cheese and pasta"],
      0, 1300,
      [
        "Correct! Bees are the primary pollinators for apples and almonds.",
        "Not quite! Come back and try this flower again!",
        "Not quite! These foods are made from grains, but remember, bees pollinate flowers. Come back and try this flower again!",
        "Not quite! Remember, bees pollinate flowers. These foods are made from milk, grains and eggs. Come back and try this flower again!"
      ]),
    // Question 8
    Question(
      "How do bees help animals like cows?",
      ["They clean cows", "They pollinate plants like alfalfa that cows eat", "They give cows honey", "They buzz around them"],
      1, 1400,
      [
        "Not quite! Hint– bees help with growing food for the cows. Come back and try this flower again!",
        "Correct! Bees pollinate many types of plants that animals eat, like alfalfa and clover that cows graze on.",
        "Not quite! Hint– bees help with growing food for the cows. Come back and try this flower again!",
        "Not quite! Hint– bees help with growing food for the cows. Come back and try this flower again!"
      ]),
    // Question 9
    Question(
      "How much of our food comes from pollinators like bees?",
      ["One-fourth", "One-third", "One-half", "All of it"],
      1, 1600,
      [
        "Close, but not quite! It's actually a little more than that. Come back and try this flower again!",
        "Correct! About one-third of all the food we eat depends on pollinators like bees. That's why protecting them is so important!",
        "Not quite! It's actually a little less than that. Come back and try this flower again!",
        "Not quite! Come back and try this flower again!"
      ]),
    // Question 10
    Question(
      "Why are bees called 'nature's tiny superheroes'?",
      ["They can fly really fast", "They wear capes", "They help organisms by pollinating", "They sting enemies"],
      2, 1700,
      [
        "Not quite! But it is fun to watch us zoom around, isn't it? Come back and try this flower again!",
        "Not quite! I wish I had a cape. Come back and try this flower again!",
        "Correct! Pollination helps plants grow more seeds and fruits. This means more food for animals and people!",
        "Not quite! It's true, we can fight enemies by stinging them, but we help nature in an even BIGGER way. Come back and try this flower again!"
      ]),
    // Question 11
    Question(
      "What is one thing humans do that makes life hard for bees?",
      ["Planting more flowers", "Giving bees water", "Spraying harmful pesticides", "Building bee hotels"],
      2, 1800,
      [
        "Not quite! This HELPS bees. But what do humans do that makes life hard? Come back and try this flower again!",
        "Not quite! This actually HELPS thirsty bees. But what do humans do that makes life hard? Come back and try this flower again!",
        "Correct. Most pesticides are dangerous for us. They can weaken, paralyze or even kill us.",
        "Not quite. Bee hotels are shelters humans can build out of tubes and sticks for bees to live in. This HELPS bees. Come back and try this flower again!"
      ]),
    // Question 12
    Question(
      "What happens when bees lose their habitats?",
      ["They find new flowers quickly", "They lose their homes and food", "They build nests in the sky", "They become bigger"],
      1, 1900,
      [
        "Not quite– when we lose our habitats, it's hard to find flowers. Come back and try this flower again!",
        "Yes– we lose our home and food. This is why habitat loss is such an important problem.",
        "Not quite– Come back and try this flower again!",
        "Not quite– Come back and try this flower again!"
      ]),
    // Question 13
    Question(
      "How can climate change confuse bees?",
      ["It helps them fly faster", "It gives them new colors", "It causes strange weather that makes it harder to find food", "It makes flowers grow everywhere"],
      2, 2000,
      [
        "Not quite! Climate change makes life HARD for bees. Come back and try this flower again!",
        "Not quite! Climate change makes life HARD for bees. Come back and try this flower again!",
        "Correct– Climate change makes life HARD for bees, because it changes the environment in confusing ways.",
        "Not quite! Climate change makes life HARD for bees. Come back and try this flower again!"
      ]),
    // Question 14
    Question(
      "Which insect attacks beehives and tries to take over?",
      ["Butterfly", "Murder Hornet", "Ladybug", "Bumblebee"],
      1, 2100,
      [
        "Not quite. Butterflies are actually pollinators, like us! They passed the vibe check. Come back and try this flower again!",
        "Correct. They are much bigger than us, so they can attack and destroy our nests. The only way to fight them is if we fight as a team! Let's do it right now.",
        "Not quite! Ladybugs actually eat aphids, which are critters who damage our plants. They're on our side fr fr. Come back and try this flower again!",
        "Not quite! Bumble bees are also pollinators, and they're like our cousins in the pollinator universe. No slander allowed. Come back and try this flower again!"
      ]),
    // Question 15
    Question(
      "What tiny pest sticks to bees and makes them sick?",
      ["Termites", "Hive Beetles", "Varroa Mites", "Mosquitoes"],
      2, 2200,
      [
        "Not quite. Termites eat wood, and they don't really bother us. Come back and try this flower again!",
        "Not quite. Hive beetles are not tiny pests, they are biggies, and they break into our hives and steal our honey. They are NOT invited to the cookout. Come back and try this flower again!",
        "Correct! Varroa mites stick to us and make us sick. Top tier menace behavior, zero rizz, infinite red flags.",
        "Not quite. Mosquitoes don't really bother us. Come back and try this flower again!"
      ]),
    // Question 16
    Question(
      "Which bug sneaks into hives and ruins the honey?",
      ["Hive Beetle", "Dragonfly", "Grasshopper", "Spider"],
      0, 2300,
      [
        "Correct! Hive beetles break into our hives and steal our honey. Major biggie energy.",
        "Not quite. Dragon flies are opps because they do eat bees, but they don't steal our honey. No biggie energy here. Come back and try this flower again!",
        "Not quite. Grasshoppers don't steal our honey. No biggie energy here. Come back and try this flower again!",
        "Not quite. Spiders are opps because they do catch and kill bees, but they don't steal our honey. No biggie energy here. Come back and try this flower again!"
      ]),
    // Question 17
    Question(
      "How do bees defend themselves from big predators like murder hornets?",
      ["They fly away", "They hide in flowers", "They form a 'bee ball' to trap and overheat the enemy", "They sting each other"],
      2, 2400,
      [
        "Not quite! While bees do dodge the opps, they actually can to fight them, even huge predators like the murder hornet! Hint– there is strength in numbers. Come back and try this flower again!",
        "Not quite! While bees do dodge the opps, they actually can to fight them, even huge predators like the murder hornet! Hint– there is strength in numbers. Come back and try this flower again!",
        "Correct! Even though one bee is too small to fight a huge enemy, we can defeat them if we work as a team.",
        "Not quite! Hint– there is strength in numbers. Come back and try this flower again!"
      ]),
    // Question 18
    Question(
      "Which of these is not a predator or danger to bees?",
      ["Hive Beetles", "Varroa Mites", "Murder Hornets", "Ladybugs"],
      3, 2500,
      [
        "Not quite. Hive beetles break into our hives and steal our honey. Major opp behavior. Come back and try this flower again!",
        "Not quite. Varroa mites stick to us and make us sick. Major opp behavior. Come back and try this flower again!",
        "Not quite. Murder hornets attack and destroy our nests. Major opp behavior. Come back and try this flower again!",
        "Correct. Ladybugs eat aphids, which are critters who damage our plants. Green flags all the way."
      ])
  ]

  /** The trivia manager as constructed: the pool starts as the whole bank. */
  function InitialSession(): (s: Session)
    ensures s.bank == Bank && s.available == Bank
  {
    NewSession(Bank)
  }

  lemma BankShape()
    ensures |Bank| == 18
    ensures AllWellFormed(Bank)
  {
  }

  /** For each of the eighteen bank questions every answer slot has its own
      explanation: the fallback text is never shown. */
  lemma BankExplanations(i: nat, selected: int)
    requires i < 18 && 0 <= selected < 4
    ensures GetExplanation(Bank[i], selected) == Bank[i].explanations[selected]
    ensures GetExplanation(Bank[i], selected) != FallbackExplanation
  {
    BankShape();
  }
}
